=== FILE: README.md ===
# Gym management agent — a Dafny model of its core

The system manages a gymnastics school: students (`alumnos`), their payments
(`pagos`), notes (`notas`), attendance (`asistencias`), appointments (`citas`),
price history and shifts. It has two parts. A Python agent backend exposes
CRUD "tools" over four JSON collections to a language-model agent. A Next.js
front end validates forms, paginates lists, raises alerts, exports the
appointment calendar, and relays chat messages to the agent.

This project models the core of both halves in Dafny as pure functions over
immutable data:

- **Agent tools** (`records.dfy`, `pyvalue.dfy`, `agent_tools.dfy`,
  `agent_tools_laws.dfy`, `payment_order.dfy`, `agent_summary.dfy`).
  - A record is a `map<string, Value>` over Python-like values (`None`,
    booleans, integers, strings). A collection is a `seq<Record>`.
  - A tool call takes the collection and returns a `Step`: the
    `{status, message, data}` envelope plus the collection as it would be
    written back. Reading and writing the JSON files becomes passing this
    state along.
  - A Python exception the tools can raise (a `KeyError` on `a['id']`, an
    `AttributeError` from `.lower()` on a non-string) is an explicit `Raised`
    outcome.
  - The uuid a create generates is a parameter, required not to clash with
    an existing id.
  - The payment read's stable descending sort by date is a stable insertion
    sort. The order on keys agrees with Python wherever Python can compare
    them. The `TypeError` fallback is taken exactly when Python would have to
    compare incomparable keys.
- **The older copy of the tools** (`legacy_tools.dfy`). It is a second
  instance of the same collections, with lemmas comparing it with the backend.
- **Appointments** (`citas.dfy`, `citas_export.dfy`). Times of day are minutes
  (`HH:MM` strings where the source compares strings), and dates are day
  numbers. The appointments the database would return are an input list.
  The iCalendar output follows the VCALENDAR/VEVENT layout of sections 3.4
  and 3.6.1 of RFC 5545, with the UTC DATE-TIME form of section 3.3.5.
- **Front-end utilities**:
  - query builders (`query_utils.dfy`);
  - validators (`error_handling.dfy`, over the JavaScript number and
    nullish values of `js_values.dfy`);
  - client pagination (`pagination.dfy`);
  - month arithmetic (`date_utils.dfy`);
  - the payment and note hooks (`pagos_hook.dfy`, `notas_hook.dfy`);
  - the price-history and shift forms (`price_history_form.dfy`,
    `shift_form.dfy`);
  - the alert rule (`alertas.dfy`);
  - the chat API route (`agente_route.dfy`).

`common.dfy` holds shared string and sequence vocabulary:
- decimal rendering;
- join and split;
- ASCII case mapping and trimming;
- lexicographic order;
- concatenated maps.

## Model

| member | source | states |
|---|---|---|
| PyValue.PyEqIsEquivalence | agente-ia-backend/src/agent/agent/agent.py:111 | Python `==` on stored values (where `True == 1`) is reflexive, symmetric and transitive, so "the record with this id" is well defined |
| PyValue.KeyLeTotal | agente-ia-backend/src/agent/agent/agent.py:202 | any two date keys are comparable under the sort order |
| PyValue.KeyLeTransitive | agente-ia-backend/src/agent/agent/agent.py:202 | the sort order on date keys is transitive |
| Records.FindGet | agente-ia-backend/src/agent/agent/agent.py:187 | the result is the first index whose `id` matches under a lenient lookup, or none when no record matches |
| Records.FindGetFirst | agente-ia-backend/src/agent/agent/agent.py:216 | conversely, whenever index `i` is the first match, the search returns exactly `i` |
| Records.RemoveGet | agente-ia-backend/src/agent/agent/agent.py:232 | the kept records are exactly the non-matching ones, all taken from the input; the length is unchanged iff nothing matched |
| Records.RemoveGetAppend | agente-ia-backend/src/agent/agent/agent.py:232 | filtering a concatenation filters each part, so the kept records stay in stored order, each once |
| Records.Linked | agente-ia-backend/src/agent/agent/agent.py:197 | the result holds every record that has `alumno_id` equal to the value, and only such records |
| Records.LinkedAppend | agente-ia-backend/src/agent/agent/agent.py:197 | selecting from a concatenation selects from each part, so the selected records stay in stored order |
| Records.ScanKey | agente-ia-backend/src/agent/agent/agent.py:111 | a hit is the first record whose `id` equals the value; a miss means every record has an `id` and none equals it; a `KeyError` means some record lacks `id` |
| Records.ScanNameFindsFirst | agente-ia-backend/src/agent/agent/agent.py:120 | when all names are strings, the name search never raises; it finds the first record matching both names case-insensitively, or reports that none matches |
| Records.ScanNameFirst | agente-ia-backend/src/agent/agent/agent.py:120 | whenever `i` is the first case-insensitive match, the search returns exactly `i` |
| AgentTools.PatchTwo | agente-ia-backend/src/agent/agent/agent.py:221-222 | only the two named fields may change, each to the payload's value; a non-empty record stays non-empty |
| AgentTools.StudentCreate | agente-ia-backend/src/agent/agent/agent.py:100-109 | success iff the payload has both `nombre` and `apellido`; a rejection carries the fixed message and leaves the collection as it was; a success stores the whole payload plus the fresh id, appended last, and returns it |
| AgentTools.StudentRead | agente-ia-backend/src/agent/agent/agent.py:110-130 | read priority: a truthy `id` returns the first record with that id or "not found" (when every student has an `id`); otherwise two string names return the first case-insensitive match (when every stored name is a string); otherwise an empty or missing payload lists every student; any other payload gets the default error; errors carry no data |
| AgentTools.StudentUpdate | agente-ia-backend/src/agent/agent/agent.py:131-140 | success iff some student has the id; the first such record becomes its merge with the whole payload, and every other record and the length are unchanged; an unknown id gives the fixed error and no change |
| AgentTools.StudentDelete | agente-ia-backend/src/agent/agent/agent.py:141-149 | raises `KeyError` iff some student lacks an `id`; otherwise succeeds iff some student has the id, removes exactly the students with that id, keeping the rest in stored order, and returns null data; else the fixed error and no change |
| AgentTools.CrudAlumnos | agente-ia-backend/src/agent/agent/agent.py:92-151 | an unknown action gives the default error envelope; reads never change the collection; every error leaves the collection unchanged with null data |
| AgentTools.NewPayment | agente-ia-backend/src/agent/agent/agent.py:175-180 | the stored payment has exactly the fields `id`, `alumno_id`, `fecha` and `monto`: the fresh id and the payload's three values |
| AgentTools.PaymentCreate | agente-ia-backend/src/agent/agent/agent.py:172-183 | success iff `alumno_id`, `fecha` and `monto` are all present; a rejection leaves the collection unchanged; a success appends exactly the four-field payment and returns it |
| AgentTools.PaymentsOfStudent | agente-ia-backend/src/agent/agent/agent.py:194-208 | the list is a permutation of the student's payments; when Python can compare the dates it is newest first, and payments with equal dates keep their stored order; otherwise it is the stored order |
| AgentTools.PaymentRead | agente-ia-backend/src/agent/agent/agent.py:185-210 | a truthy `id` returns the first matching payment or "Pago no encontrado."; a missing payload or one without `alumno_id` lists all payments; a truthy `alumno_id` returns that student's sorted payments; a falsy one is an error |
| AgentTools.PaymentUpdate | agente-ia-backend/src/agent/agent/agent.py:212-226 | success iff the first payment with the id exists and is non-empty (an empty dict is falsy); only its `fecha` and `monto` may change, and every other payment and the length are unchanged; otherwise the fixed error and no change |
| AgentTools.PaymentDelete | agente-ia-backend/src/agent/agent/agent.py:228-236 | success iff some payment has the id; it removes exactly those payments, keeps the rest in stored order and returns `{id}`; otherwise the fixed error and no change |
| AgentTools.CrudPagos | agente-ia-backend/src/agent/agent/agent.py:154-239 | an unknown action gives "Acción no reconocida para pagos."; reads never write; an update or delete without `id` is an error with no write; every error carries null data and leaves the collection unchanged |
| AgentTools.LinkedCreate | agente-ia-backend/src/agent/agent/agent.py:252-261 | a note or attendance is created iff the payload has `alumno_id`, `fecha` and the entity's third field; it stores the whole payload plus the fresh id, appended last; otherwise the entity's message and no change |
| AgentTools.LinkedRead | agente-ia-backend/src/agent/agent/agent.py:262-279 | a truthy `id` gives the first match or "not found"; a truthy `alumno_id` gives exactly that student's records in stored order, unsorted; an empty or missing payload lists everything; any other payload is the "unrecognised" error |
| AgentTools.LinkedUpdate | agente-ia-backend/src/agent/agent/agent.py:280-291 | success iff some record has the id; the first one may change only `fecha` and the third field (`contenido` for notes, `estado` for attendance); everything else is unchanged |
| AgentTools.LinkedDelete | agente-ia-backend/src/agent/agent/agent.py:292-302 | success iff some record has the id; it removes exactly those records, keeps the rest in stored order and returns `{id}`; otherwise the fixed error and no change |
| AgentTools.CrudLinked | agente-ia-backend/src/agent/agent/agent.py:242-305 | for notes, and likewise for attendance: an unknown action gives the entity's "unrecognised" message; reads never write; errors leave the collection unchanged with null data; a successful update touches one record and only `fecha` and the third field |
| AgentToolsLaws.StudentCreateThenRead | agente-ia-backend/src/agent/agent/agent.py:100-117 | reading the fresh id right after a successful student create returns the created record |
| AgentToolsLaws.StudentDeleteThenRead | agente-ia-backend/src/agent/agent/agent.py:110-149 | after deleting an id, reading that id reports "Alumno no encontrado." |
| AgentToolsLaws.PaymentCreateThenRead | agente-ia-backend/src/agent/agent/agent.py:172-191 | reading the fresh id after a payment create returns the created payment |
| AgentToolsLaws.PaymentUpdateThenRead | agente-ia-backend/src/agent/agent/agent.py:186-226 | after a successful payment update, reading the id returns the updated payment |
| AgentToolsLaws.PaymentDeleteThenRead | agente-ia-backend/src/agent/agent/agent.py:186-236 | after a payment delete, reading the id reports "Pago no encontrado." |
| AgentToolsLaws.LinkedUpdateThenRead | agente-ia-backend/src/agent/agent/agent.py:262-291 | after a successful note or attendance update, reading the id returns the updated record |
| AgentToolsLaws.LinkedDeleteThenRead | agente-ia-backend/src/agent/agent/agent.py:262-302 | after a note or attendance delete, reading the id reports the kind's "not found" message |
| AgentToolsLaws.LinkedCreateThenList | agente-ia-backend/src/agent/agent/agent.py:252-275 | a created note or attendance appears in its student's list |
| PaymentOrder.SortDesc | agente-ia-backend/src/agent/agent/agent.py:202 | the sorted list is a permutation of its input |
| PaymentOrder.SortBySorted | agente-ia-backend/src/agent/agent/agent.py:202 | insertion sort by any key yields a list in which no later element has a greater key |
| PaymentOrder.SortByStable | agente-ia-backend/src/agent/agent/agent.py:202 | for every key value, the elements with that key appear in the same relative order as in the input |
| PaymentOrder.SortDescSorted | agente-ia-backend/src/agent/agent/agent.py:202 | payments come newest first, with a missing `fecha` counted as `0000-00-00` |
| PaymentOrder.SortDescStable | agente-ia-backend/src/agent/agent/agent.py:202 | payments with equal dates keep their stored order |
| PaymentOrder.SortDescHeadIsLatest | agente-ia-backend/src/agent/agent/agent.py:448-451 | the first sorted payment is one of the input payments, and no payment has a later date |
| AgentSummary.SectionLines | agente-ia-backend/src/agent/agent/agent.py:394-400 | one line per record, in order, each rendered from that record; with no records, the single "No hay …" sentence naming the student |
| AgentSummary.EmptySentenceNamesStudent | agente-ia-backend/src/agent/agent/agent.py:394-400 | the empty-section sentence starts "No hay " and ends with the student's full name and a full stop |
| AgentSummary.ResumenAlumno | agente-ia-backend/src/agent/agent/agent.py:379-417 | with every student carrying an `id` it never raises; a summary exists iff a student has the id; its text is built from the first stored student with that id and the student's payments, notes and attendance as the reads return them |
| AgentSummary.SummaryTextIsLines | agente-ia-backend/src/agent/agent/agent.py:403-413 | the summary text is its heading, three headed sections and a trailing empty line, joined by newlines |
| AgentSummary.SummarySplitsIntoLines | agente-ia-backend/src/agent/agent/agent.py:403-413 | when no rendered line contains a newline, splitting the summary at newlines gives back exactly its lines |
| AgentSummary.ReadByStudent | agente-ia-backend/src/agent/agent/agent.py:389 | the summary's payment read by student is the student's sorted payment list |
| AgentSummary.LinesOfPermutation | agente-ia-backend/src/agent/agent/agent.py:394 | a section rendered from any reordering of the student's records has a line for every record and no other line |
| AgentSummary.SummaryListsStudentPayments | agente-ia-backend/src/agent/agent/agent.py:389-394 | the payment section lists every payment of the student and nothing else |
| AgentSummary.LatestPayment | agente-ia-backend/src/agent/agent/agent.py:441-453 | always a success; null data and "No se encontraron pagos…" iff the student has no payments; otherwise, when dates compare, the first stored of the student's payments with the latest date, and when they do not, the student's first stored payment |
| AgentSummary.UltimoPagoAlumno | agente-ia-backend/src/agent/agent/agent.py:429-437 | every error carries null data; an empty first name or surname, or (with string names) no student of that name, gives "Alumno nombre apellido no encontrado para verificar el último pago." |
| AgentSummary.UltimoPagoNoId | agente-ia-backend/src/agent/agent/agent.py:429-437 | when the first student matching the names has no truthy id (a missing id reads as null), the answer is "No se pudo obtener el ID del alumno nombre apellido." with null data |
| AgentSummary.UltimoPagoFindsStudent | agente-ia-backend/src/agent/agent/agent.py:429-446 | when the first student matching the names has a truthy id, the answer is the latest-payment reply for that id, naming "nombre apellido" |
| AgentSummary.UltimoPagoIsLatest | agente-ia-backend/src/agent/agent/agent.py:429-453 | for a found student the call succeeds; data is null iff the student has no payments; otherwise it is the first stored of the student's payments with the latest date |
| AgentSummary.HeadIsFirstLatest | agente-ia-backend/src/agent/agent/agent.py:450-453 | the head of a stably date-sorted permutation is the first input payment with the greatest date |
| AgentSummary.SortedHeadIsMax | agente-ia-backend/src/agent/agent/agent.py:450 | the head of a date-sorted permutation is an input payment with the greatest date |
| AgentSummary.ListarNombresAlumnos | agente-ia-backend/src/agent/agent/agent.py:34-52 | one name per student, in order, stripped as Python's `strip()` does; "No hay alumnos registrados." for none, otherwise "Listado de N nombres de alumnos." |
| AgentSummary.DisplayNameBlank | agente-ia-backend/src/agent/agent/agent.py:46 | a listed name is empty iff both first name and surname are whitespace only as Python sees it (the ASCII blanks and U+001C..U+001F) |
| LegacyTools.FilterStrict | src/agent/agent/agent.py:142 | the filter raises `KeyError` iff some record lacks the key, and otherwise returns exactly the linked records in stored order |
| LegacyTools.LegacyCreate | src/agent/agent/agent.py:65-71 | any non-empty payload is stored whole with the fresh id, appended last, without any required-field check |
| LegacyTools.LegacyReadById | src/agent/agent/agent.py:72-79 | with every record carrying an `id` it never raises; success iff a record has the id, returning the first |
| LegacyTools.LegacyRead | src/agent/agent/agent.py:133-149 | a truthy `id` reads by id; for payments, notes and attendance a truthy `alumno_id` returns the stored-order matches, unsorted, raising iff a record lacks `alumno_id`; any other read lists the whole collection |
| LegacyTools.LegacyUpdate | src/agent/agent/agent.py:150-159 | the first record with the id becomes its merge with the whole payload, for every entity; the others are unchanged |
| LegacyTools.LegacyDelete | src/agent/agent/agent.py:160-168 | raises iff some record lacks `id`; success iff a record has the id, which removes exactly those records and keeps the rest in stored order, with null data |
| LegacyTools.LegacyCrud | src/agent/agent/agent.py:55-113 | an unknown action gives the default error; create succeeds iff the payload is truthy; reads never write; errors leave the collection unchanged with null data |
| LegacyTools.StudentRecords | src/agent/agent/agent.py:302-304 | the summary's per-student read raises iff a record lacks `alumno_id`; with an empty id it returns the whole collection |
| LegacyTools.LegacyResumenAlumno | src/agent/agent/agent.py:287-330 | a summary exists iff a student has the id, and it is built from the first such student; its sections list the student's records, or every record when the id is empty |
| LegacyTools.LegacyStudentCreateAgrees | src/agent/agent/agent.py:65-71 | with both names present the two versions create identically; without them the backend refuses while the older one still appends |
| LegacyTools.LegacyStudentReadAgrees | src/agent/agent/agent.py:72-92 | the two student reads agree except on a non-empty payload with neither id nor both names, which the backend rejects and the older one answers with every student |
| LegacyTools.LegacyStudentUpdateAgrees | src/agent/agent/agent.py:93-102 | the two student updates are identical |
| LegacyTools.LegacyPaymentsArePermutation | src/agent/agent/agent.py:141-145 | the older payment read by student returns the same payments as the backend, only not sorted |
| LegacyTools.LegacyPaymentLineAgrees | src/agent/agent/agent.py:307 | the older summary line matches the backend's when `fecha_pago` is present, and otherwise shows an empty date |
| LegacyTools.LegacyDeleteThenRead | src/agent/agent/agent.py:103-111 | after a delete, reading the id reports the entity's "not found" message |
| Citas.After | src/services/citas.ts:303-304 | the end time is start plus duration whenever that stays within the day |
| Citas.ClockOrder | src/services/citas.ts:497 | comparing two `HH:MM` strings orders them exactly as their minutes |
| Citas.ParseClockRoundTrip | src/services/citas.ts:26 | reading back a rendered `HH:MM` time gives the original minute |
| Citas.TimesOverlap | src/services/citas.ts:491-498 | intervals that overlap cannot touch end to start |
| Citas.ClockOverlap | src/services/citas.ts:491-498 | on `HH:MM` times the test holds iff `s1 < e2` and `s2 < e1`; for proper intervals, iff they share a minute; it is symmetric; touching intervals do not overlap |
| Citas.RecurringInterval | src/services/citas.ts:473-480 | the step is 1 exactly for `daily`, 30 exactly for `monthly`, and 7 otherwise |
| Citas.RecurringDates | src/services/citas.ts:427-440 | the k-th date is base plus (k+1) steps; every date is after the base and no later than the end; the list is strictly increasing; one more step would pass the end |
| Citas.Candidates | src/services/citas.ts:306-316 | exactly the same-day appointments that are not cancelled and are not the excluded one |
| Citas.CitaConflicts | src/services/citas.ts:322-355 | an appointment yields one overlap/high conflict when the booking runs into it and one buffer/medium conflict when the booking runs into its buffered interval, in that order |
| Citas.NoConflictsIffNoClash | src/services/citas.ts:358-361 | the conflict list is empty iff every candidate is clear of both overlap and buffer |
| Citas.CheckAvailability | src/services/citas.ts:294-361 | available iff the conflict list is empty, iff every same-day, non-cancelled, non-excluded appointment is clear of the booking and of its buffer |
| Citas.OverlapImpliesBuffer | src/services/citas.ts:329-355 | when the buffer does not cross midnight, an overlapping appointment is also a buffer conflict |
| Citas.PairConflict | src/services/citas.ts:387-399 | a pair conflicts iff the second starts strictly inside the first; the conflict carries `id1-id2`, "title1 vs title2" and the second start |
| Citas.PairsOfConflicts | src/services/citas.ts:382-401 | a conflict is reported iff some pair `a < b` has `b` starting inside `a` and the conflict describes that pair |
| Citas.RowConflicts | src/services/citas.ts:383-400 | the inner loop collects the pair conflicts of one appointment with every later one, in order |
| Citas.AllPairConflicts | src/services/citas.ts:382-401 | the nested loops collect exactly the pairwise conflicts, row by row |
| Citas.ByTime | src/services/citas.ts:371-376 | the day's rows in time order, a reordering of the query result |
| Citas.GetConflicts | src/services/citas.ts:368-403 | the conflicts are those of the pair loop run over the day's rows in time order, and they are exactly the pairs of non-cancelled appointments of that day in which one starts strictly inside the other |
| Citas.WithDefaults | src/services/citas.ts:148-161 | falsy values take the defaults: duration 60 (also for 0), status `scheduled`, type `individual`, recurring false, capacity 1, buffer 15 (also for 0); given non-zero values and all other fields are kept |
| Citas.WithDefaultsIdempotent | src/services/citas.ts:148-161 | filling the defaults twice changes nothing more |
| Citas.ToRow | src/services/citas.ts:148-169 | the insert row has exactly the columns whose values are defined, with those values, and never `id`, `created_at` or `updated_at` |
| Citas.RowRoundTrip | src/services/citas.ts:21-40 | reading back a written row gives the original appointment data |
| Citas.InsertRow | src/services/citas.ts:148-169 | the insert always carries the six defaulted columns and reads back as the defaulted draft |
| Citas.CreateCita | src/services/citas.ts:131-169 | refused with "El horario seleccionado no está disponible" iff a date and time are given and some same-day, non-cancelled appointment clashes (duration 60 and buffer 15 when unset); otherwise the defaulted row is inserted |
| Citas.CopyOnOnlyMovesDate | src/services/citas.ts:431-437 | a recurring copy differs from the base appointment only in its date |
| Citas.CreateRecurringCitas | src/services/citas.ts:425-471 | nothing is inserted iff the first step already passes the end date; otherwise the copies fall on base plus 1..n steps, with n the largest count that stays within the end date |
| CitasExport.Quote | src/services/citas.ts:520 | a cell is wrapped in double quotes with its content unchanged and unescaped |
| CitasExport.CsvRows | src/services/citas.ts:506-520 | one line per appointment, in order |
| CitasExport.CsvLines | src/services/citas.ts:500-521 | when no cell contains a newline, the export splits into exactly 1 + n lines: the header, then one per appointment |
| CitasExport.CsvLineCells | src/services/citas.ts:520 | when no cell contains a comma, splitting a line at commas gives the quoted cells, and unquoting each returns the cell |
| CitasExport.DropDashColon | src/services/citas.ts:551 | the result has no dash or colon, and every character in it comes from the input |
| CitasExport.FormatICalDate | src/services/citas.ts:550-552 | the text ends in `Z`, with no dash, colon or dot before it |
| CitasExport.ICalDateIsUtcDateTime | src/services/citas.ts:550-552 | for an ISO instant, the result is the UTC DATE-TIME form `YYYYMMDDTHHMMSSZ` of section 3.3.5 of RFC 5545 |
| CitasExport.CalendarReadsBack | src/services/citas.ts:541-547 | when no field contains a newline, the calendar splits into 4 + 8n lines: the three header lines, each event's eight lines in order, and END:VCALENDAR |
| CitasExport.ICalLines | src/services/citas.ts:524-548 | the same line layout holds for the export with the real date stamps |
| QueryUtils.PageRange | src/utils/queryUtils.ts:20-27 | page 1 and size 10 by default; the range starts at `(page-1)*size` and covers `size` rows |
| QueryUtils.PagesAdjacent | src/utils/queryUtils.ts:24-25 | each page starts right after the previous one ends |
| QueryUtils.PageOfRow | src/utils/queryUtils.ts:24-25 | row `i` lies in page `i / size + 1` and in no other, so pages are disjoint and cover every row |
| QueryUtils.ApplyOrder | src/utils/queryUtils.ts:30-36 | without `orderBy` the query is unchanged; otherwise one order call is added, ascending only for `asc` (descending by default) |
| QueryUtils.OrderKeepsRows | src/utils/queryUtils.ts:30-36 | ordering never changes which rows a query admits |
| QueryUtils.ApplyDateRange | src/utils/queryUtils.ts:39-51 | the date bounds only extend the query, by at most two calls, each a lower or upper bound on the caller's column, `fecha` by default |
| QueryUtils.DateRangeAdmits | src/utils/queryUtils.ts:39-51 | for any column the caller names (`fecha` by default), a row passes iff it passed before and its value in that column lies within each given bound, both bounds included; an absent or empty bound imposes nothing |
| QueryUtils.BuildWhereClause | src/utils/queryUtils.ts:53-57 | exactly the entries whose value is neither undefined nor null are kept, unchanged |
| QueryUtils.BuildWhereClauseIdempotent | src/utils/queryUtils.ts:53-57 | filtering a second time changes nothing |
| QueryUtils.ChunksFlatten | src/utils/queryUtils.ts:59-68 | concatenating the batches gives back the items |
| QueryUtils.ChunksShape | src/utils/queryUtils.ts:59-68 | there are ceil(n / size) batches; each holds 1 to size items; all but the last hold exactly size |
| QueryUtils.OptimizeBatchQuery | src/utils/queryUtils.ts:59-68 | the batching loop yields batches that concatenate to the input, ceil(n / size) of them, each non-empty and at most size, all but the last full |
| ErrorHandling.HandleDatabaseError | src/utils/errorHandling.ts:17-22 | an unexpected error's message is prefixed with "Error inesperado (context): ", a database error's with "Error en operación de base de datos (context): ", and every wrapped message ends with the original one |
| ErrorHandling.HandleDatabaseErrorIn | src/utils/errorHandling.ts:1-22 | the call returns a message iff `PostgrestError` is bound; otherwise it throws the ReferenceError |
| ErrorHandling.HandleDatabaseErrorAsWritten | src/utils/errorHandling.ts:1-22 | with the module's bindings as written every call throws "PostgrestError is not defined"; with the import restored every call returns the `HandleDatabaseError` message |
| ErrorHandling.ValidateRequired | src/utils/errorHandling.ts:24-28 | passes iff the value is neither null nor undefined; otherwise "El campo X es requerido" |
| ErrorHandling.RequiredAcceptsFalsy | src/utils/errorHandling.ts:24-28 | 0, the empty string and false all pass |
| ErrorHandling.ValidateNumericRange | src/utils/errorHandling.ts:45-49 | passes iff the value lies between the bounds under JavaScript comparison, so NaN passes; a failure carries the "debe estar entre" message naming both bounds |
| ErrorHandling.NumericRangeEndsPass | src/utils/errorHandling.ts:45-49 | both bounds are inclusive |
| ErrorHandling.ValidateDateRange | src/utils/errorHandling.ts:30-43 | a missing or empty end date always passes; an unparsable date fails with "Fechas inválidas"; otherwise it passes iff start is not after end, and a start after the end fails with "La fecha de inicio debe ser anterior a la fecha de fin" |
| ErrorHandling.DateRangeAcceptsEqual | src/utils/errorHandling.ts:40-42 | equal start and end dates pass |
| JsValues.ToNum | src/utils/errorHandling.ts:46 | a comparison reads a given number as itself, null as 0 and undefined as NaN |
| Pagination.Slice | src/hooks/usePagination.ts:16 | for non-negative bounds the slice is the clipped range of items; it is never longer than the list |
| Pagination.PageItems | src/hooks/usePagination.ts:13-17 | page p shows items `[(p-1)*n, p*n)` clipped to the list; never more than n items; page 0 shows nothing |
| Pagination.TotalPages | src/hooks/usePagination.ts:19 | the page count is the least number of pages holding all items, 0 for none |
| Pagination.Step | src/hooks/usePagination.ts:21-32 | next stops at the last page, previous stops at page 1, and go-to clamps into `1..max(total, 1)` |
| Pagination.EmptyListMoves | src/hooks/usePagination.ts:21-32 | on an empty list, next drops to page 0 while go-to gives page 1 |
| Pagination.MovesStayReachable | src/hooks/usePagination.ts:21-32 | any sequence of moves keeps the page in the reachable range |
| Pagination.ReachablePageFits | src/hooks/usePagination.ts:13-19 | whatever moves are made from page 1, the page shown never exceeds the page size |
| Pagination.PagesCoverItems | src/hooks/usePagination.ts:13-19 | pages 1 to totalPages, concatenated, are exactly the items |
| DateUtils.MonthsBetween | src/utils/dateUtils.ts:27-32 | the difference is the count of months between the two year-month positions |
| DateUtils.MonthsBetweenZeroAntisymmetric | src/utils/dateUtils.ts:27-32 | zero from a date to itself; swapping the dates negates it |
| DateUtils.MonthsBetweenAdditive | src/utils/dateUtils.ts:27-32 | differences add up along a chain of dates |
| DateUtils.MonthsBetweenIgnoresDay | src/utils/dateUtils.ts:27-32 | the day of the month never matters |
| PagosHook.PresenceChecks | src/hooks/usePagos.ts:226-232 | passes iff all seven required fields are given |
| PagosHook.RangeChecks | src/hooks/usePagos.ts:234-236 | passes iff `monto >= 0`, `mes` is in 1..12 and `anio` is in 2000..2100, all inclusive |
| PagosHook.PagoChecks | src/hooks/usePagos.ts:226-236 | passes iff the payment is valid; a missing `alumnoId` is reported first |
| PagosHook.HandleCreatePago | src/hooks/usePagos.ts:224-244 | the mutation receives the payment iff it is valid; otherwise the validation message is wrapped as an unexpected "crear pago" error |
| PagosHook.CreateRejectsMissing | src/hooks/usePagos.ts:226-232 | any null or undefined required field rejects the payment |
| PagosHook.HandleCreatePagosBulk | src/hooks/usePagos.ts:247-269 | the batch goes to the mutation iff every payment is valid; a rejection reports the first bad payment, named by its 1-based index |
| PagosHook.HandleUpdatePago | src/hooks/usePagos.ts:272-290 | the update goes through iff each range field that is present is within its range; otherwise the first failing check of `monto`, `mes`, `año` (in that order) gives its "debe estar entre" message wrapped for "actualizar pago" |
| PagosHook.UpdateRequiresNothing | src/hooks/usePagos.ts:274-284 | an update that gives no range field always goes through |
| PagosHook.TotalPages | src/hooks/usePagos.ts:306 | 1 before any data; otherwise the least page count covering the total with `pageSize` (10 when unset or 0) |
| NotasHook.MapNotaToDB | src/hooks/useNotas.ts:31-39 | the row has exactly the five columns `alumno_id`, `fecha`, `contenido`, `tipo` and `visible_en_reporte` |
| NotasHook.MapNotaRoundTrip | src/hooks/useNotas.ts:31-39 | reading the row back recovers every mapped field; only the grade is dropped |
| NotasHook.HandleCreateNota | src/hooks/useNotas.ts:114-130 | the argument-less mutation runs iff `alumnoId`, `fecha` and `tipo` are given and any given grade is in 1..10; a missing `alumnoId`, then a missing `fecha`, then a missing `tipo`, then a bad grade, gives its own wrapped "crear nota" message |
| NotasHook.HandleUpdateNota | src/hooks/useNotas.ts:133-145 | an update requires no field and the argument-less mutation runs iff any given grade is in 1..10; a rejection wraps the grade message as "actualizar nota" |
| NotasHook.GradeRangeShared | src/hooks/useNotas.ts:120-137 | create and update apply the same grade range; grades 0 and 11 are rejected by both |
| PriceHistoryForm.ValidateFechas | src/components/precios/PriceHistoryForm.tsx:45-61 | reports the overlap message iff some price other than the one being edited clashes with the range |
| PriceHistoryForm.ClosedClashIffShareDay | src/components/precios/PriceHistoryForm.tsx:53-56 | two proper closed ranges clash iff they share a day |
| PriceHistoryForm.OpenEndedAlwaysClashes | src/components/precios/PriceHistoryForm.tsx:53-56 | a range without an end date, on either side, always clashes |
| PriceHistoryForm.SharedDayClashes | src/components/precios/PriceHistoryForm.tsx:53-56 | ranges that share a day always clash |
| PriceHistoryForm.OpenRangeAfterClosedClashes | src/components/precios/PriceHistoryForm.tsx:53-56 | an open range starting after a closed one has ended clashes with it although no day is shared |
| PriceHistoryForm.EditedRecordIgnored | src/components/precios/PriceHistoryForm.tsx:49 | the price being edited never clashes with itself |
| PriceHistoryForm.HandleSubmit | src/components/precios/PriceHistoryForm.tsx:75-101 | submits the form unchanged iff the student is not blank, the price is above 0, a start date is set and no clash exists; the first failed check, in that order, gives its message |
| ShiftForm.InitialForm | src/app/configuracion/turnos/ShiftForm.tsx:11-16 | a new shift starts empty and active; an existing one copies its fields and stays active unless explicitly inactive |
| ShiftForm.HandleSubmit | src/app/configuracion/turnos/ShiftForm.tsx:32-45 | saves the form unchanged iff the name is not blank, both times are set and start precedes end as strings; a missing field gives "Todos los campos son obligatorios", and a start not strictly before the end gives "El horario de inicio debe ser menor al de fin" |
| ShiftForm.EqualTimesRejected | src/app/configuracion/turnos/ShiftForm.tsx:39-42 | equal start and end times are rejected with the order message |
| ShiftForm.ClockShiftSaved | src/app/configuracion/turnos/ShiftForm.tsx:39-45 | with `HH:MM` times, a named shift is saved iff it starts before it ends |
| Alertas.FindConfig | src/services/alertas.ts:30 | a configuration is found iff one has the type, and the one found is the first that has it |
| Alertas.AlertsFor | src/services/alertas.ts:29-63 | a student with alerts off gets none; otherwise at most two, each naming the student, dismissible and stamped now, attendance before payment |
| Alertas.PushAlerts | src/services/alertas.ts:28-64 | one loop iteration appends exactly the student's alerts |
| Alertas.GetAlertas | src/services/alertas.ts:22-66 | the result is every student's alerts in input order; at most two per student; all dismissible and stamped now |
| Alertas.OwnMembership | src/services/alertas.ts:36-62 | a student's `asistencia-<id>` alert exists iff alerts are on and the attendance rule fires, and likewise for `pago-<id>` |
| Alertas.AlertMembership | src/services/alertas.ts:28-65 | with distinct student ids, the full list has a student's `asistencia-<id>` or `pago-<id>` alert iff that rule fires for the student |
| AgentRoute.ContainsIffOccurs | src/app/api/agente-ia/route.ts:40 | the substring test holds iff the text occurs at some position |
| AgentRoute.SessionUsableIgnoresCase | src/app/api/agente-ia/route.ts:39-40 | whether a refused session is tolerated does not depend on the case of the body |
| AgentRoute.SessionRefusalTolerated | src/app/api/agente-ia/route.ts:35-43 | a failed session call is tolerated iff its status is 409 or the lower-cased body contains "session already exists" |
| AgentRoute.TextParts | src/app/api/agente-ia/route.ts:91 | the kept texts are all non-empty; none are kept iff no part has a non-empty text |
| AgentRoute.EventTextWhen | src/app/api/agente-ia/route.ts:90-92 | an event contributes text iff it has parts and one of them carries a non-empty string |
| AgentRoute.LastTextIsLatest | src/app/api/agente-ia/route.ts:88-99 | there is no reply text iff no event has text; otherwise it is the text of the last event that has any |
| AgentRoute.TrailingSilentEvents | src/app/api/agente-ia/route.ts:88-99 | events without text after the last one with text do not change the reply |
| AgentRoute.ReplyText | src/app/api/agente-ia/route.ts:83-112 | a response that is not an array, or an array with no event carrying text, gives the default sentence; otherwise the last text found |
| AgentRoute.ScanBack | src/app/api/agente-ia/route.ts:88-99 | walking the events from the last one down and stopping at the first with text yields the value of the latest element that has one (the reference `LastSome`) |
| AgentRoute.ExtractReply | src/app/api/agente-ia/route.ts:83-112 | the backward loop returns the default sentence when no event has text, and otherwise the text of the latest event with text |
| AgentRoute.Post | src/app/api/agente-ia/route.ts:14-116 | a missing message is a 400; an intolerable session failure or an agent failure is returned with its own status and body; an answer comes iff both calls succeed, and it carries the reply text |
| AgentRoute.ConflictProceeds | src/app/api/agente-ia/route.ts:40-47 | a 409 from the session call never stops the request |
| AgentRoute.LastEventWins | src/app/api/agente-ia/route.ts:88-97 | an event with text at the end of the list always supplies the reply |

## Left out

- Reading and writing the JSON files, uuid generation and the `print` logging. Collections are passed in and returned, and the fresh id is a parameter.
- The agent wiring: the FastAPI app, the ADK agent definition, `saludo_alerta` and `get_sudo_users`. They are plumbing around the tools and involve no rule of their own.
- Floats as stored values. Numbers in records are integers. No modelled rule computes with an amount; a fractional amount would change only the text of the summary line that shows it.
- JSON lists and objects as field values. No tool inspects them.
- AgentTools.StudentRead: when a stored or given name is not a string, Python's `.lower()` raises. The model returns an exception there but states nothing about which one.
- AgentTools.PaymentsOfStudent: the two success messages (sorted or "sin ordenar por fecha") are not in the contract, only the list returned.
- AgentSummary.UltimoPagoAlumno: the successful lookup is stated by UltimoPagoFindsStudent and UltimoPagoIsLatest, the "no id" error by UltimoPagoNoId, and the "no student" error only for name lists where all names are strings.
- Payloads and stored elements that are not dicts. The tools' `isinstance` tests (agent.py lines 100, 110, 118, 127, 131, 141, 172, 186 and 187) cannot fail: a payload is an optional record and a collection a sequence of records.
- JavaScript `Date`, time zones and locales.
  - Dates are day numbers and times of day are minutes.
  - The locale date text of the CSV export is an input function.
  - The end of an appointment wraps past midnight as `toTimeString` would in UTC.
  - An ISO instant is a record of its fields.
- The CSV and iCalendar escaping the formats would require (quotes, commas, line folding). The source escapes nothing, and the properties about reading lines and cells back carry "contains no newline / comma" preconditions for exactly that reason.
- CitasExport.CsvCells: the duration cell (`<n> min`) and the status and type cells are not spelled out in the contract.
- The Supabase calls of the appointment service and the hooks. Query results are inputs; mutations are the `Submitted` outcome, carrying the value that would be sent (the note mutations send nothing).
- ICalLines: the DTSTART and DTEND instants of each slot (`CitasExport.Slot`) are inputs. The model does not derive the start from the date and time, nor the end as the start plus the duration in minutes.
- HandleDatabaseError: models the module with the `PostgrestError` import restored. As written, every call throws a ReferenceError (see Findings and `HandleDatabaseErrorIn`).
- HandleCreatePago: a rejection carries the message of the corrected `HandleDatabaseError`. As written, building it throws the ReferenceError, and the hook rethrows that instead.
- HandleCreatePagosBulk: the same holds for the message naming the first bad payment.
- HandleUpdatePago: the same holds for its rejection message.
- HandleCreateNota: the same holds for its rejection message.
- HandleUpdateNota: the same holds for its rejection message.
- Rejection paths of `onSubmit`/`onSave` and the mutations. These are remote failures with only a message.
- QueryUtils.OptimizeBatchQuery and Pagination require a positive batch size and page size. The source's default batch size is 100; a size of 0 makes JavaScript divide by zero.
- Non-integer page numbers in the pagination hook and the query helpers. Pages are integers.
- The event shape of the agent's reply. An event's `content.parts` is an optional list of parts with an optional `text`; other JSON shapes are collapsed into "not an array".
- The `agentData.length > 0` guard of the route. An empty list has no event with text, so it is covered by the same outcome.
- Citas.CopyOnOnlyMovesDate: the copy is stated at the level of the appointment's fields. The ids and timestamps the source clears are not part of the appointment draft.
- Case mapping and trimming are ASCII only: JavaScript's `trim()` removes the six ASCII blanks, Python's `strip()` also U+001C..U+001F, and neither removes non-ASCII whitespace here. String order compares code points, while JavaScript compares UTF-16 code units; the two orders differ only for characters above U+FFFF.
- CreateCita: a recurring appointment (`recurring`, `recurringtype` and `recurringend` all set) also triggers `createRecurringCitas` after the insert (citas.ts:181-184), with no availability check of the copies. The model returns only the inserted row; the recurring batch is modelled on its own by `CreateRecurringCitas`.
- The statistics, UI components, React Query caching, toasts and the service wrappers, which carry no rule of their own.
- The 500 reply of the route for a body that is not JSON or for a thrown exception.

## Findings

| source | as written | input that shows it | evidently intended | confidence | as-written member | corrected member |
|---|---|---|---|---|---|---|
| src/utils/errorHandling.ts:1-22 | the `PostgrestError` import is commented out, yet `handleDatabaseError` tests `error instanceof PostgrestError`, so every call throws a ReferenceError | any call, e.g. the rejection of a payment without `alumnoId` in `handleCreatePago` | the import is present and the call returns the wrapped `DatabaseError` message | not executed; high | ErrorHandling.HandleDatabaseErrorAsWritten | ErrorHandling.HandleDatabaseError |

=== FILE: agent_summary.dfy ===
/** The backend tools that combine the CRUD tools: `resumen_alumno`,
    `ultimo_pago_alumno` and `listar_nombres_alumnos`. */
module AgentSummary {
  import opened Common
  import opened PyValue
  import opened Records
  import opened PaymentOrder
  import opened AgentTools

  /** Field `k` as an f-string renders it, the empty text when it is missing. */
  function Field(r: Record, k: string): string {
    PyStr(Get(r, k, Str("")))
  }

  /** First name and surname separated by one space, each empty when missing. */
  function FullName(a: Record): string {
    Field(a, "nombre") + " " + Field(a, "apellido")
  }

  /** The records a read by `alumno_id` returned: its list, or nothing when the
      read failed (a falsy `data`). */
  function Listed(env: Envelope): seq<Record> {
    if env.data.Many? then env.data.records else []
  }

  /** `{'alumno_id': x}`. */
  function ByStudent(x: Value): Payload {
    Some(map["alumno_id" := x])
  }

  function PaymentLine(p: Record): string {
    "- Fecha: " + PyStr(Get(p, "fecha_pago", Get(p, "fecha", Str("")))) + ", Monto: $" + Field(p, "monto")
      + ", Estado: " + Field(p, "estado")
  }

  function NoteLine(n: Record): string {
    "- Fecha: " + Field(n, "fecha") + ": " + Field(n, "contenido")
  }

  function AttendanceLine(a: Record): string {
    "- Fecha: " + Field(a, "fecha") + ", Sede: " + Field(a, "sede")
  }

  /** The payment line of the older agent: the date is `fecha_pago` only. */
  function LegacyPaymentLine(p: Record): string {
    "- Fecha: " + Field(p, "fecha_pago") + ", Monto: $" + Field(p, "monto") + ", Estado: " + Field(p, "estado")
  }

  datatype Section = PaymentSection | LegacyPaymentSection | NoteSection | AttendanceSection

  function Line(sec: Section, r: Record): string {
    match sec
    case PaymentSection => PaymentLine(r)
    case LegacyPaymentSection => LegacyPaymentLine(r)
    case NoteSection => NoteLine(r)
    case AttendanceSection => AttendanceLine(r)
  }

  /** The sentence a section holds when the student has no records of that kind. */
  function EmptySentence(sec: Section, a: Record): string {
    "No hay " + EmptyWhat(sec) + FullName(a) + "."
  }

  /** What a section lacks, as its empty sentence says it. */
  function EmptyWhat(sec: Section): string {
    match sec
    case PaymentSection => "registros de pagos para "
    case LegacyPaymentSection => "registros de pagos para "
    case NoteSection => "notas para "
    case AttendanceSection => "registros de asistencias para "
  }

  /** Every empty-section sentence starts with "No hay " and ends with the
      student's full name and a full stop. */
  lemma EmptySentenceNamesStudent(sec: Section, a: Record)
    ensures var s := EmptySentence(sec, a);
            && |s| >= 8 + |FullName(a)|
            && s[..7] == "No hay "
            && s[|s| - |FullName(a)| - 1..] == FullName(a) + "."
  {
    SentenceShape(EmptyWhat(sec), FullName(a));
  }

  lemma SentenceShape(w: string, n: string)
    ensures var s := "No hay " + w + n + ".";
            && |s| >= 8 + |n|
            && s[..7] == "No hay "
            && s[|s| - |n| - 1..] == n + "."
  {
    var s := "No hay " + w + n + ".";
    assert s[..7] == "No hay ";
    assert s[|s| - |n| - 1..] == n + ".";
  }

  /** The lines of one section: one per record, or the empty sentence. */
  function SectionLines(sec: Section, a: Record, rs: seq<Record>): (lines: seq<string>)
    ensures |lines| == if |rs| == 0 then 1 else |rs|
    ensures |rs| > 0 ==> forall i :: 0 <= i < |rs| ==> lines[i] == Line(sec, rs[i])
    ensures |rs| == 0 ==> lines == [EmptySentence(sec, a)]
  {
    if |rs| == 0 then [EmptySentence(sec, a)] else seq(|rs|, i requires 0 <= i < |rs| => Line(sec, rs[i]))
  }

  /** The text of one section: the lines joined by newlines. */
  function SectionText(sec: Section, a: Record, rs: seq<Record>): string {
    Join("\n", SectionLines(sec, a, rs))
  }

  const NL := "\n"

  /** The summary text, laid out as the source's triple-quoted f-string;
      `pay` says how payment lines are written. */
  function SummaryText(a: Record, pay: Section, ps: seq<Record>, ns: seq<Record>, as_: seq<Record>): string {
    "Resumen para " + FullName(a) + ":" + NL
      + NL + "Pagos:" + NL + SectionText(pay, a, ps) + NL
      + NL + "Notas:" + NL + SectionText(NoteSection, a, ns) + NL
      + NL + "Asistencias:" + NL + SectionText(AttendanceSection, a, as_) + NL
  }

  /** The reply of `resumen_alumno`: no student, or the summary text. */
  datatype Summary = NoStudent | Summary(text: string)

  const NoStudentMessage := "Alumno no encontrado para el resumen."

  /** `resumen_alumno(alumno_id)`. The student lookup subscripts `a['id']`
      and so raises on a student without an id reached before the match. */
  function ResumenAlumno(alumnos: seq<Record>, pagos: seq<Record>, notas: seq<Record>,
                         asistencias: seq<Record>, alumnoId: string): (r: Py<Summary>)
    ensures AllHave(alumnos, "id") ==> r.Ok?
    ensures r.Ok? ==>
      (r.value.Summary? <==> exists i :: 0 <= i < |alumnos| && "id" in alumnos[i] && PyEq(alumnos[i]["id"], Str(alumnoId)))
    ensures r.Ok? && r.value.Summary? ==>
      exists i :: 0 <= i < |alumnos| && "id" in alumnos[i] && PyEq(alumnos[i]["id"], Str(alumnoId))
        && (forall j :: 0 <= j < i ==> "id" in alumnos[j] && !PyEq(alumnos[j]["id"], Str(alumnoId)))
        && r.value.text == SummaryText(alumnos[i], PaymentSection,
                                       Listed(PaymentRead(pagos, ByStudent(Str(alumnoId)))),
                                       Listed(LinkedRead(Texts(LinkedKind.Notes), notas, ByStudent(Str(alumnoId)))),
                                       Listed(LinkedRead(Texts(LinkedKind.Attendance), asistencias, ByStudent(Str(alumnoId)))))
  {
    match ScanKey(alumnos, "id", Str(alumnoId))
    case Fault(e) => Raised(e)
    case Miss => Ok(NoStudent)
    case Hit(i) =>
      var x := ByStudent(Str(alumnoId));
      var ps := Listed(PaymentRead(pagos, x));
      var ns := Listed(LinkedRead(Texts(LinkedKind.Notes), notas, x));
      var as_ := Listed(LinkedRead(Texts(LinkedKind.Attendance), asistencias, x));
      assert forall j :: 0 <= j < i ==> "id" in alumnos[j] && !PyEq(alumnos[j]["id"], Str(alumnoId));
      Ok(Summary(SummaryText(alumnos[i], PaymentSection, ps, ns, as_)))
  }

  /** The lines of the whole summary. */
  function SummaryLines(a: Record, pay: Section, ps: seq<Record>, ns: seq<Record>, as_: seq<Record>): seq<string> {
    ["Resumen para " + FullName(a) + ":"]
      + (["", "Pagos:"] + SectionLines(pay, a, ps)
      + (["", "Notas:"] + SectionLines(NoteSection, a, ns)
      + (["", "Asistencias:"] + SectionLines(AttendanceSection, a, as_) + [""])))
  }

  /** A labelled section followed by more lines. */
  lemma SectionShape(heading: string, j: string, k: string)
    ensures "" + NL + (heading + NL + (j + NL + k)) == NL + heading + NL + j + NL + k
  {
    assert "" + NL == NL;
    ConcatAssoc(j, NL, k);
    ConcatAssoc(NL, j, NL + k);
    ConcatAssoc(heading, NL + j, NL + k);
    ConcatAssoc(heading, NL, j);
    ConcatAssoc(heading + NL + j, NL, k);
    ConcatAssoc(NL, heading + NL + j, NL + k);
    ConcatAssoc(NL, heading, NL);
    ConcatAssoc(NL, heading + NL, j);
    ConcatAssoc(NL + heading + NL + j, NL, k);
  }

  lemma JoinSection(heading: string, lines: seq<string>, rest: seq<string>)
    requires |lines| >= 1 && |rest| >= 1
    ensures Join(NL, ["", heading] + lines + rest) == NL + heading + NL + Join(NL, lines) + NL + Join(NL, rest)
  {
    var x := lines + rest;
    assert ["", heading] + lines + rest == [""] + ([heading] + x);
    JoinAppend(NL, lines, rest);
    JoinCons(NL, heading, x);
    JoinCons(NL, "", [heading] + x);
    SectionShape(heading, Join(NL, lines), Join(NL, rest));
  }

  lemma Regroup(h: string, p: string, n: string, a: string)
    ensures h + NL + NL + "Pagos:" + NL + p + NL + NL + "Notas:" + NL + n + NL + NL + "Asistencias:" + NL + a + NL
         == h + NL + ((NL + "Pagos:" + NL + p) + NL + ((NL + "Notas:" + NL + n) + NL + ((NL + "Asistencias:" + NL + a) + NL)))
  {
    var x := NL + "Pagos:" + NL + p;
    var y := NL + "Notas:" + NL + n;
    var z := NL + "Asistencias:" + NL + a;
    assert h + NL + NL + "Pagos:" + NL + p == h + NL + x;
    assert h + NL + x + NL + NL + "Notas:" + NL + n == h + NL + x + NL + y;
    assert h + NL + x + NL + y + NL + NL + "Asistencias:" + NL + a == h + NL + x + NL + y + NL + z;
    assert h + NL + x + NL + y + NL + z + NL == h + NL + (x + NL + (y + NL + (z + NL)));
  }

  /** The summary is its lines joined by newlines. */
  lemma SummaryTextIsLines(a: Record, pay: Section, ps: seq<Record>, ns: seq<Record>, as_: seq<Record>)
    ensures SummaryText(a, pay, ps, ns, as_) == Join(NL, SummaryLines(a, pay, ps, ns, as_))
  {
    var h := "Resumen para " + FullName(a) + ":";
    var pl := SectionLines(pay, a, ps);
    var nl := SectionLines(NoteSection, a, ns);
    var al := SectionLines(AttendanceSection, a, as_);
    LinesJoin(h, pl, nl, al);
    Regroup(h, Join(NL, pl), Join(NL, nl), Join(NL, al));
  }

  lemma LinesJoin(h: string, pl: seq<string>, nl: seq<string>, al: seq<string>)
    requires |pl| >= 1 && |nl| >= 1 && |al| >= 1
    ensures Join(NL, [h] + (["", "Pagos:"] + pl + (["", "Notas:"] + nl + (["", "Asistencias:"] + al + [""]))))
         == h + NL + ((NL + "Pagos:" + NL + Join(NL, pl)) + NL
                      + ((NL + "Notas:" + NL + Join(NL, nl)) + NL
                         + ((NL + "Asistencias:" + NL + Join(NL, al)) + NL)))
  {
    var tail3 := ["", "Asistencias:"] + al + [""];
    var tail2 := ["", "Notas:"] + nl + tail3;
    var tail1 := ["", "Pagos:"] + pl + tail2;
    JoinSection("Asistencias:", al, [""]);
    JoinSection("Notas:", nl, tail3);
    JoinSection("Pagos:", pl, tail2);
    JoinCons(NL, h, tail1);
  }

  predicate NoNewline(s: string) {
    '\n' !in s
  }

  /** Reading the summary back line by line gives its header, each section's
      lines and the blank separators, provided no rendered field holds a
      newline: every payment, note and attendance takes exactly one line. */
  lemma {:induction false} SummarySplitsIntoLines(a: Record, pay: Section, ps: seq<Record>, ns: seq<Record>, as_: seq<Record>)
    requires forall i :: 0 <= i < |SummaryLines(a, pay, ps, ns, as_)| ==> NoNewline(SummaryLines(a, pay, ps, ns, as_)[i])
    ensures Split(SummaryText(a, pay, ps, ns, as_), '\n') == SummaryLines(a, pay, ps, ns, as_)
  {
    SummaryTextIsLines(a, pay, ps, ns, as_);
    SplitJoin(SummaryLines(a, pay, ps, ns, as_), '\n');
  }

  /** A read by a truthy `alumno_id` is the student's payment list. */
  lemma ReadByStudent(pagos: seq<Record>, x: Value)
    requires Truthy(x)
    ensures PaymentRead(pagos, ByStudent(x)) == PaymentsOfStudent(pagos, x)
  {
    var d := ByStudent(x);
    assert !HasTruthy(d, "id") && "alumno_id" in d.value && d.value["alumno_id"] == x;
  }

  /** The lines of a section built from a permutation of `linked`: one per
      record of `linked`, and nothing else. */
  lemma LinesOfPermutation(sec: Section, a: Record, rs: seq<Record>, linked: seq<Record>)
    requires multiset(rs) == multiset(linked) && |linked| > 0
    ensures var lines := SectionLines(sec, a, rs);
            && (forall p :: p in linked ==> Line(sec, p) in lines)
            && (forall l :: l in lines ==> exists p :: p in linked && l == Line(sec, p))
  {
    assert |rs| > 0 by {
      assert linked[0] in multiset(linked);
    }
    var lines := SectionLines(sec, a, rs);
    forall p | p in linked
      ensures Line(sec, p) in lines
    {
      assert p in multiset(rs);
      var i :| 0 <= i < |rs| && rs[i] == p;
      assert lines[i] == Line(sec, p);
    }
    forall l | l in lines
      ensures exists p :: p in linked && l == Line(sec, p)
    {
      var i :| 0 <= i < |lines| && lines[i] == l;
      assert rs[i] in multiset(linked);
    }
  }

  /** Each payment of the student, and nothing else, has a line in the
      payments section of the summary. */
  lemma SummaryListsStudentPayments(pagos: seq<Record>, a: Record, x: string)
    requires x != ""
    requires |Linked(pagos, "alumno_id", Str(x))| > 0
    ensures var lines := SectionLines(PaymentSection, a, Listed(PaymentRead(pagos, ByStudent(Str(x)))));
            && (forall p :: p in Linked(pagos, "alumno_id", Str(x)) ==> PaymentLine(p) in lines)
            && (forall l :: l in lines ==> exists p :: p in Linked(pagos, "alumno_id", Str(x)) && l == PaymentLine(p))
  {
    ReadByStudent(pagos, Str(x));
    LinesOfPermutation(PaymentSection, a, PaymentsOfStudent(pagos, Str(x)).data.records, Linked(pagos, "alumno_id", Str(x)));
  }

  // ---------------------------------------------------------------------------
  // `ultimo_pago_alumno`

  /** Python truthiness of the `data` field. */
  predicate DataTruthy(d: Data) {
    match d
    case NoData => false
    case One(r) => |r| > 0
    case Many(rs) => |rs| > 0
  }

  /** The two answers of a successful payment lookup for student `who`. */
  function LatestFound(who: string): string {
    "Último pago encontrado para " + who + "."
  }

  function NoPaymentsFor(who: string): string {
    "No se encontraron pagos para el alumno " + who + "."
  }

  /** The two answers when the student cannot be used. */
  function NoStudentFor(who: string): string {
    "Alumno " + who + " no encontrado para verificar el último pago."
  }

  function NoIdFor(who: string): string {
    "No se pudo obtener el ID del alumno " + who + "."
  }

  /** The second half of `ultimo_pago_alumno`: the first payment of the
      student's list, or none. `who` is the student's name for the messages. */
  function LatestPayment(pagos: seq<Record>, id: Value, who: string): (r: Envelope)
    requires Truthy(id)
    ensures r.status == Success
    ensures r.data == NoData <==> |Linked(pagos, "alumno_id", id)| == 0
    ensures r.data != NoData ==>
      && r.data.One?
      && r.data.record in Linked(pagos, "alumno_id", id)
      && r.message == LatestFound(who)
    ensures r.data != NoData && SortableKeys(Linked(pagos, "alumno_id", id)) ==>
      forall p :: p in Linked(pagos, "alumno_id", id) ==> KeyLe(FechaKey(p), FechaKey(r.data.record))
    ensures r.data != NoData && SortableKeys(Linked(pagos, "alumno_id", id)) ==>
      var mine := Linked(pagos, "alumno_id", id);
      exists i :: 0 <= i < |mine| && r.data.record == mine[i]
                  && forall j :: 0 <= j < i ==> !KeyLe(FechaKey(mine[i]), FechaKey(mine[j]))
    ensures r.data != NoData && !SortableKeys(Linked(pagos, "alumno_id", id)) ==>
      r.data.record == Linked(pagos, "alumno_id", id)[0]
    ensures r.data == NoData ==> r.message == NoPaymentsFor(who)
  {
    var found := PaymentRead(pagos, ByStudent(id));
    ReadByStudent(pagos, id);
    var mine := Linked(pagos, "alumno_id", id);
    if found.status != Success || !DataTruthy(found.data) || !found.data.Many? then
      assert |mine| == 0;
      Envelope(Success, NoPaymentsFor(who), NoData)
    else
      var rs := found.data.records;
      StudentListHead(mine, rs);
      Envelope(Success, LatestFound(who), One(rs[0]))
  }

  /** The head of a student's payment list as the read returns it: the first
      stored among the latest when dates compare, the first stored otherwise. */
  lemma StudentListHead(mine: seq<Record>, rs: seq<Record>)
    requires multiset(rs) == multiset(mine) && |rs| > 0
    requires SortableKeys(mine) ==> SortedDesc(rs) && forall v :: KeyClass(rs, v) == KeyClass(mine, v)
    requires !SortableKeys(mine) ==> rs == mine
    ensures rs[0] in mine
    ensures SortableKeys(mine) ==> forall p :: p in mine ==> KeyLe(FechaKey(p), FechaKey(rs[0]))
    ensures SortableKeys(mine) ==>
      exists i :: 0 <= i < |mine| && rs[0] == mine[i]
                  && forall j :: 0 <= j < i ==> !KeyLe(FechaKey(mine[i]), FechaKey(mine[j]))
    ensures !SortableKeys(mine) ==> rs[0] == mine[0]
  {
    assert rs[0] in multiset(mine);
    if SortableKeys(mine) {
      SortedHeadIsMax(mine, rs);
      HeadIsFirstLatest(mine, rs);
    }
  }

  /** `ultimo_pago_alumno(nombre, apellido)`: finds the student by name, then
      takes the first payment of the student's (newest first) payment list. */
  function UltimoPagoAlumno(alumnos: seq<Record>, pagos: seq<Record>, nombre: string, apellido: string): (r: Py<Envelope>)
    ensures r.Ok? && r.value.status == Error ==> r.value.data == NoData
    ensures nombre == "" || apellido == "" ==> r == Ok(Fail(NoStudentFor(nombre + " " + apellido)))
    ensures NamesAreStrings(alumnos) && (forall i :: 0 <= i < |alumnos| ==> !NamedAs(alumnos[i], nombre, apellido)) ==>
      r == Ok(Fail(NoStudentFor(nombre + " " + apellido)))
  {
    var who := nombre + " " + apellido;
    var d := map["nombre" := Str(nombre), "apellido" := Str(apellido)];
    assert d["nombre"] == Str(nombre) && d["apellido"] == Str(apellido) && "id" !in d;
    match StudentRead(alumnos, Some(d))
    case Raised(e) => Raised(e)
    case Ok(search) =>
      if search.status != Success || !DataTruthy(search.data) then
        Ok(Fail(NoStudentFor(who)))
      else if !search.data.One? then
        Raised(AttributeError)
      else
        var id := Get(search.data.record, "id", Null);
        if !Truthy(id) then Ok(Fail(NoIdFor(who)))
        else Ok(LatestPayment(pagos, id, who))
  }

  /** With string names everywhere, `ultimo_pago_alumno` answers with the
      payment lookup of the first student with that name (case aside). */
  lemma UltimoPagoFindsStudent(alumnos: seq<Record>, pagos: seq<Record>, nombre: string, apellido: string, i: nat)
    requires nombre != "" && apellido != ""
    requires NamesAreStrings(alumnos)
    requires i < |alumnos| && NamedAs(alumnos[i], nombre, apellido)
    requires forall j :: 0 <= j < i ==> !NamedAs(alumnos[j], nombre, apellido)
    requires "id" in alumnos[i] && Truthy(alumnos[i]["id"])
    ensures UltimoPagoAlumno(alumnos, pagos, nombre, apellido)
            == Ok(LatestPayment(pagos, alumnos[i]["id"], nombre + " " + apellido))
  {
    var d := map["nombre" := Str(nombre), "apellido" := Str(apellido)];
    assert d["nombre"] == Str(nombre) && d["apellido"] == Str(apellido) && "id" !in d;
    StudentReadNames(alumnos, d);
    ScanNameFirst(alumnos, nombre, apellido, i);
    var search := Envelope(Success, StudentFoundByName, One(alumnos[i]));
    assert StudentRead(alumnos, Some(d)) == Ok(search);
    assert Get(search.data.record, "id", Null) == alumnos[i]["id"];
  }

  /** When the first student matching the names has no truthy id, the answer
      is the "no id" error, with null data. */
  lemma UltimoPagoNoId(alumnos: seq<Record>, pagos: seq<Record>, nombre: string, apellido: string, i: nat)
    requires nombre != "" && apellido != ""
    requires NamesAreStrings(alumnos)
    requires i < |alumnos| && NamedAs(alumnos[i], nombre, apellido)
    requires forall j :: 0 <= j < i ==> !NamedAs(alumnos[j], nombre, apellido)
    requires !Truthy(Get(alumnos[i], "id", Null))
    ensures UltimoPagoAlumno(alumnos, pagos, nombre, apellido) == Ok(Fail(NoIdFor(nombre + " " + apellido)))
  {
    var d := map["nombre" := Str(nombre), "apellido" := Str(apellido)];
    assert d["nombre"] == Str(nombre) && d["apellido"] == Str(apellido) && "id" !in d;
    StudentReadNames(alumnos, d);
    ScanNameFirst(alumnos, nombre, apellido, i);
    var search := Envelope(Success, StudentFoundByName, One(alumnos[i]));
    assert StudentRead(alumnos, Some(d)) == Ok(search);
  }

  /** A payload without a truthy id but with both names is a lookup by name. */
  lemma StudentReadNames(alumnos: seq<Record>, d: Record)
    requires !HasTruthy(Some(d), "id") && HasTruthy(Some(d), "nombre") && HasTruthy(Some(d), "apellido")
    ensures StudentRead(alumnos, Some(d)) == StudentReadByName(alumnos, d)
  {
  }

  /** With string names everywhere, `ultimo_pago_alumno` looks at the first
      student with that name (case aside): it reports no payment exactly when
      that student has none, and otherwise the first of the student's
      payments, in stored order, carrying the latest date, whenever those
      dates can be compared. */
  lemma UltimoPagoIsLatest(alumnos: seq<Record>, pagos: seq<Record>, nombre: string, apellido: string, i: nat)
    requires nombre != "" && apellido != ""
    requires NamesAreStrings(alumnos)
    requires i < |alumnos| && NamedAs(alumnos[i], nombre, apellido)
    requires forall j :: 0 <= j < i ==> !NamedAs(alumnos[j], nombre, apellido)
    requires "id" in alumnos[i] && Truthy(alumnos[i]["id"])
    requires SortableKeys(Linked(pagos, "alumno_id", alumnos[i]["id"]))
    ensures var r := UltimoPagoAlumno(alumnos, pagos, nombre, apellido);
            var mine := Linked(pagos, "alumno_id", alumnos[i]["id"]);
            && r.Ok? && r.value.status == Success
            && (r.value.data == NoData <==> |mine| == 0)
            && (r.value.data.One? ==>
                  && r.value.data.record in mine
                  && (forall p :: p in mine ==> KeyLe(FechaKey(p), FechaKey(r.value.data.record)))
                  && exists k :: 0 <= k < |mine| && r.value.data.record == mine[k]
                                 && forall j :: 0 <= j < k ==> !KeyLe(FechaKey(mine[k]), FechaKey(mine[j])))
  {
    UltimoPagoFindsStudent(alumnos, pagos, nombre, apellido, i);
  }

  /** The head of a newest-first permutation of `s` is a latest element of `s`. */
  lemma SortedHeadIsMax(s: seq<Record>, t: seq<Record>)
    requires multiset(t) == multiset(s) && SortedDesc(t) && |t| > 0
    ensures t[0] in s
    ensures forall p :: p in s ==> KeyLe(FechaKey(p), FechaKey(t[0]))
  {
    assert t[0] in multiset(s);
    forall p | p in s
      ensures KeyLe(FechaKey(p), FechaKey(t[0]))
    {
      assert p in multiset(t);
      var j :| 0 <= j < |t| && t[j] == p;
      if j == 0 {
        KeyLeTotal(FechaKey(p), FechaKey(p));
      }
    }
  }

  /** The head of a newest-first, stable permutation of `s` is the first
      element of `s`, in stored order, that carries the latest date. */
  lemma HeadIsFirstLatest(s: seq<Record>, t: seq<Record>)
    requires multiset(t) == multiset(s) && SortedDesc(t) && |t| > 0
    requires forall v :: KeyClass(t, v) == KeyClass(s, v)
    ensures exists i :: 0 <= i < |s| && t[0] == s[i]
                        && forall j :: 0 <= j < i ==> !KeyLe(FechaKey(s[i]), FechaKey(s[j]))
  {
    var v := FechaKey(t[0]);
    SortedHeadIsMax(s, t);
    KeyLeTotal(v, v);
    assert t == [t[0]] + t[1..];
    ClassByCons(t[0], t[1..], FechaKey, v);
    assert KeyClass(s, v) == KeyClass(t, v);
    ClassByFirst(s, FechaKey, v);
    var i :| 0 <= i < |s| && ClassBy(s, FechaKey, v)[0] == s[i] && SameKey(FechaKey(s[i]), v)
             && forall j :: 0 <= j < i ==> !SameKey(FechaKey(s[j]), v);
    assert t[0] == s[i];
    forall j | 0 <= j < i
      ensures !KeyLe(FechaKey(s[i]), FechaKey(s[j]))
    {
      assert s[j] in s;
    }
  }

  // ---------------------------------------------------------------------------
  // `listar_nombres_alumnos`

  datatype NameList = NameList(message: string, nombres: seq<string>)

  /** One student's full name, blanks stripped as Python's `strip()` does. */
  function DisplayName(a: Record): string {
    Strip(FullName(a))
  }

  /** `listar_nombres_alumnos()`: always a success. */
  function ListarNombresAlumnos(alumnos: seq<Record>): (r: NameList)
    ensures |r.nombres| == |alumnos|
    ensures forall i :: 0 <= i < |alumnos| ==> r.nombres[i] == DisplayName(alumnos[i])
    ensures |alumnos| == 0 ==> r.message == "No hay alumnos registrados."
    ensures |alumnos| > 0 ==> r.message == "Listado de " + IntToString(|alumnos|) + " nombres de alumnos."
  {
    if |alumnos| == 0 then NameList("No hay alumnos registrados.", [])
    else
      var names := seq(|alumnos|, i requires 0 <= i < |alumnos| => DisplayName(alumnos[i]));
      NameList("Listado de " + IntToString(|names|) + " nombres de alumnos.", names)
  }

  /** Whitespace only, as Python's `str.isspace` sees ASCII. */
  predicate AllSpace(s: string) {
    forall i :: 0 <= i < |s| ==> IsBlank(PyBlanks, s[i])
  }

  lemma SpaceJoinedAllSpace(x: string, y: string)
    ensures AllSpace(x + " " + y) <==> AllSpace(x) && AllSpace(y)
  {
    var s := x + " " + y;
    assert forall i :: 0 <= i < |x| ==> s[i] == x[i];
    assert forall i :: 0 <= i < |y| ==> s[|x| + 1 + i] == y[i];
    if AllSpace(x) && AllSpace(y) {
      forall i | 0 <= i < |s|
        ensures IsBlank(PyBlanks, s[i])
      {
        if i > |x| {
          assert s[i] == y[i - |x| - 1];
        }
      }
    }
  }

  /** A listed name is blank exactly when both name fields render as blanks. */
  lemma DisplayNameBlank(a: Record)
    ensures DisplayName(a) == "" <==> AllSpace(Field(a, "nombre")) && AllSpace(Field(a, "apellido"))
  {
    TrimEmptyIffAllSpace(PyBlanks, FullName(a));
    SpaceJoinedAllSpace(Field(a, "nombre"), Field(a, "apellido"));
  }
}

=== FILE: agent_tools.dfy ===
/** The CRUD tools of the agent backend (`crud_alumnos`, `crud_pagos`,
    `crud_notas`, `crud_asistencias`). Each call loads a whole collection, applies
    one action and, on the success paths that write, stores the whole collection
    back; here the collection is passed in and the stored one is returned. The
    id a `uuid4()` would produce is the parameter `uid`, assumed unused. */
module AgentTools {
  import opened Common
  import opened PyValue
  import opened Records
  import opened PaymentOrder

  /** The reply every tool starts from: an error with no data. */
  const DefaultError: Envelope := Fail("Acción no reconocida o faltan datos.")

  /** The error messages the tools answer with. */
  const UnknownPaymentAction := "Acción no reconocida para pagos."
  const UpdateNeedsId := "Se requiere el ID del pago para actualizar."
  const DeleteNeedsId := "Se requiere el ID del pago para eliminar."
  const PaymentUpdateMissing := "Pago no encontrado para actualizar."
  const PaymentDeleteMissing := "Pago no encontrado para eliminar."
  const BadPaymentQuery := "Datos de lectura de pagos inválidos."
  const MissingNames := "Faltan nombre o apellido para crear el alumno."
  const StudentUpdateMissing := "Alumno a actualizar no encontrado."
  const StudentDeleteMissing := "Alumno a eliminar no encontrado."

  /** The success messages and the not-found answers of the reads. */
  const StudentFound := "Alumno encontrado."
  const StudentNotFound := "Alumno no encontrado."
  const StudentFoundByName := "Alumno encontrado por nombre."
  const StudentNotFoundByName := "Alumno no encontrado por nombre."
  const StudentCreated := "Alumno creado con éxito."
  const StudentUpdated := "Alumno actualizado con éxito."
  const StudentDeleted := "Alumno eliminado con éxito."
  const StudentList := "Listado de alumnos."
  const PaymentCreated := "Pago creado."
  const PaymentFound := "Pago encontrado."
  const PaymentNotFound := "Pago no encontrado."
  const PaymentUpdated := "Pago actualizado."
  const PaymentDeleted := "Pago eliminado."
  const PaymentList := "Lista de todos los pagos."

  /** The record a create stores: the payload with a fresh `id`. */
  predicate KeepsPayload(rec: Record, d: Record, uid: string) {
    && rec.Keys == d.Keys + {"id"}
    && rec["id"] == Str(uid)
    && forall k :: k in d && k != "id" ==> rec[k] == d[k]
  }

  /** `merged` is `base` with every field of `d` written over it (a dictionary update). */
  predicate MergedInto(merged: Record, base: Record, d: Record) {
    && merged.Keys == base.Keys + d.Keys
    && (forall k :: k in d ==> merged[k] == d[k])
    && (forall k :: k in base && k !in d ==> merged[k] == base[k])
  }

  /** `after` is `before` with only the fields in `allowed` copied from `d`. */
  predicate PatchedOnly(after: Record, before: Record, d: Record, allowed: set<string>) {
    && after.Keys == before.Keys + (d.Keys * allowed)
    && (forall k :: k in d && k in allowed ==> after[k] == d[k])
    && (forall k :: k in before && !(k in d && k in allowed) ==> after[k] == before[k])
  }

  /** Copies field `a` from the payload when the payload has it. */
  function PatchOne(rec: Record, d: Record, a: string): (q: Record)
    ensures q.Keys == rec.Keys + (d.Keys * {a})
    ensures forall k :: k in q ==> q[k] == (if k == a && a in d then d[a] else rec[k])
  {
    if a in d then rec[a := d[a]] else rec
  }

  /** Copies field `a`, then field `b`, from the payload when present. */
  function PatchTwo(rec: Record, d: Record, a: string, b: string): (q: Record)
    ensures PatchedOnly(q, rec, d, {a, b})
    ensures |rec| > 0 ==> |q| > 0
  {
    PatchTwoPatches(rec, d, a, b);
    PatchOne(PatchOne(rec, d, a), d, b)
  }

  lemma PatchTwoPatches(rec: Record, d: Record, a: string, b: string)
    ensures PatchedOnly(PatchOne(PatchOne(rec, d, a), d, b), rec, d, {a, b})
    ensures rec.Keys <= PatchOne(PatchOne(rec, d, a), d, b).Keys
  {
    var q := PatchOne(PatchOne(rec, d, a), d, b);
    assert q.Keys == rec.Keys + (d.Keys * {a, b});
  }

  /** `after` is `before` with the record at `i` replaced by `rec`. */
  predicate ReplacedAt(after: seq<Record>, before: seq<Record>, i: nat, rec: Record) {
    && |after| == |before| && i < |before| && after[i] == rec
    && forall j :: 0 <= j < |before| && j != i ==> after[j] == before[j]
  }

  /** `after` is `before` without the records whose `k` (looked up leniently)
      equals `x`, the others kept in stored order (see `RemoveGetAppend`). */
  predicate RemovedAll(after: seq<Record>, before: seq<Record>, k: string, x: Value) {
    && after == RemoveGet(before, k, x)
    && (forall i :: 0 <= i < |after| ==> after[i] in before && !GetMatches(after[i], k, x))
    && (forall i :: 0 <= i < |before| && !GetMatches(before[i], k, x) ==> before[i] in after)
  }

  // ===========================================================================
  // Students (`crud_alumnos`)

  function StudentCreate(alumnos: seq<Record>, d: Record, uid: string): (r: Step)
    requires IdFree(alumnos, uid)
    ensures r.reply.status == Success <==> "nombre" in d && "apellido" in d
    ensures r.reply.status == Error ==>
      r == Step(Fail(MissingNames), alumnos)
    ensures r.reply.status == Success ==>
      && r.reply.message == StudentCreated
      && r.reply.data.One?
      && KeepsPayload(r.reply.data.record, d, uid)
      && r.coll == alumnos + [r.reply.data.record]
  {
    if |d| == 0 || "nombre" !in d || "apellido" !in d then
      EmptyLacks(d, "nombre");
      Step(Fail(MissingNames), alumnos)
    else
      var rec := d["id" := Str(uid)];
      Step(Envelope(Success, StudentCreated, One(rec)), alumnos + [rec])
  }

  /** The three read modes, in priority order: by truthy id, by both names, the
      whole list for an empty or missing payload; anything else is the default
      error. */
  function StudentRead(alumnos: seq<Record>, data: Payload): (r: Py<Envelope>)
    ensures r.Ok? && r.value.status == Error ==> r.value.data == NoData
    ensures HasTruthy(data, "id") && AllHave(alumnos, "id") ==>
      && r.Ok?
      && (r.value.status == Success <==>
            exists i :: 0 <= i < |alumnos| && PyEq(alumnos[i]["id"], data.value["id"]))
      && (r.value.status == Success ==>
            && r.value.message == StudentFound
            && exists i :: 0 <= i < |alumnos| && r.value.data == One(alumnos[i])
                           && PyEq(alumnos[i]["id"], data.value["id"])
                           && forall j :: 0 <= j < i ==> !PyEq(alumnos[j]["id"], data.value["id"]))
      && (r.value.status == Error ==> r.value == Fail(StudentNotFound))
    ensures !HasTruthy(data, "id") && HasTruthy(data, "nombre") && HasTruthy(data, "apellido")
            && data.value["nombre"].Str? && data.value["apellido"].Str? && NamesAreStrings(alumnos) ==>
      && r.Ok?
      && (r.value.status == Success <==>
            exists i :: 0 <= i < |alumnos|
                        && NamedAs(alumnos[i], data.value["nombre"].s, data.value["apellido"].s))
      && (r.value.status == Success ==>
            exists i :: 0 <= i < |alumnos| && r.value.data == One(alumnos[i])
                        && NamedAs(alumnos[i], data.value["nombre"].s, data.value["apellido"].s)
                        && forall j :: 0 <= j < i ==>
                             !NamedAs(alumnos[j], data.value["nombre"].s, data.value["apellido"].s))
    ensures !HasTruthy(data, "id") && (data.None? || |data.value| == 0) ==>
      r == Ok(Envelope(Success, StudentList, Many(alumnos)))
    ensures !HasTruthy(data, "id") && !(HasTruthy(data, "nombre") && HasTruthy(data, "apellido"))
            && PayloadTruthy(data) ==>
      r == Ok(DefaultError)
  {
    if HasTruthy(data, "id") then
      match ScanKey(alumnos, "id", data.value["id"])
      case Hit(i) => Ok(Envelope(Success, StudentFound, One(alumnos[i])))
      case Miss => Ok(Fail(StudentNotFound))
      case Fault(e) => Raised(e)
    else if HasTruthy(data, "nombre") && HasTruthy(data, "apellido") then
      var d := data.value;
      if d["nombre"].Str? && d["apellido"].Str? && NamesAreStrings(alumnos) then
        ScanNameFindsFirst(alumnos, d["nombre"].s, d["apellido"].s, 0);
        StudentReadByName(alumnos, d)
      else
        StudentReadByName(alumnos, d)
    else if data.None? || |data.value| == 0 then
      Ok(Envelope(Success, StudentList, Many(alumnos)))
    else
      Ok(DefaultError)
  }

  function StudentReadByName(alumnos: seq<Record>, d: Record): Py<Envelope>
    requires "nombre" in d && "apellido" in d
  {
    match ScanName(alumnos, d["nombre"], d["apellido"])
    case Hit(i) => Ok(Envelope(Success, StudentFoundByName, One(alumnos[i])))
    case Miss => Ok(Fail(StudentNotFoundByName))
    case Fault(e) => Raised(e)
  }

  /** Merges the whole payload into the first student with that id. */
  function StudentUpdate(alumnos: seq<Record>, d: Record): (r: Py<Step>)
    requires "id" in d && Truthy(d["id"])
    ensures AllHave(alumnos, "id") ==> r.Ok?
    ensures r.Ok? && r.value.reply.status == Error ==>
      && r.value == Step(Fail(StudentUpdateMissing), alumnos)
      && forall i :: 0 <= i < |alumnos| ==> "id" in alumnos[i] && !PyEq(alumnos[i]["id"], d["id"])
    ensures r.Ok? && r.value.reply.status == Success ==>
      && |r.value.coll| == |alumnos|
      && exists i :: (0 <= i < |alumnos|
           && "id" in alumnos[i] && PyEq(alumnos[i]["id"], d["id"])
           && (forall j :: 0 <= j < i ==> "id" in alumnos[j] && !PyEq(alumnos[j]["id"], d["id"]))
           && r.value.reply == Envelope(Success, StudentUpdated, One(r.value.coll[i]))
           && ReplacedAt(r.value.coll, alumnos, i, r.value.coll[i])
           && MergedInto(r.value.coll[i], alumnos[i], d))
  {
    match ScanKey(alumnos, "id", d["id"])
    case Hit(i) =>
      var merged := alumnos[i] + d;
      var coll := alumnos[i := merged];
      Ok(Step(Envelope(Success, StudentUpdated, One(merged)), coll))
    case Miss => Ok(Step(Fail(StudentUpdateMissing), alumnos))
    case Fault(e) => Raised(e)
  }

  /** Removes every student with the id; the comprehension reads `a['id']` of
      every student, so one without an id makes it raise. */
  function StudentDelete(alumnos: seq<Record>, d: Record): (r: Py<Step>)
    requires "id" in d && Truthy(d["id"])
    ensures r.Ok? <==> AllHave(alumnos, "id")
    ensures r.Raised? ==> r.exc == KeyError("id")
    ensures r.Ok? ==>
      (r.value.reply.status == Success <==>
         exists i :: 0 <= i < |alumnos| && "id" in alumnos[i] && PyEq(alumnos[i]["id"], d["id"]))
    ensures r.Ok? && r.value.reply.status == Success ==>
      && r.value.reply == Envelope(Success, StudentDeleted, NoData)
      && RemovedAll(r.value.coll, alumnos, "id", d["id"])
      && |r.value.coll| < |alumnos|
    ensures r.Ok? && r.value.reply.status == Error ==>
      r.value == Step(Fail(StudentDeleteMissing), alumnos)
  {
    if !AllHave(alumnos, "id") then Raised(KeyError("id"))
    else
      var kept := RemoveGet(alumnos, "id", d["id"]);
      assert forall i :: 0 <= i < |alumnos| ==> (GetMatches(alumnos[i], "id", d["id"]) <==> PyEq(alumnos[i]["id"], d["id"]));
      if |kept| < |alumnos| then
        Ok(Step(Envelope(Success, StudentDeleted, NoData), kept))
      else
        Ok(Step(Fail(StudentDeleteMissing), alumnos))
  }

  /** `crud_alumnos(action, data)`. */
  function CrudAlumnos(alumnos: seq<Record>, action: string, data: Payload, uid: string): (r: Py<Step>)
    requires action == "create" ==> IdFree(alumnos, uid)
    ensures action !in {"create", "read", "update", "delete"} ==> r == Ok(Step(DefaultError, alumnos))
    ensures action == "read" && r.Ok? ==> r.value.coll == alumnos
    ensures r.Ok? && r.value.reply.status == Error ==> r.value.coll == alumnos && r.value.reply.data == NoData
  {
    if action == "create" && data.Some? then Ok(StudentCreate(alumnos, data.value, uid))
    else if action == "read" then
      match StudentRead(alumnos, data)
      case Ok(env) => Ok(Step(env, alumnos))
      case Raised(e) => Raised(e)
    else if action == "update" && HasTruthy(data, "id") then StudentUpdate(alumnos, data.value)
    else if action == "delete" && HasTruthy(data, "id") then StudentDelete(alumnos, data.value)
    else Ok(Step(DefaultError, alumnos))
  }

  // ===========================================================================
  // Payments (`crud_pagos`)

  /** The fields a payment keeps, and the ones an update may change. */
  const PaymentFields: set<string> := {"id", "alumno_id", "fecha", "monto"}
  const PaymentEditable: set<string> := {"fecha", "monto"}

  /** The three fields `crud_pagos` needs before it creates a payment. */
  predicate HasPaymentFields(d: Record) {
    "alumno_id" in d && "fecha" in d && "monto" in d
  }

  const MissingPaymentFields := "Faltan datos requeridos ('alumno_id', 'fecha', 'monto') para crear el pago."

  /** The stored payment: exactly the four payment fields, with a fresh id. */
  function NewPayment(d: Record, uid: string): (rec: Record)
    requires HasPaymentFields(d)
    ensures rec.Keys == PaymentFields
    ensures rec["id"] == Str(uid)
    ensures forall k :: k in PaymentFields && k != "id" ==> rec[k] == d[k]
  {
    map["id" := Str(uid), "alumno_id" := d["alumno_id"], "fecha" := d["fecha"], "monto" := d["monto"]]
  }

  function PaymentCreate(pagos: seq<Record>, d: Record, uid: string): (r: Step)
    requires IdFree(pagos, uid)
    ensures r.reply.status == Success <==> HasPaymentFields(d)
    ensures r.reply.status == Error ==> r == Step(Fail(MissingPaymentFields), pagos)
    ensures r.reply.status == Success ==>
      && r.reply.message == PaymentCreated
      && r.reply.data == One(NewPayment(d, uid))
      && r.coll == pagos + [NewPayment(d, uid)]
  {
    if |d| == 0 || !HasPaymentFields(d) then
      EmptyLacks(d, "alumno_id");
      Step(Fail(MissingPaymentFields), pagos)
    else
      var rec := NewPayment(d, uid);
      Step(Envelope(Success, PaymentCreated, One(rec)), pagos + [rec])
  }

  /** A student's payments as the read returns them: newest first when the
      dates can be compared, in storage order otherwise. */
  function PaymentsOfStudent(pagos: seq<Record>, x: Value): (r: Envelope)
    ensures r.status == Success && r.data.Many?
    ensures multiset(r.data.records) == multiset(Linked(pagos, "alumno_id", x))
    ensures SortableKeys(Linked(pagos, "alumno_id", x)) ==>
      && SortedDesc(r.data.records)
      && forall v :: KeyClass(r.data.records, v) == KeyClass(Linked(pagos, "alumno_id", x), v)
    ensures !SortableKeys(Linked(pagos, "alumno_id", x)) ==>
      r.data.records == Linked(pagos, "alumno_id", x)
  {
    var matches := Linked(pagos, "alumno_id", x);
    if SortableKeys(matches) then
      SortDescSorted(matches);
      assert forall v :: KeyClass(SortDesc(matches), v) == KeyClass(matches, v) by {
        forall v
          ensures KeyClass(SortDesc(matches), v) == KeyClass(matches, v)
        {
          SortDescStable(matches, v);
        }
      }
      Envelope(Success, "Pagos encontrados para el alumno " + PyStr(x) + ".", Many(SortDesc(matches)))
    else
      Envelope(Success, "Pagos encontrados para el alumno " + PyStr(x) + " (sin ordenar por fecha).", Many(matches))
  }

  function PaymentRead(pagos: seq<Record>, data: Payload): (r: Envelope)
    ensures r.status == Error ==> r.data == NoData
    ensures HasTruthy(data, "id") ==>
      && (r.status == Success <==> exists i :: 0 <= i < |pagos| && GetMatches(pagos[i], "id", data.value["id"]))
      && (r.status == Success ==>
            exists i :: 0 <= i < |pagos| && r == Envelope(Success, PaymentFound, One(pagos[i]))
                        && GetMatches(pagos[i], "id", data.value["id"])
                        && forall j :: 0 <= j < i ==> !GetMatches(pagos[j], "id", data.value["id"]))
      && (r.status == Error ==> r == Fail(PaymentNotFound))
    ensures !HasTruthy(data, "id") && (data.None? || "alumno_id" !in data.value) ==>
      r == Envelope(Success, PaymentList, Many(pagos))
    ensures !HasTruthy(data, "id") && data.Some? && "alumno_id" in data.value ==>
      if Truthy(data.value["alumno_id"]) then r == PaymentsOfStudent(pagos, data.value["alumno_id"])
      else r == Fail(BadPaymentQuery)
  {
    if HasTruthy(data, "id") then
      match FindGet(pagos, "id", data.value["id"])
      case Some(i) => Envelope(Success, PaymentFound, One(pagos[i]))
      case None => Fail(PaymentNotFound)
    else if data.None? || "alumno_id" !in data.value then
      Envelope(Success, PaymentList, Many(pagos))
    else if Truthy(data.value["alumno_id"]) then
      PaymentsOfStudent(pagos, data.value["alumno_id"])
    else
      Fail(BadPaymentQuery)
  }

  /** Two indices that are both the first match are the same index. */
  lemma FirstMatchUnique(coll: seq<Record>, x: Value, i: nat)
    requires i < |coll| && GetMatches(coll[i], "id", x)
    requires forall j :: 0 <= j < i ==> !GetMatches(coll[j], "id", x)
    ensures forall i' ::
      (0 <= i' < |coll| && GetMatches(coll[i'], "id", x) && forall j :: 0 <= j < i' ==> !GetMatches(coll[j], "id", x))
      ==> i' == i
  {
  }

  /** Changes only `fecha` and `monto` of the first payment with that id. The
      id may be falsy here (`{'id': None}` matches a payment without an id), and
      a first match that is an empty dict counts as not found. */
  function PaymentUpdate(pagos: seq<Record>, d: Record): (r: Step)
    requires "id" in d
    ensures r.reply.status == Success <==>
      exists i :: 0 <= i < |pagos| && GetMatches(pagos[i], "id", d["id"]) && |pagos[i]| > 0
                  && forall j :: 0 <= j < i ==> !GetMatches(pagos[j], "id", d["id"])
    ensures r.reply.status == Error ==> r == Step(Fail(PaymentUpdateMissing), pagos)
    ensures r.reply.status == Success ==>
      && |r.coll| == |pagos|
      && exists i :: (0 <= i < |pagos|
           && GetMatches(pagos[i], "id", d["id"])
           && (forall j :: 0 <= j < i ==> !GetMatches(pagos[j], "id", d["id"]))
           && r.reply == Envelope(Success, PaymentUpdated, One(r.coll[i]))
           && ReplacedAt(r.coll, pagos, i, r.coll[i])
           && PatchedOnly(r.coll[i], pagos[i], d, PaymentEditable))
  {
    match FindGet(pagos, "id", d["id"])
    case None => Step(Fail(PaymentUpdateMissing), pagos)
    case Some(i) =>
      FirstMatchUnique(pagos, d["id"], i);
      if |pagos[i]| == 0 then Step(Fail(PaymentUpdateMissing), pagos)
      else
        var p := PatchTwo(pagos[i], d, "fecha", "monto");
        var r := Step(Envelope(Success, PaymentUpdated, One(p)), pagos[i := p]);
        assert ReplacedAt(r.coll, pagos, i, r.coll[i]);
        r
  }

  function PaymentDelete(pagos: seq<Record>, d: Record): (r: Step)
    requires "id" in d
    ensures r.reply.status == Success <==> exists i :: 0 <= i < |pagos| && GetMatches(pagos[i], "id", d["id"])
    ensures r.reply.status == Error ==> r == Step(Fail(PaymentDeleteMissing), pagos)
    ensures r.reply.status == Success ==>
      && r.reply == Envelope(Success, PaymentDeleted, One(map["id" := d["id"]]))
      && RemovedAll(r.coll, pagos, "id", d["id"])
      && |r.coll| < |pagos|
  {
    var kept := RemoveGet(pagos, "id", d["id"]);
    if |kept| == |pagos| then Step(Fail(PaymentDeleteMissing), pagos)
    else Step(Envelope(Success, PaymentDeleted, One(map["id" := d["id"]])), kept)
  }

  /** `crud_pagos(action, data)`: never raises. */
  function CrudPagos(pagos: seq<Record>, action: string, data: Payload, uid: string): (r: Step)
    requires action == "create" ==> IdFree(pagos, uid)
    ensures action !in {"create", "read", "update", "delete"} ==> r == Step(Fail(UnknownPaymentAction), pagos)
    ensures action == "read" ==> r.coll == pagos
    ensures action in {"update", "delete"} && (data.None? || "id" !in data.value) ==>
      r.reply.status == Error && r.coll == pagos
    ensures r.reply.status == Error ==> r.coll == pagos && r.reply.data == NoData
  {
    if action == "create" && data.Some? then PaymentCreate(pagos, data.value, uid)
    else if action == "read" then Step(PaymentRead(pagos, data), pagos)
    else if action == "update" then
      if !PayloadTruthy(data) || "id" !in data.value then
        Step(Fail(UpdateNeedsId), pagos)
      else PaymentUpdate(pagos, data.value)
    else if action == "delete" then
      if !PayloadTruthy(data) || "id" !in data.value then
        Step(Fail(DeleteNeedsId), pagos)
      else PaymentDelete(pagos, data.value)
    else Step(Fail(UnknownPaymentAction), pagos)
  }

  // ===========================================================================
  // Notes and attendance (`crud_notas`, `crud_asistencias`): the same tool with
  // a different third field and different messages. The per-action functions
  // take the kind's messages `m` and third field `third`.

  datatype LinkedKind = Notes | Attendance

  /** `contenido` for a note, `estado` for an attendance. */
  function ThirdField(kind: LinkedKind): string {
    if kind == Notes then "contenido" else "estado"
  }

  datatype Messages = Messages(
    missing: string, created: string, found: string, notFound: string,
    byStudent: string, all: string, updateMissing: string, updated: string,
    deleteMissing: string, deleted: string, unknown: string)

  function Texts(kind: LinkedKind): Messages {
    if kind == Notes then NoteTexts else AttendanceTexts
  }

  const NoteTexts := Messages(
      "Faltan datos requeridos ('alumno_id', 'fecha', 'contenido') para crear la nota.",
      "Nota creada con éxito.", "Nota encontrada.", "Nota no encontrada.",
      "Notas encontradas para el alumno ", "Lista de todas las notas.",
      "Nota no encontrada para actualizar.", "Nota actualizada con éxito.",
      "Nota no encontrada para eliminar.", "Nota eliminada con éxito.",
      "Acción no reconocida para notas.")

  const AttendanceTexts := Messages(
      "Faltan datos requeridos ('alumno_id', 'fecha', 'estado') para registrar la asistencia.",
      "Asistencia registrada con éxito.", "Asistencia encontrada.", "Asistencia no encontrada.",
      "Asistencias encontradas para el alumno ", "Lista de todas las asistencias.",
      "Asistencia no encontrada para actualizar.", "Asistencia actualizada con éxito.",
      "Asistencia no encontrada para eliminar.", "Asistencia eliminada con éxito.",
      "Acción no reconocida para asistencias.")

  function LinkedCreate(m: Messages, third: string, coll: seq<Record>, d: Record, uid: string): (r: Step)
    requires IdFree(coll, uid)
    ensures r.reply.status == Success <==> "alumno_id" in d && "fecha" in d && third in d
    ensures r.reply.status == Error ==> r == Step(Fail(m.missing), coll)
    ensures r.reply.status == Success ==>
      && r.reply.message == m.created
      && r.reply.data.One?
      && KeepsPayload(r.reply.data.record, d, uid)
      && r.coll == coll + [r.reply.data.record]
  {
    if |d| == 0 || "alumno_id" !in d || "fecha" !in d || third !in d then
      EmptyLacks(d, "alumno_id");
      Step(Fail(m.missing), coll)
    else
      var rec := d["id" := Str(uid)];
      Step(Envelope(Success, m.created, One(rec)), coll + [rec])
  }

  function LinkedRead(m: Messages, coll: seq<Record>, data: Payload): (r: Envelope)
    ensures r.status == Error ==> r.data == NoData
    ensures HasTruthy(data, "id") ==>
      && (r.status == Success <==> exists i :: 0 <= i < |coll| && GetMatches(coll[i], "id", data.value["id"]))
      && (r.status == Success ==>
            exists i :: 0 <= i < |coll| && r == Envelope(Success, m.found, One(coll[i]))
                        && GetMatches(coll[i], "id", data.value["id"])
                        && forall j :: 0 <= j < i ==> !GetMatches(coll[j], "id", data.value["id"]))
      && (r.status == Error ==> r == Fail(m.notFound))
    ensures !HasTruthy(data, "id") && HasTruthy(data, "alumno_id") ==>
      && r.status == Success && r.data.Many?
      && r.data.records == Linked(coll, "alumno_id", data.value["alumno_id"])
    ensures !HasTruthy(data, "id") && !HasTruthy(data, "alumno_id") ==>
      if data.None? || |data.value| == 0 then r == Envelope(Success, m.all, Many(coll))
      else r == Fail(m.unknown)
  {
    if HasTruthy(data, "id") then
      match FindGet(coll, "id", data.value["id"])
      case Some(i) => Envelope(Success, m.found, One(coll[i]))
      case None => Fail(m.notFound)
    else if HasTruthy(data, "alumno_id") then
      var x := data.value["alumno_id"];
      Envelope(Success, m.byStudent + PyStr(x) + ".", Many(Linked(coll, "alumno_id", x)))
    else if data.None? || |data.value| == 0 then
      Envelope(Success, m.all, Many(coll))
    else
      Fail(m.unknown)
  }

  /** Changes only `fecha` and the kind's third field. */
  function LinkedUpdate(m: Messages, third: string, coll: seq<Record>, d: Record): (r: Step)
    requires "id" in d
    ensures r.reply.status == Success <==> exists i :: 0 <= i < |coll| && GetMatches(coll[i], "id", d["id"])
    ensures r.reply.status == Error ==> r == Step(Fail(m.updateMissing), coll)
    ensures r.reply.status == Success ==>
      && |r.coll| == |coll|
      && exists i :: (0 <= i < |coll|
           && GetMatches(coll[i], "id", d["id"])
           && (forall j :: 0 <= j < i ==> !GetMatches(coll[j], "id", d["id"]))
           && r.reply == Envelope(Success, m.updated, One(r.coll[i]))
           && ReplacedAt(r.coll, coll, i, r.coll[i])
           && PatchedOnly(r.coll[i], coll[i], d, {"fecha", third}))
  {
    match FindGet(coll, "id", d["id"])
    case None => Step(Fail(m.updateMissing), coll)
    case Some(i) =>
      var n := PatchTwo(coll[i], d, "fecha", third);
      var r := Step(Envelope(Success, m.updated, One(n)), coll[i := n]);
      assert ReplacedAt(r.coll, coll, i, r.coll[i]);
      r
  }

  function LinkedDelete(m: Messages, coll: seq<Record>, d: Record): (r: Step)
    requires "id" in d
    ensures r.reply.status == Success <==> exists i :: 0 <= i < |coll| && GetMatches(coll[i], "id", d["id"])
    ensures r.reply.status == Error ==> r == Step(Fail(m.deleteMissing), coll)
    ensures r.reply.status == Success ==>
      && r.reply == Envelope(Success, m.deleted, One(map["id" := d["id"]]))
      && RemovedAll(r.coll, coll, "id", d["id"])
      && |r.coll| < |coll|
  {
    var kept := RemoveGet(coll, "id", d["id"]);
    if |kept| == |coll| then Step(Fail(m.deleteMissing), coll)
    else Step(Envelope(Success, m.deleted, One(map["id" := d["id"]])), kept)
  }

  /** `crud_notas` / `crud_asistencias`, by kind. */
  function CrudLinked(kind: LinkedKind, coll: seq<Record>, action: string, data: Payload, uid: string): (r: Step)
    requires action == "create" ==> IdFree(coll, uid)
    ensures action !in {"create", "read", "update", "delete"} ==> r == Step(Fail(Texts(kind).unknown), coll)
    ensures action == "read" ==> r.coll == coll
    ensures r.reply.status == Error ==> r.coll == coll && r.reply.data == NoData
    ensures action == "update" && r.reply.status == Success ==>
      && HasTruthy(data, "id") && |r.coll| == |coll|
      && exists i :: 0 <= i < |coll| && ReplacedAt(r.coll, coll, i, r.coll[i])
                     && PatchedOnly(r.coll[i], coll[i], data.value, {"fecha", ThirdField(kind)})
  {
    var m := Texts(kind);
    if action == "create" && data.Some? then LinkedCreate(m, ThirdField(kind), coll, data.value, uid)
    else if action == "read" then Step(LinkedRead(m, coll, data), coll)
    else if action == "update" && HasTruthy(data, "id") then LinkedUpdate(m, ThirdField(kind), coll, data.value)
    else if action == "delete" && HasTruthy(data, "id") then LinkedDelete(m, coll, data.value)
    else Step(Fail(m.unknown), coll)
  }
}

=== FILE: agent_tools_laws.dfy ===
/** How the backend CRUD actions compose: what a read sees after a create, an
    update or a delete. */
module AgentToolsLaws {
  import opened Common
  import opened PyValue
  import opened Records
  import opened AgentTools

  /** The payload `{'id': x}`. */
  function ById(x: Value): Payload {
    Some(map["id" := x])
  }

  /** A fresh student can be read back by the id the create gave it. */
  lemma StudentCreateThenRead(alumnos: seq<Record>, d: Record, uid: string)
    requires IdFree(alumnos, uid) && AllHave(alumnos, "id") && uid != ""
    requires "nombre" in d && "apellido" in d
    ensures var s := StudentCreate(alumnos, d, uid);
            StudentRead(s.coll, ById(Str(uid))) == Ok(Envelope(Success, StudentFound, s.reply.data))
  {
    var s := StudentCreate(alumnos, d, uid);
    var coll := s.coll;
    assert coll[|alumnos|] == s.reply.data.record;
    forall j | 0 <= j < |alumnos|
      ensures "id" in coll[j] && !PyEq(coll[j]["id"], Str(uid))
    {
      assert coll[j] == alumnos[j];
    }
    assert AllHave(coll, "id");
    var r := StudentRead(coll, ById(Str(uid)));
    assert PyEq(coll[|alumnos|]["id"], Str(uid));
    var i :| 0 <= i < |coll| && r.value.data == One(coll[i]) && PyEq(coll[i]["id"], Str(uid))
             && forall j :: 0 <= j < i ==> !PyEq(coll[j]["id"], Str(uid));
    assert i == |alumnos|;
  }

  /** After deleting a student, a read by that id finds nothing, whether or
      not the delete found the student. */
  lemma StudentDeleteThenRead(alumnos: seq<Record>, d: Record)
    requires "id" in d && Truthy(d["id"]) && AllHave(alumnos, "id")
    ensures var r := StudentDelete(alumnos, d);
            r.Ok? && StudentRead(r.value.coll, ById(d["id"])) == Ok(Fail(StudentNotFound))
  {
    var r := StudentDelete(alumnos, d);
    var coll := r.value.coll;
    forall j | 0 <= j < |coll|
      ensures "id" in coll[j] && !PyEq(coll[j]["id"], d["id"])
    {
      if r.value.reply.status == Success {
        var k :| 0 <= k < |alumnos| && alumnos[k] == coll[j];
        assert !GetMatches(coll[j], "id", d["id"]);
      }
    }
  }

  /** A fresh payment can be read back by its id. */
  lemma PaymentCreateThenRead(pagos: seq<Record>, d: Record, uid: string)
    requires IdFree(pagos, uid) && uid != ""
    requires "alumno_id" in d && "fecha" in d && "monto" in d
    ensures var s := PaymentCreate(pagos, d, uid);
            PaymentRead(s.coll, ById(Str(uid))) == Envelope(Success, PaymentFound, s.reply.data)
  {
    var s := PaymentCreate(pagos, d, uid);
    var coll := s.coll;
    assert coll[|pagos|] == NewPayment(d, uid);
    forall j | 0 <= j < |pagos|
      ensures !GetMatches(coll[j], "id", Str(uid))
    {
      assert coll[j] == pagos[j];
    }
    assert GetMatches(coll[|pagos|], "id", Str(uid));
    var r := PaymentRead(coll, ById(Str(uid)));
    var i :| 0 <= i < |coll| && r == Envelope(Success, PaymentFound, One(coll[i]))
             && GetMatches(coll[i], "id", Str(uid))
             && forall j :: 0 <= j < i ==> !GetMatches(coll[j], "id", Str(uid));
    assert i == |pagos|;
  }

  /** An update never moves a payment away from its id: reading the id back
      returns the updated payment. */
  lemma PaymentUpdateThenRead(pagos: seq<Record>, d: Record)
    requires "id" in d && Truthy(d["id"])
    ensures var u := PaymentUpdate(pagos, d);
            u.reply.status == Success ==>
              PaymentRead(u.coll, ById(d["id"])) == Envelope(Success, PaymentFound, u.reply.data)
  {
    var x := d["id"];
    var found := FindGet(pagos, "id", x);
    if found.Some? && |pagos[found.value]| > 0 {
      var i := found.value;
      var p := PatchTwo(pagos[i], d, "fecha", "monto");
      var coll := pagos[i := p];
      assert PaymentUpdate(pagos, d) == Step(Envelope(Success, PaymentUpdated, One(p)), coll);
      assert Get(p, "id", Null) == Get(pagos[i], "id", Null);
      assert forall j :: 0 <= j < i ==> coll[j] == pagos[j];
      FindGetFirst(coll, "id", x, i);
    }
  }

  /** After deleting a payment, a read by that id finds nothing. */
  lemma PaymentDeleteThenRead(pagos: seq<Record>, d: Record)
    requires "id" in d && Truthy(d["id"])
    ensures var r := PaymentDelete(pagos, d);
            PaymentRead(r.coll, ById(d["id"])) == Fail(PaymentNotFound)
  {
  }

  /** An update never moves a note or attendance away from its id: reading
      the id back returns the updated record. */
  lemma LinkedUpdateThenRead(kind: LinkedKind, coll: seq<Record>, d: Record)
    requires "id" in d && Truthy(d["id"])
    ensures var u := LinkedUpdate(Texts(kind), ThirdField(kind), coll, d);
            u.reply.status == Success ==>
              LinkedRead(Texts(kind), u.coll, ById(d["id"])) == Envelope(Success, Texts(kind).found, u.reply.data)
  {
    var x := d["id"];
    var found := FindGet(coll, "id", x);
    if found.Some? {
      var i := found.value;
      var n := PatchTwo(coll[i], d, "fecha", ThirdField(kind));
      var c := coll[i := n];
      assert LinkedUpdate(Texts(kind), ThirdField(kind), coll, d) == Step(Envelope(Success, Texts(kind).updated, One(n)), c);
      assert Get(n, "id", Null) == Get(coll[i], "id", Null);
      assert forall j :: 0 <= j < i ==> c[j] == coll[j];
      FindGetFirst(c, "id", x, i);
      assert HasTruthy(ById(x), "id") && ById(x).value["id"] == x;
      assert LinkedRead(Texts(kind), c, ById(x)) == Envelope(Success, Texts(kind).found, One(c[i]));
    }
  }

  /** After deleting a note or attendance, a read by that id finds nothing. */
  lemma LinkedDeleteThenRead(kind: LinkedKind, coll: seq<Record>, d: Record)
    requires "id" in d && Truthy(d["id"])
    ensures var r := LinkedDelete(Texts(kind), coll, d);
            LinkedRead(Texts(kind), r.coll, ById(d["id"])) == Fail(Texts(kind).notFound)
  {
  }

  /** A created note or attendance shows up when the student's records are
      listed. */
  lemma LinkedCreateThenList(kind: LinkedKind, coll: seq<Record>, d: Record, uid: string)
    requires IdFree(coll, uid)
    requires "alumno_id" in d && "fecha" in d && ThirdField(kind) in d && Truthy(d["alumno_id"])
    ensures var s := LinkedCreate(Texts(kind), ThirdField(kind), coll, d, uid);
            var r := LinkedRead(Texts(kind), s.coll, Some(map["alumno_id" := d["alumno_id"]]));
            r.data.Many? && s.reply.data.record in r.data.records
  {
    var s := LinkedCreate(Texts(kind), ThirdField(kind), coll, d, uid);
    var rec := s.reply.data.record;
    assert s.coll[|coll|] == rec;
    PyEqIsEquivalence(rec["alumno_id"], rec["alumno_id"], rec["alumno_id"]);
  }
}

=== FILE: agente_route.dfy ===
/** The chat endpoint `src/app/api/agente-ia/route.ts`: it guards the
    message, makes sure the agent session exists, forwards the message and
    picks the reply text out of the agent's event list. The two HTTP calls
    are given as their answers. */
module AgentRoute {
  import opened Common
  import opened JsValues

  /** What `fetch` reports of an answer: its status and its body text. */
  datatype Http = Http(status: nat, body: string)

  /** `Response.ok`: a status in the 2xx range. */
  predicate Ok(h: Http) {
    200 <= h.status <= 299
  }

  /** One element of an event's `content.parts`; `text` is whatever JSON value it carries. */
  datatype Part = Part(text: Opt<Json>)

  /** One event of the agent's answer. `parts` is `None` when the event has
      no `content`, or its `content.parts` is not an array. */
  datatype Event = Event(parts: Option<seq<Part>>)

  /** The parsed body of the `/run` answer: an array of events, or anything else. */
  datatype AgentData = NotArray | Events(events: seq<Event>)

  /** What the route answers: an error with its status, or `{ response }`. */
  datatype Reply = Failure(status: nat, error: string) | Answer(response: string)

  const MissingMessage: string := "No se proporcionó mensaje"
  const NoTextReply: string := "El agente no proporcionó una respuesta de texto."
  const SessionExists: string := "session already exists"

  /** `t` occurs in `s` (`String.prototype.includes`). */
  predicate Contains(s: string, t: string)
    decreases |s|
  {
    (|t| <= |s| && s[..|t|] == t) || (|s| > 0 && Contains(s[1..], t))
  }

  /** `t` starts at position `i` of `s`. */
  predicate OccursAt(s: string, t: string, i: int) {
    0 <= i && i + |t| <= |s| && s[i..i + |t|] == t
  }

  /** `Contains` finds exactly the positions where `t` starts inside `s`. */
  lemma {:induction false} ContainsIffOccurs(s: string, t: string)
    ensures Contains(s, t) <==> exists i :: OccursAt(s, t, i)
    decreases |s|
  {
    if |s| > 0 {
      ContainsIffOccurs(s[1..], t);
      if |t| <= |s| && s[..|t|] == t {
        assert OccursAt(s, t, 0);
      }
      if Contains(s[1..], t) {
        var i :| OccursAt(s[1..], t, i);
        assert s[1..][i..i + |t|] == s[i + 1..i + 1 + |t|];
        assert OccursAt(s, t, i + 1);
      }
      if exists i :: OccursAt(s, t, i) {
        var i :| OccursAt(s, t, i);
        if i > 0 {
          assert s[1..][i - 1..i - 1 + |t|] == s[i..i + |t|];
          assert OccursAt(s[1..], t, i - 1);
        } else {
          assert s[..|t|] == t;
        }
      }
    } else if |t| == 0 {
      assert OccursAt(s, t, 0);
    }
  }

  /** A failed session call stops the request unless the session already
      exists: status 409, or a body that says so in any letter case. */
  predicate SessionUsable(session: Http) {
    Ok(session) || session.status == 409 || Contains(Lower(session.body), SessionExists)
  }

  lemma {:induction false} LowerIdempotent(s: string)
    ensures Lower(Lower(s)) == Lower(s)
  {
    assert forall i :: 0 <= i < |s| ==> LowerChar(LowerChar(s[i])) == LowerChar(s[i]);
  }

  /** Whether the session may be reused does not depend on the body's letter case. */
  lemma SessionUsableIgnoresCase(status: nat, body: string)
    ensures SessionUsable(Http(status, body)) <==> SessionUsable(Http(status, Lower(body)))
  {
    LowerIdempotent(body);
  }

  /** A session refusal is tolerated exactly when it is a conflict or its body
      contains the phrase somewhere. */
  lemma SessionRefusalTolerated(session: Http)
    requires !Ok(session)
    ensures SessionUsable(session)
            <==> session.status == 409
                 || exists i :: OccursAt(Lower(session.body), SessionExists, i)
  {
    ContainsIffOccurs(Lower(session.body), SessionExists);
  }

  /** A part counts when its `text` is a non-empty string. */
  predicate HasText(p: Part) {
    p.text.Given? && p.text.value.Str? && p.text.value.s != ""
  }

  /** The texts of the parts that carry a non-empty string, in order. */
  function TextParts(parts: seq<Part>): (r: seq<string>)
    ensures |r| <= |parts|
    ensures |r| == 0 <==> forall i :: 0 <= i < |parts| ==> !HasText(parts[i])
    ensures forall k :: 0 <= k < |r| ==> r[k] != ""
    decreases |parts|
  {
    if |parts| == 0 then []
    else if HasText(parts[0]) then [parts[0].text.value.s] + TextParts(parts[1..])
    else
      assert forall i :: 1 <= i < |parts| ==> parts[1..][i - 1] == parts[i];
      TextParts(parts[1..])
  }

  /** Parts without text leave the reply untouched wherever they stand. */
  lemma {:induction false} TextPartsAppend(a: seq<Part>, b: seq<Part>)
    ensures TextParts(a + b) == TextParts(a) + TextParts(b)
    decreases |a|
  {
    if |a| > 0 {
      assert (a + b)[1..] == a[1..] + b;
      TextPartsAppend(a[1..], b);
    } else {
      assert a + b == b;
    }
  }

  /** The text an event contributes, if it has any: its non-empty texts
      joined with nothing between them and trimmed. */
  function EventText(e: Event): Option<string> {
    if e.parts.Some? && |TextParts(e.parts.value)| > 0 then Some(Trim(Join("", TextParts(e.parts.value))))
    else None
  }

  /** An event contributes text exactly when one of its parts carries a
      non-empty string. */
  lemma EventTextWhen(e: Event)
    ensures EventText(e).Some? <==> e.parts.Some? && exists i :: 0 <= i < |e.parts.value| && HasText(e.parts.value[i])
  {
  }

  /** The value `f` gives for the last element that has one. */
  function LastSome<T, U>(xs: seq<T>, f: T -> Option<U>): Option<U>
    decreases |xs|
  {
    if |xs| == 0 then None
    else if f(xs[|xs| - 1]).Some? then f(xs[|xs| - 1])
    else LastSome(xs[..|xs| - 1], f)
  }

  /** Element `i` has a value and no later element does. */
  predicate LatestSome<T, U>(xs: seq<T>, f: T -> Option<U>, i: int) {
    0 <= i < |xs| && f(xs[i]).Some? && forall j :: i < j < |xs| ==> f(xs[j]).None?
  }

  /** `LastSome` finds nothing exactly when no element has a value. */
  lemma {:induction false} LastSomeNone<T, U>(xs: seq<T>, f: T -> Option<U>)
    ensures LastSome(xs, f).None? <==> forall i :: 0 <= i < |xs| ==> f(xs[i]).None?
    decreases |xs|
  {
    if |xs| > 0 {
      var n := |xs| - 1;
      LastSomeNone(xs[..n], f);
      assert forall i :: 0 <= i < n ==> xs[..n][i] == xs[i];
    }
  }

  /** What `LastSome` finds is the value of the latest element that has one. */
  lemma {:induction false} LastSomeIsLatest<T, U>(xs: seq<T>, f: T -> Option<U>)
    ensures LastSome(xs, f).Some? ==> exists i :: LatestSome(xs, f, i) && LastSome(xs, f) == f(xs[i])
    decreases |xs|
  {
    if |xs| > 0 {
      var n := |xs| - 1;
      if f(xs[n]).Some? {
        assert LatestSome(xs, f, n);
      } else if LastSome(xs, f).Some? {
        var front := xs[..n];
        LastSomeIsLatest(front, f);
        var i :| LatestSome(front, f, i) && LastSome(front, f) == f(front[i]);
        assert LatestSome(xs, f, i) && LastSome(xs, f) == f(xs[i]) by {
          assert front[i] == xs[i];
          assert forall j :: i < j < n ==> front[j] == xs[j];
        }
      }
    }
  }

  /** Elements without a value at the end change nothing. */
  lemma {:induction false} TrailingNone<T, U>(xs: seq<T>, tail: seq<T>, f: T -> Option<U>)
    requires forall j :: 0 <= j < |tail| ==> f(tail[j]).None?
    ensures LastSome(xs + tail, f) == LastSome(xs, f)
    decreases |tail|
  {
    if |tail| > 0 {
      var n := |tail| - 1;
      assert (xs + tail)[..|xs + tail| - 1] == xs + tail[..n];
      assert (xs + tail)[|xs + tail| - 1] == tail[n];
      TrailingNone(xs, tail[..n], f);
    } else {
      assert xs + tail == xs;
    }
  }

  /** Reference definition: the text of the last event that has one. */
  function LastText(events: seq<Event>): Option<string> {
    LastSome(events, EventText)
  }

  /** The reply is the text of the latest event with text, if there is one. */
  lemma LastTextIsLatest(events: seq<Event>)
    ensures LastText(events).None? <==> forall i :: 0 <= i < |events| ==> EventText(events[i]).None?
    ensures LastText(events).Some? ==>
              exists i :: LatestSome(events, EventText, i) && LastText(events) == EventText(events[i])
  {
    LastSomeNone(events, EventText);
    LastSomeIsLatest(events, EventText);
  }

  /** Events after the last one with text, whatever they hold otherwise, do not matter. */
  lemma TrailingSilentEvents(events: seq<Event>, tail: seq<Event>)
    requires forall j :: 0 <= j < |tail| ==> EventText(tail[j]).None?
    ensures LastText(events + tail) == LastText(events)
  {
    TrailingNone(events, tail, EventText);
  }

  /** The reply the route sends back for the agent's data. */
  function ReplyText(data: AgentData): (r: string)
    ensures data.NotArray? ==> r == NoTextReply
    ensures data.Events? && LastText(data.events).Some? ==> r == LastText(data.events).value
    ensures data.Events? && LastText(data.events).None? ==> r == NoTextReply
  {
    if data.Events? && LastText(data.events).Some? then LastText(data.events).value else NoTextReply
  }

  /** The backward walk: from the last element down, stop at the first that
      has a value. */
  method ScanBack<T, U>(xs: seq<T>, f: T -> Option<U>) returns (r: Option<U>)
    ensures r == LastSome(xs, f)
  {
    r := None;
    var i := |xs| - 1;
    assert xs[..i + 1] == xs;
    while i >= 0
      invariant -1 <= i < |xs|
      invariant r.None?
      invariant LastSome(xs, f) == LastSome(xs[..i + 1], f)
      decreases i
    {
      var t := f(xs[i]);
      assert xs[..i + 1][..i] == xs[..i];
      if t.Some? {
        assert xs[..i + 1][i] == xs[i];
        r := t;
        return;
      }
      i := i - 1;
    }
    assert xs[..0] == [];
  }

  /** The extraction loop: walk the events from the last one down and stop at
      the first that has text. */
  method ExtractReply(data: AgentData) returns (content: string)
    ensures content == ReplyText(data)
    ensures data.Events? ==>
              (content == NoTextReply && forall i :: 0 <= i < |data.events| ==> EventText(data.events[i]).None?)
              || exists i :: LatestSome(data.events, EventText, i) && Some(content) == EventText(data.events[i])
  {
    content := NoTextReply;
    if data.Events? {
      var t := ScanBack(data.events, EventText);
      if t.Some? {
        content := t.value;
      }
      LastTextIsLatest(data.events);
    }
  }

  /** `POST`: the checks in order, then the reply. `message` is the request
      body's `message` field. */
  function Post(message: Opt<Json>, session: Http, agent: Http, data: AgentData): (r: Reply)
    ensures !Truthy(message) ==> r == Failure(400, MissingMessage)
    ensures Truthy(message) && !SessionUsable(session) ==>
              r == Failure(session.status, "Error al configurar la sesión con el agente: "
                                           + IntToString(session.status) + " " + session.body)
    ensures Truthy(message) && SessionUsable(session) && !Ok(agent) ==>
              r == Failure(agent.status, "Error al comunicarse con el agente: "
                                         + IntToString(agent.status) + " " + agent.body)
    ensures r.Answer? <==> Truthy(message) && SessionUsable(session) && Ok(agent)
    ensures r.Answer? ==> r.response == ReplyText(data)
  {
    if !Truthy(message) then Failure(400, MissingMessage)
    else if !SessionUsable(session) then
      Failure(session.status, "Error al configurar la sesión con el agente: "
                              + IntToString(session.status) + " " + session.body)
    else if !Ok(agent) then
      Failure(agent.status, "Error al comunicarse con el agente: " + IntToString(agent.status) + " " + agent.body)
    else Answer(ReplyText(data))
  }

  /** A conflict on the session call never stops a request that carries a message. */
  lemma ConflictProceeds(message: Opt<Json>, body: string, agent: Http, data: AgentData)
    requires Truthy(message) && Ok(agent)
    ensures Post(message, Http(409, body), agent, data) == Answer(ReplyText(data))
  {
  }

  /** An event with text at the end of the list decides the reply, whatever came before. */
  lemma LastEventWins(events: seq<Event>, e: Event)
    requires EventText(e).Some?
    ensures ReplyText(Events(events + [e])) == EventText(e).value
  {
    assert (events + [e])[|events + [e]| - 1] == e;
  }
}

=== FILE: alertas.dfy ===
/** The alert rule of `src/services/alertas.ts`. The student list and the
    current instant are inputs; the days since a student last attended are
    given as a whole number, as the service computes them. */
module Alertas {
  import opened Common

  /** An alert configuration; a threshold of 0 is as good as none. */
  datatype AlertConfig = AlertConfig(kind: string, enabled: bool, threshold: Option<int>, reminderDays: Option<int>)

  /** A student as the rule reads it. */
  datatype Alumno = Alumno(id: string, nombre: string, apellido: string, alertasActivas: bool,
                           daysSinceLastAttendance: Option<int>, estadoPago: string)

  datatype AlertType = Asistencia | Pago

  datatype Alerta = Alerta(id: string, alumnoId: string, nombre: string, tipo: AlertType,
                           mensaje: string, fecha: string, dismissible: bool)

  /** The first configuration of the given type, if any. */
  function FindConfig(configs: seq<AlertConfig>, kind: string): (r: Option<AlertConfig>)
    ensures r.Some? <==> exists i :: 0 <= i < |configs| && configs[i].kind == kind
    ensures r.Some? ==> r.value in configs && r.value.kind == kind
    ensures r.Some? ==> exists i :: 0 <= i < |configs| && configs[i] == r.value
                                    && forall j :: 0 <= j < i ==> configs[j].kind != kind
  {
    if |configs| == 0 then None
    else if configs[0].kind == kind then Some(configs[0])
    else
      var rest := FindConfig(configs[1..], kind);
      assert forall i :: 1 <= i < |configs| ==> configs[i] == configs[1..][i - 1];
      assert rest.Some? ==> exists i :: 0 <= i < |configs| && configs[i] == rest.value
                                        && forall j :: 0 <= j < i ==> configs[j].kind != kind by {
        if rest.Some? {
          var i' :| 0 <= i' < |configs[1..]| && configs[1..][i'] == rest.value
                    && forall j :: 0 <= j < i' ==> configs[1..][j].kind != kind;
          assert configs[i' + 1] == rest.value;
          assert forall j :: 0 <= j < i' + 1 ==> configs[j].kind != kind by {
            forall j | 0 <= j < i' + 1 ensures configs[j].kind != kind {
              if j > 0 { assert configs[j] == configs[1..][j - 1]; }
            }
          }
        }
      }
      rest
  }

  predicate Truthy(n: Option<int>) {
    n.Some? && n.value != 0
  }

  /** The attendance alert fires: its configuration is on with a threshold,
      the student has attended before, and at least that many days have passed. */
  predicate AttendanceFires(configs: seq<AlertConfig>, a: Alumno) {
    var c := FindConfig(configs, "asistencia");
    && c.Some? && c.value.enabled && Truthy(c.value.threshold)
    && a.daysSinceLastAttendance.Some? && a.daysSinceLastAttendance.value >= c.value.threshold.value
  }

  /** The payment alert fires: its configuration is on with reminder days,
      and the student is behind with payments. */
  predicate PaymentFires(configs: seq<AlertConfig>, a: Alumno) {
    var c := FindConfig(configs, "pago");
    c.Some? && c.value.enabled && Truthy(c.value.reminderDays) && a.estadoPago == "atrasado"
  }

  function FullName(a: Alumno): string {
    a.nombre + " " + a.apellido
  }

  function AttendanceAlert(a: Alumno, now: string): Alerta
    requires a.daysSinceLastAttendance.Some?
  {
    Alerta("asistencia-" + a.id, a.id, FullName(a), Asistencia,
           "No asiste hace " + IntToString(a.daysSinceLastAttendance.value) + " días", now, true)
  }

  function PaymentAlert(a: Alumno, now: string): Alerta {
    Alerta("pago-" + a.id, a.id, FullName(a), Pago, "Pago vencido", now, true)
  }

  /** The alerts one student gets: none when their alerts are off, else the
      attendance alert, then the payment alert, each when it fires. */
  function AlertsFor(configs: seq<AlertConfig>, a: Alumno, now: string): (r: seq<Alerta>)
    ensures !a.alertasActivas ==> r == []
    ensures |r| <= 2
    ensures forall k :: 0 <= k < |r| ==> r[k].alumnoId == a.id && r[k].nombre == a.nombre + " " + a.apellido
                                         && r[k].dismissible && r[k].fecha == now
    ensures |r| == 2 ==> r[0].tipo == Asistencia && r[1].tipo == Pago
  {
    if !a.alertasActivas then []
    else
      var first := if AttendanceFires(configs, a) then [AttendanceAlert(a, now)] else [];
      var second := if PaymentFires(configs, a) then [PaymentAlert(a, now)] else [];
      first + second
  }

  lemma AlertsForUnfold(configs: seq<AlertConfig>, a: Alumno, now: string)
    ensures AlertsFor(configs, a, now)
            == if !a.alertasActivas then []
               else (if AttendanceFires(configs, a) then [AttendanceAlert(a, now)] else [])
                    + (if PaymentFires(configs, a) then [PaymentAlert(a, now)] else [])
  {
  }

  /** The alerts each student gets. */
  function AlertsOfOne(configs: seq<AlertConfig>, now: string): Alumno -> seq<Alerta> {
    a => AlertsFor(configs, a, now)
  }

  /** The alerts of the students, in their order. */
  function AlertsOf(configs: seq<AlertConfig>, alumnos: seq<Alumno>, now: string): seq<Alerta> {
    FlatMap(alumnos, AlertsOfOne(configs, now))
  }

  /** The loop body of `getAlertas` for one student: push the attendance
      alert, then the payment alert, each when it fires. */
  method PushAlerts(alertas: seq<Alerta>, configs: seq<AlertConfig>, a: Alumno, now: string)
    returns (out: seq<Alerta>)
    ensures out == alertas + AlertsFor(configs, a, now)
  {
    out := alertas;
    AlertsForUnfold(configs, a, now);
    if a.alertasActivas {
      if AttendanceFires(configs, a) {
        out := out + [AttendanceAlert(a, now)];
      }
      if PaymentFires(configs, a) {
        out := out + [PaymentAlert(a, now)];
      }
    }
  }

  /** `getAlertas`: one pass over the students, pushing each one's alerts. */
  method GetAlertas(configs: seq<AlertConfig>, alumnos: seq<Alumno>, now: string) returns (alertas: seq<Alerta>)
    ensures alertas == AlertsOf(configs, alumnos, now)
    ensures |alertas| <= 2 * |alumnos|
    ensures forall k :: 0 <= k < |alertas| ==> alertas[k].dismissible && alertas[k].fecha == now
  {
    ghost var f := AlertsOfOne(configs, now);
    alertas := [];
    var i := 0;
    while i < |alumnos|
      invariant 0 <= i <= |alumnos|
      invariant alertas == FlatMap(alumnos[..i], f)
      invariant |alertas| <= 2 * i
      invariant forall k :: 0 <= k < |alertas| ==> alertas[k].dismissible && alertas[k].fecha == now
    {
      var a := alumnos[i];
      FlatMapStep(alumnos, i, f);
      ghost var mine := AlertsFor(configs, a, now);
      assert f(a) == mine;
      ghost var before := alertas;
      alertas := PushAlerts(alertas, configs, a, now);
      assert alertas == before + mine;
      i := i + 1;
    }
    assert alumnos[..i] == alumnos;
  }

  /** An alert belongs to a student: its id is its type's prefix and the id. */
  predicate Owns(x: Alerta, a: Alumno) {
    (x.tipo == Asistencia && x.id == "asistencia-" + a.id) || (x.tipo == Pago && x.id == "pago-" + a.id)
  }

  /** Ids that agree after the same prefix are the same id. */
  lemma PrefixedIds(p: string, x: string, y: string)
    requires p + x == p + y
    ensures x == y
  {
    assert x == (p + x)[|p|..];
  }

  /** Every alert a student gets belongs to that student. */
  lemma OwnAlerts(configs: seq<AlertConfig>, now: string)
    ensures forall a, k :: 0 <= k < |AlertsOfOne(configs, now)(a)| ==> Owns(AlertsOfOne(configs, now)(a)[k], a)
  {
  }

  /** Every item of a concatenated map belongs to one of the elements. */
  lemma {:induction false} FlatMapOwners(xs: seq<Alumno>, f: Alumno -> seq<Alerta>)
    requires forall a, k :: 0 <= k < |f(a)| ==> Owns(f(a)[k], a)
    ensures forall k :: 0 <= k < |FlatMap(xs, f)| ==> exists j :: 0 <= j < |xs| && Owns(FlatMap(xs, f)[k], xs[j])
    decreases |xs|
  {
    if |xs| > 0 {
      var init := xs[..|xs| - 1];
      FlatMapOwners(init, f);
      var out, front := FlatMap(xs, f), FlatMap(init, f);
      assert out == front + f(xs[|xs| - 1]);
      forall k | 0 <= k < |out|
        ensures exists j :: 0 <= j < |xs| && Owns(out[k], xs[j])
      {
        if k < |front| {
          var j :| 0 <= j < |init| && Owns(front[k], init[j]);
          assert out[k] == front[k] && xs[j] == init[j];
        } else {
          assert out[k] == f(xs[|xs| - 1])[k - |front|];
          assert Owns(out[k], xs[|xs| - 1]);
        }
      }
      assert forall k :: 0 <= k < |out| ==> exists j :: 0 <= j < |xs| && Owns(out[k], xs[j]);
    } else {
      assert FlatMap(xs, f) == [];
    }
  }

  /** Items gathered from students other than `a` never belong to `a`. */
  lemma NotOwned(xs: seq<Alumno>, f: Alumno -> seq<Alerta>, a: Alumno)
    requires forall a, k :: 0 <= k < |f(a)| ==> Owns(f(a)[k], a)
    requires forall j :: 0 <= j < |xs| ==> xs[j].id != a.id
    ensures forall k :: 0 <= k < |FlatMap(xs, f)| ==> !Owns(FlatMap(xs, f)[k], a)
  {
    FlatMapOwners(xs, f);
    var out := FlatMap(xs, f);
    forall k | 0 <= k < |out|
      ensures !Owns(out[k], a)
    {
      var j :| 0 <= j < |xs| && Owns(out[k], xs[j]);
      if Owns(out[k], a) {
        if out[k].tipo == Asistencia {
          PrefixedIds("asistencia-", xs[j].id, a.id);
        } else {
          PrefixedIds("pago-", xs[j].id, a.id);
        }
        assert false;
      }
    }
  }

  /** Some alert carries this id and type. */
  predicate HasAlert(out: seq<Alerta>, id: string, t: AlertType) {
    exists k :: 0 <= k < |out| && out[k].id == id && out[k].tipo == t
  }

  /** The ids a student's alerts carry. */
  predicate IdOf(id: string, t: AlertType, a: Alumno) {
    (t == Asistencia && id == "asistencia-" + a.id) || (t == Pago && id == "pago-" + a.id)
  }

  /** A student's own alerts hold the attendance alert exactly when it fires,
      and the payment alert exactly when that fires. */
  lemma OwnMembership(configs: seq<AlertConfig>, a: Alumno, now: string)
    ensures (HasAlert(AlertsFor(configs, a, now), "asistencia-" + a.id, Asistencia)
             <==> a.alertasActivas && AttendanceFires(configs, a))
    ensures (HasAlert(AlertsFor(configs, a, now), "pago-" + a.id, Pago)
             <==> a.alertasActivas && PaymentFires(configs, a))
  {
    var mine := AlertsFor(configs, a, now);
    if a.alertasActivas && AttendanceFires(configs, a) {
      assert mine[0] == AttendanceAlert(a, now);
    }
    if a.alertasActivas && PaymentFires(configs, a) {
      assert mine[|mine| - 1] == PaymentAlert(a, now);
    }
  }

  /** Alerts of `a` in a list split around `a`'s own alerts are `a`'s own. */
  lemma MembershipSplit(front: seq<Alerta>, mine: seq<Alerta>, back: seq<Alerta>, a: Alumno, id: string, t: AlertType)
    requires IdOf(id, t, a)
    requires forall k :: 0 <= k < |front| ==> !Owns(front[k], a)
    requires forall k :: 0 <= k < |back| ==> !Owns(back[k], a)
    ensures HasAlert(front + mine + back, id, t) <==> HasAlert(mine, id, t)
  {
    var out := front + mine + back;
    if HasAlert(out, id, t) {
      var k :| 0 <= k < |out| && out[k].id == id && out[k].tipo == t;
      if k < |front| {
        assert false;
      } else if k >= |front| + |mine| {
        assert false;
      }
      assert out[k] == mine[k - |front|];
    }
    if HasAlert(mine, id, t) {
      var k :| 0 <= k < |mine| && mine[k].id == id && mine[k].tipo == t;
      assert out[|front| + k] == mine[k];
    }
  }

  /** With distinct student ids, a student has an attendance alert exactly
      when it fires for them, and a payment alert exactly when that fires;
      students with alerts off get none. */
  lemma AlertMembership(configs: seq<AlertConfig>, alumnos: seq<Alumno>, now: string, i: nat)
    requires i < |alumnos|
    requires forall j, k :: 0 <= j < k < |alumnos| ==> alumnos[j].id != alumnos[k].id
    ensures (HasAlert(AlertsOf(configs, alumnos, now), "asistencia-" + alumnos[i].id, Asistencia)
             <==> alumnos[i].alertasActivas && AttendanceFires(configs, alumnos[i]))
    ensures (HasAlert(AlertsOf(configs, alumnos, now), "pago-" + alumnos[i].id, Pago)
             <==> alumnos[i].alertasActivas && PaymentFires(configs, alumnos[i]))
  {
    var f := AlertsOfOne(configs, now);
    var a := alumnos[i];
    var before, after := alumnos[..i], alumnos[i + 1..];
    FlatMapAt(alumnos, f, i);
    OwnAlerts(configs, now);
    forall j | 0 <= j < |before| ensures before[j].id != a.id {
      assert before[j] == alumnos[j];
    }
    forall j | 0 <= j < |after| ensures after[j].id != a.id {
      assert after[j] == alumnos[i + 1 + j];
    }
    NotOwned(before, f, a);
    NotOwned(after, f, a);
    MembershipSplit(FlatMap(before, f), f(a), FlatMap(after, f), a, "asistencia-" + a.id, Asistencia);
    MembershipSplit(FlatMap(before, f), f(a), FlatMap(after, f), a, "pago-" + a.id, Pago);
    OwnMembership(configs, a, now);
  }
}

=== FILE: citas.dfy ===
/** Appointment scheduling (`src/services/citas.ts`): the `HH:MM` overlap test,
    recurrence, the conflict checks run before a booking, and the defaults an
    insert fills in. Database queries are replaced by the list of appointments
    they would return; a time of day is a minute since midnight, written as
    `HH:MM` wherever the service compares strings. */
module Citas {
  import opened Common

  /** A time of day, in minutes since midnight. */
  type Minute = m: int | 0 <= m < 1440

  // ---------------------------------------------------------------------------
  // Clock strings

  /** A two-digit field of a clock string. */
  function Two(n: nat): (s: string)
    requires n < 100
    ensures |s| == 2 && AllDigits(s)
  {
    [DigitChar(n / 10), DigitChar(n % 10)]
  }

  /** The `HH:MM` form of a time of day, as the service cuts it from a time string. */
  function Clock(m: Minute): (s: string)
    ensures |s| == 5 && s[2] == ':'
  {
    Two(m / 60) + ":" + Two(m % 60)
  }

  /** The time `duration` minutes after `start`, as a clock reads it: past
      midnight it starts again from `00:00`. */
  function After(start: Minute, duration: int): (r: Minute)
    ensures 0 <= start + duration < 1440 ==> r == start + duration
  {
    (start + duration) % 1440
  }

  lemma DigitCharOrder(a: nat, b: nat)
    requires a < 10 && b < 10
    ensures DigitChar(a) < DigitChar(b) <==> a < b
    ensures DigitChar(a) == DigitChar(b) <==> a == b
  {
  }

  lemma StrLtCons(x: char, y: char, s: string, t: string)
    ensures StrLt([x] + s, [y] + t) <==> x < y || (x == y && StrLt(s, t))
  {
    assert ([x] + s)[1..] == s;
    assert ([y] + t)[1..] == t;
  }

  /** Splitting a number below 100 into tens and units keeps its order. */
  lemma TensOrder(n1: nat, n2: nat)
    requires n1 < 100 && n2 < 100
    ensures n1 < n2 <==> n1 / 10 < n2 / 10 || (n1 / 10 == n2 / 10 && n1 % 10 < n2 % 10)
    ensures n1 == n2 <==> n1 / 10 == n2 / 10 && n1 % 10 == n2 % 10
  {
  }

  lemma HoursOrder(a: Minute, b: Minute)
    ensures a < b <==> a / 60 < b / 60 || (a / 60 == b / 60 && a % 60 < b % 60)
  {
  }

  /** A two-digit field followed by anything compares by the field first. */
  lemma TwoOrder(n1: nat, n2: nat, s: string, t: string)
    requires n1 < 100 && n2 < 100
    ensures StrLt(Two(n1) + s, Two(n2) + t) <==> n1 < n2 || (n1 == n2 && StrLt(s, t))
  {
    var x1, y1 := DigitChar(n1 / 10), DigitChar(n1 % 10);
    var x2, y2 := DigitChar(n2 / 10), DigitChar(n2 % 10);
    assert Two(n1) + s == [x1] + ([y1] + s);
    assert Two(n2) + t == [x2] + ([y2] + t);
    StrLtCons(x1, x2, [y1] + s, [y2] + t);
    StrLtCons(y1, y2, s, t);
    DigitCharOrder(n1 / 10, n2 / 10);
    DigitCharOrder(n1 % 10, n2 % 10);
    TensOrder(n1, n2);
  }

  /** Clock strings compare, as strings, the way their minutes compare. */
  lemma ClockOrder(a: Minute, b: Minute)
    ensures StrLt(Clock(a), Clock(b)) <==> a < b
  {
    var h1, m1, h2, m2 := a / 60, a % 60, b / 60, b % 60;
    assert Clock(a) == Two(h1) + ([':'] + Two(m1));
    assert Clock(b) == Two(h2) + ([':'] + Two(m2));
    TwoOrder(h1, h2, [':'] + Two(m1), [':'] + Two(m2));
    StrLtCons(':', ':', Two(m1), Two(m2));
    assert Two(m1) == Two(m1) + [] && Two(m2) == Two(m2) + [];
    TwoOrder(m1, m2, [], []);
    HoursOrder(a, b);
  }

  // ---------------------------------------------------------------------------
  // Overlap

  /** `timesOverlap`: string comparison of the four times. */
  function TimesOverlap(start1: string, end1: string, start2: string, end2: string): (r: bool)
    ensures r ==> start1 != end2 && start2 != end1
  {
    if StrLt(start1, end2) && StrLt(start2, end1) then
      StrLtIrreflexive(start1);
      StrLtIrreflexive(start2);
      true
    else false
  }

  /** Minute `t` lies in the half-open interval `[s, e)`. */
  predicate Within(t: int, s: int, e: int) {
    s <= t < e
  }

  /** On clock strings the test is the overlap of half-open intervals: some
      minute lies in both, so touching intervals do not overlap and the test
      is symmetric. */
  lemma ClockOverlap(s1: Minute, e1: Minute, s2: Minute, e2: Minute)
    ensures TimesOverlap(Clock(s1), Clock(e1), Clock(s2), Clock(e2)) <==> s1 < e2 && s2 < e1
    ensures s1 < e1 && s2 < e2 ==>
      (TimesOverlap(Clock(s1), Clock(e1), Clock(s2), Clock(e2)) <==> exists t :: Within(t, s1, e1) && Within(t, s2, e2))
    ensures TimesOverlap(Clock(s1), Clock(e1), Clock(s2), Clock(e2)) == TimesOverlap(Clock(s2), Clock(e2), Clock(s1), Clock(e1))
    ensures e1 == s2 ==> !TimesOverlap(Clock(s1), Clock(e1), Clock(s2), Clock(e2))
  {
    ClockOrder(s1, e2);
    ClockOrder(s2, e1);
    if s1 < e2 && s2 < e1 && s1 < e1 && s2 < e2 {
      var t := if s1 < s2 then s2 else s1;
      assert Within(t, s1, e1) && Within(t, s2, e2);
    }
  }

  // ---------------------------------------------------------------------------
  // Recurrence

  /** `getRecurringInterval`: days between two occurrences. */
  function RecurringInterval(kind: string): (r: nat)
    ensures r in {1, 7, 30}
    ensures r == 1 <==> kind == "daily"
    ensures r == 30 <==> kind == "monthly"
  {
    match kind
    case "daily" => 1
    case "weekly" => 7
    case "monthly" => 30
    case _ => 7
  }

  /** The date loop of `createRecurringCitas`: starting one interval after the
      base day, every day reached by whole intervals up to and including `end`. */
  method RecurringDates(base: int, kind: string, end: int) returns (days: seq<int>)
    ensures forall k :: 0 <= k < |days| ==> days[k] == base + (k + 1) * RecurringInterval(kind)
    ensures forall k :: 0 <= k < |days| ==> base < days[k] <= end
    ensures base + (|days| + 1) * RecurringInterval(kind) > end
    ensures forall j, k :: 0 <= j < k < |days| ==> days[j] < days[k]
  {
    var step := RecurringInterval(kind);
    var current := base + step;
    days := [];
    while current <= end
      invariant current == base + (|days| + 1) * step
      invariant forall k :: 0 <= k < |days| ==> days[k] == base + (k + 1) * step
      invariant forall k :: 0 <= k < |days| ==> days[k] <= end
      decreases end - current
    {
      days := days + [current];
      current := current + step;
    }
    forall j, k | 0 <= j < k < |days|
      ensures days[j] < days[k]
    {
      assert (j + 1) * step < (k + 1) * step;
    }
  }

  // ---------------------------------------------------------------------------
  // Stored appointments and conflicts

  datatype Person = Person(nombre: string, apellido: string)

  /** An appointment as the service reads it back (`Cita`). */
  datatype Cita = Cita(
    id: string, title: string, day: int, time: Minute, duration: nat, studentId: string,
    status: string, kind: string, notes: Option<string>, recurring: bool,
    recurringType: Option<string>, recurringEnd: Option<int>, maxCapacity: int, bufferTime: int,
    alumno: Option<Person>)

  datatype ConflictKind = Overlap | Buffer | Capacity
  datatype Severity = Low | Medium | High

  /** `ConflictInfo`. */
  datatype Conflict = Conflict(id: string, title: string, time: string, kind: ConflictKind, severity: Severity)

  /** The rows the availability query returns: the same day, not cancelled,
      and (when an id to exclude is given) not the appointment being moved. */
  function Candidates(existing: seq<Cita>, day: int, exclude: string): (r: seq<Cita>)
    ensures forall c :: c in r <==> c in existing && c.day == day && c.status != "cancelled" && (exclude == "" || c.id != exclude)
  {
    if |existing| == 0 then []
    else
      var rest := Candidates(existing[..|existing| - 1], day, exclude);
      var c := existing[|existing| - 1];
      assert existing == existing[..|existing| - 1] + [c];
      if c.day == day && c.status != "cancelled" && (exclude == "" || c.id != exclude) then rest + [c] else rest
  }

  /** The booking `[start, end)` runs into appointment `c` itself. */
  predicate Clashes(start: Minute, end: Minute, c: Cita) {
    start < After(c.time, c.duration) && c.time < end
  }

  /** The booking runs into `c` widened by `buffer` minutes on each side. */
  predicate ClashesWithBuffer(start: Minute, end: Minute, c: Cita, buffer: int) {
    start < After(After(c.time, c.duration), buffer) && After(c.time, -buffer) < end
  }

  /** The conflicts one existing appointment adds in `checkAvailability`: an
      overlap (high) and then a buffer conflict (medium), each when it applies. */
  function CitaConflicts(c: Cita, start: Minute, end: Minute, buffer: int): (r: seq<Conflict>)
    ensures r == (if Clashes(start, end, c) then [Conflict(c.id, c.title, Clock(c.time), Overlap, High)] else [])
               + (if ClashesWithBuffer(start, end, c, buffer) then [Conflict(c.id, c.title, Clock(c.time), Buffer, Medium)] else [])
  {
    var citaEnd := After(c.time, c.duration);
    var bufferStart := After(c.time, -buffer);
    var bufferEnd := After(citaEnd, buffer);
    ClockOverlap(start, end, c.time, citaEnd);
    ClockOverlap(start, end, bufferStart, bufferEnd);
    var overlap := if TimesOverlap(Clock(start), Clock(end), Clock(c.time), Clock(citaEnd))
                   then [Conflict(c.id, c.title, Clock(c.time), Overlap, High)] else [];
    var inBuffer := if TimesOverlap(Clock(start), Clock(end), Clock(bufferStart), Clock(bufferEnd))
                    then [Conflict(c.id, c.title, Clock(c.time), Buffer, Medium)] else [];
    overlap + inBuffer
  }

  /** `CitaConflicts` for one booking, as a function of the appointment. */
  function ConflictsWith(start: Minute, end: Minute, buffer: int): Cita -> seq<Conflict> {
    c => CitaConflicts(c, start, end, buffer)
  }

  /** All conflicts of a booking, appointment by appointment in list order. */
  function AllConflicts(cs: seq<Cita>, start: Minute, end: Minute, buffer: int): seq<Conflict>
  {
    FlatMap(cs, ConflictsWith(start, end, buffer))
  }

  /** Neither the appointment nor its buffer stands in the booking's way. */
  predicate Free(start: Minute, end: Minute, c: Cita, buffer: int) {
    !Clashes(start, end, c) && !ClashesWithBuffer(start, end, c, buffer)
  }

  /** A booking is free of conflicts iff it clashes with no candidate, with or
      without the buffer. */
  lemma NoConflictsIffNoClash(cs: seq<Cita>, start: Minute, end: Minute, buffer: int)
    ensures |AllConflicts(cs, start, end, buffer)| == 0 <==> forall i :: 0 <= i < |cs| ==> Free(start, end, cs[i], buffer)
  {
    FlatMapEmpty(cs, ConflictsWith(start, end, buffer));
  }

  /** `checkAvailability` over the rows the query would return. */
  method CheckAvailability(existing: seq<Cita>, day: int, start: Minute, duration: int, buffer: int, exclude: string)
    returns (available: bool, conflicts: seq<Conflict>)
    ensures conflicts == AllConflicts(Candidates(existing, day, exclude), start, After(start, duration), buffer)
    ensures available <==> |conflicts| == 0
    ensures available <==> forall c :: c in existing && c.day == day && c.status != "cancelled" && (exclude == "" || c.id != exclude) ==>
      Free(start, After(start, duration), c, buffer)
  {
    var cs := Candidates(existing, day, exclude);
    var end := After(start, duration);
    ghost var f := ConflictsWith(start, end, buffer);
    conflicts := [];
    var i := 0;
    while i < |cs|
      invariant 0 <= i <= |cs|
      invariant conflicts == FlatMap(cs[..i], f)
    {
      FlatMapStep(cs, i, f);
      assert f(cs[i]) == CitaConflicts(cs[i], start, end, buffer);
      conflicts := conflicts + CitaConflicts(cs[i], start, end, buffer);
      i := i + 1;
    }
    assert cs[..|cs|] == cs;
    available := |conflicts| == 0;
    assert available <==> forall c :: c in existing && c.day == day && c.status != "cancelled" && (exclude == "" || c.id != exclude) ==>
      Free(start, end, c, buffer) by {
      NoConflictsIffNoClash(cs, start, end, buffer);
      assert forall i :: 0 <= i < |cs| ==> cs[i] in cs;
    }
  }

  /** When neither the appointment nor its buffer crosses midnight, a booking
      that overlaps the appointment also falls within its buffer. */
  lemma OverlapImpliesBuffer(start: Minute, end: Minute, c: Cita, buffer: nat)
    requires c.time + c.duration + buffer < 1440 && c.time >= buffer
    ensures Clashes(start, end, c) ==> ClashesWithBuffer(start, end, c, buffer)
  {
  }

  // ---------------------------------------------------------------------------
  // Same-day conflicts between stored appointments

  /** Appointment `c2` starts strictly inside appointment `c1`. */
  predicate StartsInside(c1: Cita, c2: Cita) {
    c1.time < c2.time < After(c1.time, c1.duration)
  }

  /** The conflict `getConflicts` reports for a pair: both ids and both
      titles, at the second appointment's time. */
  function PairInfo(c1: Cita, c2: Cita): Conflict {
    Conflict(c1.id + "-" + c2.id, c1.title + " vs " + c2.title, Clock(c2.time), Overlap, High)
  }

  /** The test `getConflicts` applies to a pair: `timesOverlap(time1, end1,
      time2, time2)`. */
  function PairConflict(c1: Cita, c2: Cita): (r: Option<Conflict>)
    ensures r.Some? <==> StartsInside(c1, c2)
    ensures r.Some? ==> r.value == PairInfo(c1, c2)
  {
    var end1 := After(c1.time, c1.duration);
    ClockOverlap(c1.time, end1, c2.time, c2.time);
    if TimesOverlap(Clock(c1.time), Clock(end1), Clock(c2.time), Clock(c2.time))
    then Some(PairInfo(c1, c2))
    else None
  }

  function AsList<T>(o: Option<T>): seq<T> {
    if o.Some? then [o.value] else []
  }

  /** What the pair test gives for `cs[i]` against `cs[k]`, as a list. */
  function Partner<T, U>(cs: seq<T>, f: (T, T) -> Option<U>, i: nat): nat -> seq<U> {
    (k: nat) => if i < |cs| && k < |cs| then AsList(f(cs[i], cs[k])) else []
  }

  /** `f(cs[i], cs[k])` for `i < k < j`, in order, dropping the `None`s. */
  function RowOf<T, U>(cs: seq<T>, f: (T, T) -> Option<U>, i: nat, j: nat): seq<U>
    requires i < j <= |cs|
  {
    FlatMap(Upto(i + 1, j), Partner(cs, f, i))
  }

  /** The row of each index before `|cs|`. */
  function Rows<T, U>(cs: seq<T>, f: (T, T) -> Option<U>): nat -> seq<U> {
    (a: nat) => if a < |cs| then RowOf(cs, f, a, |cs|) else []
  }

  /** `f` over every pair `a < b` with `a` before `i`, row by row. */
  function PairsOf<T, U>(cs: seq<T>, f: (T, T) -> Option<U>, i: nat): seq<U>
    requires i <= |cs|
  {
    FlatMap(Upto(0, i), Rows(cs, f))
  }

  /** The indices up to `hi + 1` are those up to `hi`, then `hi`. */
  lemma UptoStep(lo: nat, hi: nat)
    requires lo <= hi
    ensures Upto(lo, hi + 1)[..hi - lo] == Upto(lo, hi)
    ensures Upto(lo, hi + 1)[..hi - lo + 1] == Upto(lo, hi + 1)
    ensures Upto(lo, hi + 1)[hi - lo] == hi
  {
  }

  lemma RowOfStep<T, U>(cs: seq<T>, f: (T, T) -> Option<U>, i: nat, j: nat)
    requires i < j < |cs|
    ensures RowOf(cs, f, i, j + 1) == RowOf(cs, f, i, j) + AsList(f(cs[i], cs[j]))
  {
    UptoStep(i + 1, j);
    FlatMapStep(Upto(i + 1, j + 1), j - i - 1, Partner(cs, f, i));
  }

  lemma PairsOfStep<T, U>(cs: seq<T>, f: (T, T) -> Option<U>, i: nat)
    requires i < |cs|
    ensures PairsOf(cs, f, i + 1) == PairsOf(cs, f, i) + RowOf(cs, f, i, |cs|)
  {
    UptoStep(0, i);
    FlatMapStep(Upto(0, i + 1), i, Rows(cs, f));
  }

  lemma AsListMember<T>(o: Option<T>, x: T)
    ensures x in AsList(o) <==> o == Some(x)
  {
  }

  /** `f` finds `x` for the pair `a < b`. */
  ghost predicate Hit<T, U>(cs: seq<T>, f: (T, T) -> Option<U>, a: int, b: int, x: U) {
    0 <= a < b < |cs| && f(cs[a], cs[b]) == Some(x)
  }

  /** Every result in a row comes from a hit in it. */
  lemma RowOfHas<T, U>(cs: seq<T>, f: (T, T) -> Option<U>, i: nat, j: nat, x: U) returns (k: nat)
    requires i < j <= |cs| && x in RowOf(cs, f, i, j)
    ensures k < j && Hit(cs, f, i, k, x)
  {
    var t := FlatMapHas(Upto(i + 1, j), Partner(cs, f, i), x);
    k := i + 1 + t;
    AsListMember(f(cs[i], cs[k]), x);
  }

  /** Every hit in a row shows up in it. */
  lemma RowOfFrom<T, U>(cs: seq<T>, f: (T, T) -> Option<U>, i: nat, j: nat, k: nat, x: U)
    requires i < j <= |cs| && k < j && Hit(cs, f, i, k, x)
    ensures x in RowOf(cs, f, i, j)
  {
    AsListMember(f(cs[i], cs[k]), x);
    assert Upto(i + 1, j)[k - i - 1] == k;
    FlatMapFrom(Upto(i + 1, j), Partner(cs, f, i), k - i - 1, x);
  }

  /** The results of a row are exactly the hits of its first index. */
  lemma RowOfMembers<T, U>(cs: seq<T>, f: (T, T) -> Option<U>, i: nat, j: nat, x: U)
    requires i < j <= |cs|
    ensures x in RowOf(cs, f, i, j) <==> exists k :: k < j && Hit(cs, f, i, k, x)
  {
    if x in RowOf(cs, f, i, j) {
      var k := RowOfHas(cs, f, i, j, x);
    }
    if exists k :: k < j && Hit(cs, f, i, k, x) {
      var k :| k < j && Hit(cs, f, i, k, x);
      RowOfFrom(cs, f, i, j, k, x);
    }
  }

  /** The results of the rows before `i` are exactly the hits of those rows. */
  lemma PairsOfMembers<T, U>(cs: seq<T>, f: (T, T) -> Option<U>, i: nat, x: U)
    requires i <= |cs|
    ensures x in PairsOf(cs, f, i) <==> exists a, b :: a < i && Hit(cs, f, a, b, x)
  {
    if x in PairsOf(cs, f, i) {
      var a := FlatMapHas(Upto(0, i), Rows(cs, f), x);
      var b := RowOfHas(cs, f, a, |cs|, x);
    }
    if exists a, b :: a < i && Hit(cs, f, a, b, x) {
      var a, b :| a < i && Hit(cs, f, a, b, x);
      RowOfFrom(cs, f, a, |cs|, b, x);
      assert Upto(0, i)[a] == a;
      FlatMapFrom(Upto(0, i), Rows(cs, f), a, x);
    }
  }

  /** When `f` keeps `g` of the pairs that satisfy `p`, the pairs' results are
      exactly `g` of the pairs `a < b` that satisfy `p`. */
  lemma PairsOfKeep<T, U>(cs: seq<T>, f: (T, T) -> Option<U>, p: (T, T) -> bool, g: (T, T) -> U, x: U)
    requires forall a, b :: f(a, b).Some? <==> p(a, b)
    requires forall a, b :: f(a, b).Some? ==> f(a, b).value == g(a, b)
    ensures x in PairsOf(cs, f, |cs|) <==>
      exists a, b :: 0 <= a < b < |cs| && p(cs[a], cs[b]) && x == g(cs[a], cs[b])
  {
    PairsOfMembers(cs, f, |cs|, x);
    if x in PairsOf(cs, f, |cs|) {
      var a, b :| a < |cs| && Hit(cs, f, a, b, x);
      assert 0 <= a < b < |cs| && p(cs[a], cs[b]) && x == g(cs[a], cs[b]);
    }
    if exists a, b :: 0 <= a < b < |cs| && p(cs[a], cs[b]) && x == g(cs[a], cs[b]) {
      var a, b :| 0 <= a < b < |cs| && p(cs[a], cs[b]) && x == g(cs[a], cs[b]);
      assert a < |cs| && Hit(cs, f, a, b, x);
    }
  }

  /** A pair of the day's appointments conflicts iff the second starts
      strictly inside the first. */
  lemma PairsOfConflicts(cs: seq<Cita>, x: Conflict)
    ensures x in PairsOf(cs, PairConflict, |cs|) <==>
      exists a, b :: 0 <= a < b < |cs| && StartsInside(cs[a], cs[b]) && x == PairInfo(cs[a], cs[b])
  {
    PairsOfKeep(cs, PairConflict, StartsInside, PairInfo, x);
  }

  /** The inner loop of `getConflicts`: the pair test `f` (`PairConflict`
      in the source) of `cs[i]` with every later appointment, keeping the hits. */
  method RowConflicts<T, U>(cs: seq<T>, f: (T, T) -> Option<U>, i: nat) returns (row: seq<U>)
    requires i < |cs|
    ensures row == RowOf(cs, f, i, |cs|)
  {
    row := [];
    var j := i + 1;
    while j < |cs|
      invariant i + 1 <= j <= |cs|
      invariant row == RowOf(cs, f, i, j)
    {
      var c := f(cs[i], cs[j]);
      RowOfStep(cs, f, i, j);
      if c.Some? {
        row := row + [c.value];
      }
      j := j + 1;
    }
  }

  /** The outer loop of `getConflicts`: every pair, row by row. */
  method AllPairConflicts(cs: seq<Cita>) returns (conflicts: seq<Conflict>)
    ensures conflicts == PairsOf(cs, PairConflict, |cs|)
  {
    conflicts := [];
    var i := 0;
    while i < |cs|
      invariant 0 <= i <= |cs|
      invariant conflicts == PairsOf(cs, PairConflict, i)
    {
      var row := RowConflicts(cs, PairConflict, i);
      PairsOfStep(cs, PairConflict, i);
      conflicts := conflicts + row;
      i := i + 1;
    }
  }

  /** No appointment starts before an earlier one in the list. */
  predicate TimeOrdered(cs: seq<Cita>) {
    forall i, j :: 0 <= i < j < |cs| ==> cs[i].time <= cs[j].time
  }

  /** Dropping the first appointment keeps the order. */
  lemma TailTimeOrdered(t: seq<Cita>)
    requires TimeOrdered(t) && |t| > 0
    ensures TimeOrdered(t[1..])
  {
    forall i, j | 0 <= i < j < |t[1..]| ensures t[1..][i].time <= t[1..][j].time {
      assert t[1..][i] == t[i + 1] && t[1..][j] == t[j + 1];
    }
  }

  /** An appointment no later than every one of an ordered list may lead it. */
  lemma ConsTimeOrdered(x: Cita, r: seq<Cita>)
    requires TimeOrdered(r)
    requires forall y :: y in r ==> x.time <= y.time
    ensures TimeOrdered([x] + r)
  {
    forall i, j | 0 <= i < j < |[x] + r| ensures ([x] + r)[i].time <= ([x] + r)[j].time {
      assert ([x] + r)[j] == r[j - 1];
      if i > 0 { assert ([x] + r)[i] == r[i - 1]; }
    }
  }

  /** Places `c` before the first appointment that does not start earlier. */
  function InsertByTime(c: Cita, t: seq<Cita>): (r: seq<Cita>)
    requires TimeOrdered(t)
    ensures TimeOrdered(r)
    ensures multiset(r) == multiset(t) + multiset{c}
    ensures forall x :: x in r ==> x == c || x in t
    decreases |t|
  {
    if |t| == 0 then [c]
    else if c.time <= t[0].time then
      ConsTimeOrdered(c, t);
      [c] + t
    else
      var rest := t[1..];
      TailTimeOrdered(t);
      var r' := InsertByTime(c, rest);
      assert forall y :: y in rest ==> t[0].time <= y.time by {
        forall y | y in rest ensures t[0].time <= y.time {
          var k :| 0 <= k < |rest| && rest[k] == y;
          assert rest[k] == t[k + 1];
        }
      }
      ConsTimeOrdered(t[0], r');
      assert t == [t[0]] + rest;
      [t[0]] + r'
  }

  /** The rows ordered by time of day, as `.order('time')` returns them. The
      database leaves the order of rows at the same time unspecified; keeping
      their stored order is this model's choice, and only the exact sequence
      `GetConflicts` returns depends on it. */
  function ByTime(cs: seq<Cita>): (r: seq<Cita>)
    ensures TimeOrdered(r)
    ensures multiset(r) == multiset(cs)
    decreases |cs|
  {
    if |cs| == 0 then []
    else
      assert cs == [cs[0]] + cs[1..];
      InsertByTime(cs[0], ByTime(cs[1..]))
  }

  /** `getConflicts`: the pair loop over the day's non-cancelled rows in time
      order. A conflict is reported exactly for two such appointments where
      the second starts strictly inside the first; the time order makes the
      earlier one come first, so no such pair is missed. */
  method GetConflicts(existing: seq<Cita>, day: int) returns (conflicts: seq<Conflict>)
    ensures var cs := ByTime(Candidates(existing, day, ""));
            conflicts == PairsOf(cs, PairConflict, |cs|)
    ensures var day_ := Candidates(existing, day, "");
            forall x :: x in conflicts <==>
              exists c1, c2 :: c1 in day_ && c2 in day_ && StartsInside(c1, c2) && x == PairInfo(c1, c2)
  {
    var day_ := Candidates(existing, day, "");
    var cs := ByTime(day_);
    conflicts := AllPairConflicts(cs);
    forall x
      ensures x in conflicts <==>
              exists c1, c2 :: c1 in day_ && c2 in day_ && StartsInside(c1, c2) && x == PairInfo(c1, c2)
    {
      PairsOfConflicts(cs, x);
      if x in conflicts {
        OrderedPairIsPair(cs, day_, x);
      } else if exists c1, c2 :: c1 in day_ && c2 in day_ && StartsInside(c1, c2) && x == PairInfo(c1, c2) {
        PairIsOrderedPair(cs, day_, x);
      }
    }
  }

  /** A conflict found among the ordered rows is one between two of the day's appointments. */
  lemma OrderedPairIsPair(cs: seq<Cita>, day_: seq<Cita>, x: Conflict)
    requires multiset(cs) == multiset(day_)
    requires exists a, b :: 0 <= a < b < |cs| && StartsInside(cs[a], cs[b]) && x == PairInfo(cs[a], cs[b])
    ensures exists c1, c2 :: c1 in day_ && c2 in day_ && StartsInside(c1, c2) && x == PairInfo(c1, c2)
  {
    var a, b :| 0 <= a < b < |cs| && StartsInside(cs[a], cs[b]) && x == PairInfo(cs[a], cs[b]);
    assert cs[a] in multiset(day_) && cs[b] in multiset(day_);
  }

  /** In time order, an appointment that starts inside another comes after it. */
  lemma PairIsOrderedPair(cs: seq<Cita>, day_: seq<Cita>, x: Conflict)
    requires multiset(cs) == multiset(day_) && TimeOrdered(cs)
    requires exists c1, c2 :: c1 in day_ && c2 in day_ && StartsInside(c1, c2) && x == PairInfo(c1, c2)
    ensures exists a, b :: 0 <= a < b < |cs| && StartsInside(cs[a], cs[b]) && x == PairInfo(cs[a], cs[b])
  {
    var c1, c2 :| c1 in day_ && c2 in day_ && StartsInside(c1, c2) && x == PairInfo(c1, c2);
    assert c1 in multiset(cs) && c2 in multiset(cs);
    var a :| 0 <= a < |cs| && cs[a] == c1;
    var b :| 0 <= b < |cs| && cs[b] == c2;
    assert a < b;
  }

  // ---------------------------------------------------------------------------
  // Inserts

  /** A value sent to the database. */
  datatype Field = Text(s: string) | Number(n: int) | Flag(b: bool) | Date(day: int)

  /** The object passed to `insert`, once the keys whose value is `undefined`
      or `null` have been deleted. */
  type Row = map<string, Field>

  /** `Partial<Cita>` without the generated fields: any of them may be missing. */
  datatype Draft = Draft(
    title: Option<string>, date: Option<int>, time: Option<Minute>, duration: Option<int>,
    studentId: Option<string>, status: Option<string>, kind: Option<string>, notes: Option<string>,
    recurring: Option<bool>, recurringType: Option<string>, recurringEnd: Option<int>,
    maxCapacity: Option<int>, bufferTime: Option<int>)

  /** `x || d` on a number: `0` and a missing value both give `d`. */
  function OrNumber(x: Option<int>, d: int): Option<int> {
    if x.Some? && x.value != 0 then x else Some(d)
  }

  /** `x || d` on a string: `''` and a missing value both give `d`. */
  function OrText(x: Option<string>, d: string): Option<string> {
    if x.Some? && x.value != "" then x else Some(d)
  }

  /** The defaults `create` fills in with `||`. */
  function WithDefaults(d: Draft): (r: Draft)
    ensures r.duration.Some? && r.duration.value != 0
    ensures r.status.Some? && r.status.value != "" && r.kind.Some? && r.kind.value != ""
    ensures r.recurring.Some? && r.maxCapacity.Some? && r.maxCapacity.value != 0
    ensures r.bufferTime.Some? && r.bufferTime.value != 0
    ensures d.duration.Some? && d.duration.value != 0 ==> r.duration == d.duration
    ensures d.duration.None? || d.duration == Some(0) ==> r.duration == Some(60)
    ensures d.bufferTime.None? || d.bufferTime == Some(0) ==> r.bufferTime == Some(15)
    ensures d.maxCapacity.None? || d.maxCapacity == Some(0) ==> r.maxCapacity == Some(1)
    ensures d.status.None? || d.status == Some("") ==> r.status == Some("scheduled")
    ensures d.kind.None? || d.kind == Some("") ==> r.kind == Some("individual")
    ensures r.recurring == Some(d.recurring == Some(true))
    ensures r.title == d.title && r.date == d.date && r.time == d.time && r.studentId == d.studentId
    ensures r.notes == d.notes && r.recurringType == d.recurringType && r.recurringEnd == d.recurringEnd
  {
    d.(duration := OrNumber(d.duration, 60),
       status := OrText(d.status, "scheduled"),
       kind := OrText(d.kind, "individual"),
       recurring := Some(d.recurring == Some(true)),
       maxCapacity := OrNumber(d.maxCapacity, 1),
       bufferTime := OrNumber(d.bufferTime, 15))
  }

  /** Filling in the defaults twice changes nothing more. */
  lemma WithDefaultsIdempotent(d: Draft)
    ensures WithDefaults(WithDefaults(d)) == WithDefaults(d)
  {
  }

  /** The columns an insert can carry. */
  const Columns: set<string> := {"title", "date", "time", "duration", "student_id", "status", "type", "notes",
                                 "recurring", "recurringtype", "recurringend", "maxcapacity", "buffertime"}

  function MapOpt<T>(v: Option<T>, f: T -> Field): Option<Field> {
    if v.Some? then Some(f(v.value)) else None
  }

  /** The value of column `k` in a draft, if the draft has one. */
  function Column(d: Draft, k: string): Option<Field> {
    match k
    case "title" => MapOpt(d.title, x => Text(x))
    case "date" => MapOpt(d.date, x => Date(x))
    case "time" => MapOpt(d.time, (x: Minute) => Text(Clock(x)))
    case "duration" => MapOpt(d.duration, x => Number(x))
    case "student_id" => MapOpt(d.studentId, x => Text(x))
    case "status" => MapOpt(d.status, x => Text(x))
    case "type" => MapOpt(d.kind, x => Text(x))
    case "notes" => MapOpt(d.notes, x => Text(x))
    case "recurring" => MapOpt(d.recurring, x => Flag(x))
    case "recurringtype" => MapOpt(d.recurringType, x => Text(x))
    case "recurringend" => MapOpt(d.recurringEnd, x => Date(x))
    case "maxcapacity" => MapOpt(d.maxCapacity, x => Number(x))
    case "buffertime" => MapOpt(d.bufferTime, x => Number(x))
    case _ => None
  }

  /** The insert object of a draft: exactly the columns that have a value. */
  function ToRow(d: Draft): (r: Row)
    ensures forall k :: k in r <==> k in Columns && Column(d, k).Some?
    ensures forall k :: k in r ==> r[k] == Column(d, k).value
    ensures "id" !in r && "created_at" !in r && "updated_at" !in r
  {
    map k | k in Columns && Column(d, k).Some? :: Column(d, k).value
  }

  /** `HH:MM` read back as a time of day. */
  function ParseClock(s: string): Option<Minute> {
    if |s| == 5 && IsDigit(s[0]) && IsDigit(s[1]) && s[2] == ':' && IsDigit(s[3]) && IsDigit(s[4]) then
      var h := DigitValue(s[0]) * 10 + DigitValue(s[1]);
      var m := DigitValue(s[3]) * 10 + DigitValue(s[4]);
      if h < 24 && m < 60 then Some(h * 60 + m) else None
    else None
  }

  /** Reading a clock string gives back its minute. */
  lemma ParseClockRoundTrip(m: Minute)
    ensures ParseClock(Clock(m)) == Some(m)
  {
    var s := Clock(m);
    DigitRoundTrip(m / 60 / 10);
    DigitRoundTrip(m / 60 % 10);
    DigitRoundTrip(m % 60 / 10);
    DigitRoundTrip(m % 60 % 10);
    assert s[0] == DigitChar(m / 60 / 10) && s[1] == DigitChar(m / 60 % 10);
    assert s[3] == DigitChar(m % 60 / 10) && s[4] == DigitChar(m % 60 % 10);
  }

  function TextOf(row: Row, k: string): Option<string> {
    if k in row && row[k].Text? then Some(row[k].s) else None
  }

  function NumberOf(row: Row, k: string): Option<int> {
    if k in row && row[k].Number? then Some(row[k].n) else None
  }

  function DateOf(row: Row, k: string): Option<int> {
    if k in row && row[k].Date? then Some(row[k].day) else None
  }

  /** Reads a draft back from an insert object. */
  function FromRow(row: Row): Draft {
    Draft(
      TextOf(row, "title"), DateOf(row, "date"),
      if "time" in row && row["time"].Text? then ParseClock(row["time"].s) else None,
      NumberOf(row, "duration"), TextOf(row, "student_id"), TextOf(row, "status"), TextOf(row, "type"),
      TextOf(row, "notes"),
      if "recurring" in row && row["recurring"].Flag? then Some(row["recurring"].b) else None,
      TextOf(row, "recurringtype"), DateOf(row, "recurringend"),
      NumberOf(row, "maxcapacity"), NumberOf(row, "buffertime"))
  }

  lemma RowRoundTripWhen(d: Draft)
    ensures var back := FromRow(ToRow(d));
            back.title == d.title && back.date == d.date && back.time == d.time
  {
    assert "title" in Columns && "date" in Columns && "time" in Columns;
    if d.time.Some? {
      ParseClockRoundTrip(d.time.value);
    }
  }

  lemma RowRoundTripWho(d: Draft)
    ensures var back := FromRow(ToRow(d));
            back.duration == d.duration && back.studentId == d.studentId
  {
    assert "duration" in Columns && "student_id" in Columns;
  }

  lemma RowRoundTripKind(d: Draft)
    ensures var back := FromRow(ToRow(d));
            back.status == d.status && back.kind == d.kind
  {
    assert "status" in Columns && "type" in Columns;
  }

  lemma RowRoundTripNotes(d: Draft)
    ensures var back := FromRow(ToRow(d));
            back.notes == d.notes && back.recurring == d.recurring
  {
    assert "notes" in Columns && "recurring" in Columns;
  }

  lemma RowRoundTripRepeat(d: Draft)
    ensures var back := FromRow(ToRow(d));
            back.recurringType == d.recurringType && back.recurringEnd == d.recurringEnd
  {
    assert "recurringtype" in Columns && "recurringend" in Columns;
  }

  lemma RowRoundTripLimits(d: Draft)
    ensures var back := FromRow(ToRow(d));
            back.maxCapacity == d.maxCapacity && back.bufferTime == d.bufferTime
  {
    assert "maxcapacity" in Columns && "buffertime" in Columns;
  }

  /** Dropping the missing fields loses nothing: the draft can be read back
      from its insert object. */
  lemma RowRoundTrip(d: Draft)
    ensures FromRow(ToRow(d)) == d
  {
    RowRoundTripWhen(d);
    RowRoundTripWho(d);
    RowRoundTripKind(d);
    RowRoundTripNotes(d);
    RowRoundTripRepeat(d);
    RowRoundTripLimits(d);
  }

  /** The insert object `create` sends. */
  function InsertRow(d: Draft): (r: Row)
    ensures forall k :: k in {"duration", "status", "type", "recurring", "maxcapacity", "buffertime"} ==> k in r
    ensures FromRow(r) == WithDefaults(d)
  {
    RowRoundTrip(WithDefaults(d));
    ToRow(WithDefaults(d))
  }

  datatype Created = Rejected(message: string) | Inserted(row: Row)

  /** `create`: when both a date and a time are given, the slot is checked
      first (with the duration and buffer defaults), and a taken slot stops
      the insert. */
  method CreateCita(existing: seq<Cita>, d: Draft) returns (r: Created)
    ensures r.Rejected? ==> r.message == "El horario seleccionado no está disponible"
    ensures r.Inserted? ==> r.row == InsertRow(d)
    ensures r.Rejected? <==> (d.date.Some? && d.time.Some? &&
      exists c :: c in existing && c.day == d.date.value && c.status != "cancelled"
        && !Free(d.time.value, After(d.time.value, OrNumber(d.duration, 60).value), c, OrNumber(d.bufferTime, 15).value))
  {
    if d.date.Some? && d.time.Some? {
      var available, _ := CheckAvailability(existing, d.date.value, d.time.value,
                                            OrNumber(d.duration, 60).value, OrNumber(d.bufferTime, 15).value, "");
      if !available {
        return Rejected("El horario seleccionado no está disponible");
      }
    }
    r := Inserted(InsertRow(d));
  }

  /** `Partial<Cita>` of a stored appointment, as `{...baseCita}` spreads it. */
  function AsDraft(c: Cita): Draft {
    Draft(Some(c.title), Some(c.day), Some(c.time), Some(c.duration), Some(c.studentId), Some(c.status),
          Some(c.kind), c.notes, Some(c.recurring), c.recurringType, c.recurringEnd,
          Some(c.maxCapacity), Some(c.bufferTime))
  }

  /** `{...baseCita, id: undefined, date, created_at: undefined, updated_at: undefined}`:
      the copy of `base` on another day, without id or timestamps (its insert
      object is `ToRow` of it). */
  function CopyOn(base: Cita, day: int): Draft {
    AsDraft(base).(date := Some(day))
  }

  /** A copy differs from its base appointment in the date alone: putting
      the base's date back gives the base. */
  lemma CopyOnOnlyMovesDate(base: Cita, day: int)
    ensures CopyOn(base, day).date == Some(day)
    ensures CopyOn(base, day).(date := Some(base.day)) == AsDraft(base)
  {
  }

  /** `createRecurringCitas`: one copy of the base appointment per later
      occurrence up to `end`; no insert at all when there is no such
      occurrence. */
  method CreateRecurringCitas(base: Cita, end: int) returns (batch: Option<seq<Draft>>)
    ensures var step := RecurringInterval(if base.recurringType.Some? then base.recurringType.value else "");
            batch.None? <==> base.day + step > end
    ensures var step := RecurringInterval(if base.recurringType.Some? then base.recurringType.value else "");
            batch.Some? ==>
              && base.day + |batch.value| * step <= end < base.day + (|batch.value| + 1) * step
              && forall k :: 0 <= k < |batch.value| ==> batch.value[k] == CopyOn(base, base.day + (k + 1) * step)
  {
    var kind := if base.recurringType.Some? then base.recurringType.value else "";
    var days := RecurringDates(base.day, kind, end);
    if |days| == 0 {
      return None;
    }
    assert days[|days| - 1] == base.day + |days| * RecurringInterval(kind);
    batch := Some(seq(|days|, k requires 0 <= k < |days| => CopyOn(base, days[k])));
  }
}

=== FILE: citas_export.dfy ===
/** The two export formats of the appointment service (`exportToCSV`,
    `exportToICal`, `formatICalDate` in `src/services/citas.ts`). What the
    JavaScript `Date` object contributes (the locale date text of the CSV and
    the UTC instants of the calendar) is passed in. */
module CitasExport {
  import opened Common
  import opened Citas

  // ---------------------------------------------------------------------------
  // CSV

  const CsvHeaders: seq<string> :=
    ["ID", "Título", "Fecha", "Hora", "Duración", "Alumno", "Estado", "Tipo", "Notas", "Recurrente"]

  /** The ten cells of one appointment; `dateText` is the locale text of a day. */
  function CsvCells(c: Cita, dateText: int -> string): (r: seq<string>)
    ensures |r| == |CsvHeaders|
    ensures r[0] == c.id && r[1] == c.title && r[2] == dateText(c.day) && r[3] == Clock(c.time)
    ensures r[5] == (if c.alumno.Some? then c.alumno.value.nombre + " " + c.alumno.value.apellido else "")
    ensures r[8] == (if c.notes.Some? then c.notes.value else "")
    ensures r[9] == (if c.recurring then "Sí" else "No")
  {
    [c.id, c.title, dateText(c.day), Clock(c.time), IntToString(c.duration) + " min",
     if c.alumno.Some? then c.alumno.value.nombre + " " + c.alumno.value.apellido else "",
     c.status, c.kind, if c.notes.Some? then c.notes.value else "", if c.recurring then "Sí" else "No"]
  }

  /** `"${cell}"`: the cell between double quotes, nothing escaped. */
  function Quote(cell: string): (r: string)
    ensures |r| == |cell| + 2 && r[0] == '"' && r[|r| - 1] == '"' && r[1..|r| - 1] == cell
  {
    "\"" + cell + "\""
  }

  function QuoteAll(cells: seq<string>): (r: seq<string>)
    ensures |r| == |cells| && forall i :: 0 <= i < |cells| ==> r[i] == Quote(cells[i])
  {
    seq(|cells|, i requires 0 <= i < |cells| => Quote(cells[i]))
  }

  function CsvLine(cells: seq<string>): string {
    Join(",", QuoteAll(cells))
  }

  function CsvRows(citas: seq<Cita>, dateText: int -> string): (r: seq<string>)
    ensures |r| == |citas|
    ensures forall i :: 0 <= i < |citas| ==> r[i] == CsvLine(CsvCells(citas[i], dateText))
  {
    seq(|citas|, i requires 0 <= i < |citas| => CsvLine(CsvCells(citas[i], dateText)))
  }

  /** `exportToCSV`. */
  function ExportToCsv(citas: seq<Cita>, dateText: int -> string): string {
    Join("\n", [CsvLine(CsvHeaders)] + CsvRows(citas, dateText))
  }

  lemma {:induction false} CsvLineAvoids(cells: seq<string>, c: char)
    requires c != ',' && c != '"'
    requires forall j :: 0 <= j < |cells| ==> c !in cells[j]
    ensures c !in CsvLine(cells)
  {
    var q := QuoteAll(cells);
    forall j | 0 <= j < |q|
      ensures c !in q[j]
    {
      assert q[j] == "\"" + cells[j] + "\"";
    }
    JoinNotIn(",", q, c);
  }

  /** No cell of the appointment's row holds the character `c`. */
  predicate RowAvoids(cita: Cita, dateText: int -> string, c: char) {
    forall j :: 0 <= j < |CsvHeaders| ==> c !in CsvCells(cita, dateText)[j]
  }

  lemma HeaderAvoids()
    ensures '\n' !in CsvLine(CsvHeaders)
  {
    CsvLineAvoids(CsvHeaders, '\n');
  }

  lemma {:induction false} RowsAvoid(citas: seq<Cita>, dateText: int -> string)
    requires forall i :: 0 <= i < |citas| ==> RowAvoids(citas[i], dateText, '\n')
    ensures forall i :: 0 <= i < |citas| ==> '\n' !in CsvRows(citas, dateText)[i]
  {
    forall i | 0 <= i < |citas|
      ensures '\n' !in CsvRows(citas, dateText)[i]
    {
      CsvLineAvoids(CsvCells(citas[i], dateText), '\n');
    }
  }

  /** The text splits into the header line and one line per appointment,
      unless a cell holds a line break. */
  lemma CsvLines(citas: seq<Cita>, dateText: int -> string)
    requires forall i :: 0 <= i < |citas| ==> RowAvoids(citas[i], dateText, '\n')
    ensures Split(ExportToCsv(citas, dateText), '\n') == [CsvLine(CsvHeaders)] + CsvRows(citas, dateText)
    ensures |Split(ExportToCsv(citas, dateText), '\n')| == 1 + |citas|
  {
    var rows := CsvRows(citas, dateText);
    HeaderAvoids();
    RowsAvoid(citas, dateText);
    AvoidCons(CsvLine(CsvHeaders), rows, '\n');
    SplitJoin([CsvLine(CsvHeaders)] + rows, '\n');
  }

  lemma AvoidCons(x: string, rest: seq<string>, c: char)
    requires c !in x && forall i :: 0 <= i < |rest| ==> c !in rest[i]
    ensures forall i :: 0 <= i < |[x] + rest| ==> c !in ([x] + rest)[i]
  {
  }

  /** Removes the quotes `Quote` added. */
  function Unquote(s: string): string {
    if |s| >= 2 then s[1..|s| - 1] else s
  }

  /** A line splits at its commas into the quoted cells, and removing the
      quotes gives the cells back, unless a cell holds a comma. */
  lemma CsvLineCells(cells: seq<string>)
    requires |cells| >= 1
    requires forall j :: 0 <= j < |cells| ==> ',' !in cells[j]
    ensures Split(CsvLine(cells), ',') == QuoteAll(cells)
    ensures forall j :: 0 <= j < |cells| ==> Unquote(Split(CsvLine(cells), ',')[j]) == cells[j]
  {
    var q := QuoteAll(cells);
    forall j | 0 <= j < |q|
      ensures ',' !in q[j]
    {
      assert q[j] == "\"" + cells[j] + "\"";
    }
    SplitJoin(q, ',');
  }

  // ---------------------------------------------------------------------------
  // iCalendar

  /** A UTC instant, field by field, as `toISOString` prints it. */
  datatype Instant = Instant(year: nat, month: nat, day: nat, hour: nat, minute: nat, second: nat, millis: nat)

  predicate ValidInstant(t: Instant) {
    t.year <= 9999 && 1 <= t.month <= 12 && 1 <= t.day <= 31 && t.hour < 24 && t.minute < 60
    && t.second < 60 && t.millis < 1000
  }

  /** `toISOString()`: `YYYY-MM-DDTHH:MM:SS.sssZ`. */
  function IsoString(t: Instant): string
    requires ValidInstant(t)
  {
    PadNat(t.year, 4) + ("-" + (Two(t.month) + ("-" + (Two(t.day) + ("T" + (Two(t.hour) + (":" + (Two(t.minute)
    + (":" + (Two(t.second) + ("." + (PadNat(t.millis, 3) + "Z"))))))))))))
  }

  /** The UTC form of a DATE-TIME value in section 3.3.5 of RFC 5545:
      `YYYYMMDDTHHMMSSZ`. */
  function UtcDateTime(t: Instant): string
    requires ValidInstant(t)
  {
    PadNat(t.year, 4) + (Two(t.month) + (Two(t.day) + ("T" + (Two(t.hour) + (Two(t.minute) + Two(t.second)))))) + "Z"
  }

  /** Removes every dash and colon. */
  function DropDashColon(s: string): (r: string)
    ensures '-' !in r && ':' !in r
    ensures forall c :: c in r ==> c in s
    decreases |s|
  {
    if |s| == 0 then ""
    else (if s[0] == '-' || s[0] == ':' then "" else [s[0]]) + DropDashColon(s[1..])
  }

  lemma {:induction false} DropDashColonAppend(a: string, b: string)
    ensures DropDashColon(a + b) == DropDashColon(a) + DropDashColon(b)
    decreases |a|
  {
    if |a| > 0 {
      var h := if a[0] == '-' || a[0] == ':' then "" else [a[0]];
      assert (a + b)[0] == a[0] && (a + b)[1..] == a[1..] + b;
      assert DropDashColon(a + b) == h + DropDashColon(a[1..] + b);
      DropDashColonAppend(a[1..], b);
      ConcatAssoc(h, DropDashColon(a[1..]), DropDashColon(b));
    } else {
      assert a + b == b;
    }
  }

  lemma {:induction false} DropDashColonKeeps(s: string)
    requires '-' !in s && ':' !in s
    ensures DropDashColon(s) == s
    decreases |s|
  {
    if |s| > 0 {
      DropDashColonKeeps(s[1..]);
      assert s == [s[0]] + s[1..];
    }
  }

  /** The text before the first `sep`. */
  function FirstPiece(s: string, sep: char): (r: string)
    ensures sep !in r
    ensures forall c :: c in r ==> c in s
    decreases |s|
  {
    if |s| == 0 || s[0] == sep then "" else [s[0]] + FirstPiece(s[1..], sep)
  }

  /** The first piece of a split is the text before the first `sep`. */
  lemma {:induction false} SplitFirst(s: string, sep: char)
    ensures Split(s, sep)[0] == FirstPiece(s, sep)
    decreases |s|
  {
    if |s| > 0 && s[0] != sep {
      SplitFirst(s[1..], sep);
    }
  }

  lemma {:induction false} FirstPieceAppend(p: string, t: string, sep: char)
    requires sep !in p
    ensures FirstPiece(p + t, sep) == p + FirstPiece(t, sep)
    decreases |p|
  {
    if |p| > 0 {
      assert (p + t)[0] == p[0] && (p + t)[1..] == p[1..] + t;
      FirstPieceAppend(p[1..], t, sep);
      ConcatAssoc([p[0]], p[1..], FirstPiece(t, sep));
      assert [p[0]] + p[1..] == p;
    } else {
      assert p + t == t;
    }
  }

  /** `formatICalDate`: drops every `-` and `:`, keeps what comes before the
      first `.`, and appends `Z`. */
  function FormatICalDate(iso: string): (r: string)
    ensures |r| >= 1 && r[|r| - 1] == 'Z'
    ensures forall i :: 0 <= i < |r| - 1 ==> r[i] != '-' && r[i] != ':' && r[i] != '.'
  {
    var dropped := DropDashColon(iso);
    SplitFirst(dropped, '.');
    var first := Split(dropped, '.')[0];
    var r := first + "Z";
    assert forall i :: 0 <= i < |r| - 1 ==> r[i] == first[i] && r[i] in first;
    r
  }

  lemma DigitsAvoid(s: string, c: char)
    requires AllDigits(s) && !IsDigit(c)
    ensures c !in s
  {
  }

  lemma DropKeep(p: string, rest: string)
    requires '-' !in p && ':' !in p
    ensures DropDashColon(p + rest) == p + DropDashColon(rest)
  {
    DropDashColonAppend(p, rest);
    DropDashColonKeeps(p);
  }

  lemma DropSkip(p: string, rest: string)
    requires p == "-" || p == ":"
    ensures DropDashColon(p + rest) == DropDashColon(rest)
  {
    DropDashColonAppend(p, rest);
  }

  /** Every `-` and `:` of an ISO timestamp goes, and nothing else does. */
  lemma DropIso(t: Instant)
    requires ValidInstant(t)
    ensures DropDashColon(IsoString(t)) ==
      PadNat(t.year, 4) + (Two(t.month) + (Two(t.day) + ("T" + (Two(t.hour) + (Two(t.minute)
      + (Two(t.second) + ("." + (PadNat(t.millis, 3) + "Z"))))))))
  {
    var y, mo, d := PadNat(t.year, 4), Two(t.month), Two(t.day);
    var h, mi, se, ms := Two(t.hour), Two(t.minute), Two(t.second), PadNat(t.millis, 3);
    DigitsAvoid(y, '-'); DigitsAvoid(y, ':');
    DigitsAvoid(mo, '-'); DigitsAvoid(mo, ':');
    DigitsAvoid(d, '-'); DigitsAvoid(d, ':');
    DigitsAvoid(h, '-'); DigitsAvoid(h, ':');
    DigitsAvoid(mi, '-'); DigitsAvoid(mi, ':');
    DigitsAvoid(se, '-'); DigitsAvoid(se, ':');
    DigitsAvoid(ms, '-'); DigitsAvoid(ms, ':');
    var tail := "." + (ms + "Z");
    DropDashColonKeeps(tail);
    DropKeep(se, tail);
    DropSkip(":", se + tail);
    DropKeep(mi, ":" + (se + tail));
    DropSkip(":", mi + (":" + (se + tail)));
    DropKeep(h, ":" + (mi + (":" + (se + tail))));
    var r6 := h + (":" + (mi + (":" + (se + tail))));
    DropKeep("T", r6);
    DropKeep(d, "T" + r6);
    DropSkip("-", d + ("T" + r6));
    DropKeep(mo, "-" + (d + ("T" + r6)));
    DropSkip("-", mo + ("-" + (d + ("T" + r6))));
    DropKeep(y, "-" + (mo + ("-" + (d + ("T" + r6)))));
  }

  /** For every instant `toISOString` can print, the calendar date is the UTC
      DATE-TIME of section 3.3.5 of RFC 5545. */
  lemma ICalDateIsUtcDateTime(t: Instant)
    requires ValidInstant(t)
    ensures FormatICalDate(IsoString(t)) == UtcDateTime(t)
  {
    var y, mo, d := PadNat(t.year, 4), Two(t.month), Two(t.day);
    var h, mi, se, ms := Two(t.hour), Two(t.minute), Two(t.second), PadNat(t.millis, 3);
    DigitsAvoid(y, '.'); DigitsAvoid(mo, '.'); DigitsAvoid(d, '.');
    DigitsAvoid(h, '.'); DigitsAvoid(mi, '.'); DigitsAvoid(se, '.');
    DropIso(t);
    var tail := "." + (ms + "Z");
    var dropped := y + (mo + (d + ("T" + (h + (mi + (se + tail))))));
    SplitFirst(dropped, '.');
    FirstPieceAppend(se, tail, '.');
    FirstPieceAppend(mi, se + tail, '.');
    FirstPieceAppend(h, mi + (se + tail), '.');
    FirstPieceAppend("T", h + (mi + (se + tail)), '.');
    FirstPieceAppend(d, "T" + (h + (mi + (se + tail))), '.');
    FirstPieceAppend(mo, d + ("T" + (h + (mi + (se + tail)))), '.');
    FirstPieceAppend(y, mo + (d + ("T" + (h + (mi + (se + tail))))), '.');
    assert FirstPiece(tail, '.') == "";
    assert se + "" == se;
  }

  /** An instant `toISOString` can print. */
  type UtcInstant = t: Instant | ValidInstant(t) witness Instant(1970, 1, 1, 0, 0, 0, 0)

  /** An appointment with the UTC instants its start and end fall on. */
  datatype Slot = Slot(cita: Cita, start: UtcInstant, end: UtcInstant)

  const CalendarHead: seq<string> := ["BEGIN:VCALENDAR", "VERSION:2.0", "PRODID:-//Gimnasia App//ES"]
  const CalendarFoot: seq<string> := ["END:VCALENDAR"]

  /** `formatICalDate` of an instant: the UTC date-time of section 3.3.5 of
      RFC 5545. */
  function ICalStamp(t: UtcInstant): (r: string)
    ensures r == UtcDateTime(t)
  {
    ICalDateIsUtcDateTime(t);
    FormatICalDate(IsoString(t))
  }

  /** The eight lines of one VEVENT, its start and end written by `stamp`. */
  function EventLines(s: Slot, stamp: UtcInstant -> string): (r: seq<string>)
    ensures |r| == 8
  {
    ["BEGIN:VEVENT",
     "UID:" + s.cita.id + "@gimnasia.app",
     "DTSTART:" + stamp(s.start),
     "DTEND:" + stamp(s.end),
     "SUMMARY:" + s.cita.title,
     "DESCRIPTION:" + (if s.cita.notes.Some? then s.cita.notes.value else ""),
     "STATUS:" + Upper(s.cita.status),
     "END:VEVENT"]
  }

  /** What each line of an event carries: the appointment's id under the
      app's domain, its start and end, its title, its notes or nothing, and
      its status in capitals. */
  lemma EventText(s: Slot, stamp: UtcInstant -> string)
    ensures var r := EventLines(s, stamp);
            && r[0] == "BEGIN:VEVENT" && r[7] == "END:VEVENT"
            && r[1] == "UID:" + s.cita.id + "@gimnasia.app"
            && r[2] == "DTSTART:" + stamp(s.start) && r[3] == "DTEND:" + stamp(s.end)
            && r[4] == "SUMMARY:" + s.cita.title
            && r[5] == "DESCRIPTION:" + (if s.cita.notes.Some? then s.cita.notes.value else "")
  {
  }

  /** An event's status is the appointment's in capitals. */
  lemma EventStatus(s: Slot, stamp: UtcInstant -> string)
    ensures var r := EventLines(s, stamp)[6];
            && |r| == 7 + |s.cita.status| && r[..7] == "STATUS:"
            && forall i :: 0 <= i < |s.cita.status| ==> r[7 + i] == UpperChar(s.cita.status[i])
  {
  }

  /** Each event joined into one text. */
  function EventTexts(slots: seq<Slot>, stamp: UtcInstant -> string): (r: seq<string>)
    ensures |r| == |slots| && forall i :: 0 <= i < |slots| ==> r[i] == Join("\n", EventLines(slots[i], stamp))
  {
    seq(|slots|, i requires 0 <= i < |slots| => Join("\n", EventLines(slots[i], stamp)))
  }

  /** The lines of all events, one block of eight after another. */
  function AllEventLines(slots: seq<Slot>, stamp: UtcInstant -> string): (r: seq<string>)
    ensures |r| == 8 * |slots|
  {
    if |slots| == 0 then [] else AllEventLines(slots[..|slots| - 1], stamp) + EventLines(slots[|slots| - 1], stamp)
  }

  lemma {:induction false} AllEventLinesAt(slots: seq<Slot>, stamp: UtcInstant -> string, k: nat, j: nat)
    requires k < |slots| && j < 8
    ensures AllEventLines(slots, stamp)[8 * k + j] == EventLines(slots[k], stamp)[j]
  {
    var init := slots[..|slots| - 1];
    if k < |init| {
      AllEventLinesAt(init, stamp, k, j);
      assert init[k] == slots[k];
    }
  }

  lemma {:induction false} JoinEvents(slots: seq<Slot>, stamp: UtcInstant -> string)
    requires |slots| >= 1
    ensures Join("\n", EventTexts(slots, stamp)) == Join("\n", AllEventLines(slots, stamp))
  {
    var init := slots[..|slots| - 1];
    var last := EventLines(slots[|slots| - 1], stamp);
    assert EventTexts(slots, stamp) == EventTexts(init, stamp) + [Join("\n", last)];
    if |init| == 0 {
      assert AllEventLines(slots, stamp) == last;
    } else {
      JoinEvents(init, stamp);
      JoinAppend("\n", EventTexts(init, stamp), [Join("\n", last)]);
      JoinAppend("\n", AllEventLines(init, stamp), last);
    }
  }

  /** A calendar around the events of the appointments. */
  function Calendar(slots: seq<Slot>, stamp: UtcInstant -> string): string {
    Join("\n", CalendarHead + EventTexts(slots, stamp) + CalendarFoot)
  }

  /** `exportToICal`. */
  function ExportToICal(slots: seq<Slot>): string {
    Calendar(slots, ICalStamp)
  }

  /** The calendar as the list of its lines. */
  function CalendarLines(slots: seq<Slot>, stamp: UtcInstant -> string): (r: seq<string>)
    ensures |r| == 4 + 8 * |slots|
  {
    CalendarHead + AllEventLines(slots, stamp) + CalendarFoot
  }

  lemma CalendarJoin(slots: seq<Slot>, stamp: UtcInstant -> string)
    ensures Calendar(slots, stamp) == Join("\n", CalendarLines(slots, stamp))
  {
    var ev, fl := EventTexts(slots, stamp), AllEventLines(slots, stamp);
    if |slots| == 0 {
      assert CalendarHead + ev + CalendarFoot == CalendarLines(slots, stamp);
    } else {
      JoinEvents(slots, stamp);
      ConcatAssoc(CalendarHead, ev, CalendarFoot);
      ConcatAssoc(CalendarHead, fl, CalendarFoot);
      JoinAppend("\n", CalendarHead, ev + CalendarFoot);
      JoinAppend("\n", ev, CalendarFoot);
      JoinAppend("\n", CalendarHead, fl + CalendarFoot);
      JoinAppend("\n", fl, CalendarFoot);
    }
  }

  /** The texts of an appointment that end up on a calendar line. */
  predicate OneLine(c: Cita) {
    '\n' !in c.id && '\n' !in c.title && '\n' !in c.status && (c.notes.Some? ==> '\n' !in c.notes.value)
  }

  lemma UpperKeepsOneLine(s: string)
    requires '\n' !in s
    ensures '\n' !in Upper(s)
  {
    forall i | 0 <= i < |s|
      ensures Upper(s)[i] != '\n'
    {
      assert s[i] != '\n';
    }
  }

  lemma StampOneLine(t: UtcInstant)
    ensures '\n' !in ICalStamp(t)
  {
    DigitsAvoid(PadNat(t.year, 4), '\n');
    DigitsAvoid(Two(t.month), '\n');
    DigitsAvoid(Two(t.day), '\n');
    DigitsAvoid(Two(t.hour), '\n');
    DigitsAvoid(Two(t.minute), '\n');
    DigitsAvoid(Two(t.second), '\n');
  }

  lemma EventLinesOneLine(s: Slot, stamp: UtcInstant -> string)
    requires OneLine(s.cita) && '\n' !in stamp(s.start) && '\n' !in stamp(s.end)
    ensures forall j :: 0 <= j < 8 ==> '\n' !in EventLines(s, stamp)[j]
  {
    EventText(s, stamp);
    EventStatus(s, stamp);
    UpperKeepsOneLine(s.cita.status);
  }

  /** The frame lines hold no line break. */
  lemma FrameOneLine()
    ensures forall i :: 0 <= i < |CalendarHead| ==> '\n' !in CalendarHead[i]
    ensures forall i :: 0 <= i < |CalendarFoot| ==> '\n' !in CalendarFoot[i]
  {
  }

  /** Line `i` of the calendar body is line `(i - 3) % 8` of event `(i - 3) / 8`. */
  lemma CalendarLineAt(slots: seq<Slot>, stamp: UtcInstant -> string, i: nat)
    requires 3 <= i < 3 + 8 * |slots|
    ensures (i - 3) / 8 < |slots|
    ensures CalendarLines(slots, stamp)[i] == EventLines(slots[(i - 3) / 8], stamp)[(i - 3) % 8]
  {
    var k, j := (i - 3) / 8, (i - 3) % 8;
    assert CalendarLines(slots, stamp)[i] == AllEventLines(slots, stamp)[8 * k + j];
    AllEventLinesAt(slots, stamp, k, j);
  }

  lemma CalendarLinesOneLine(slots: seq<Slot>, stamp: UtcInstant -> string)
    requires forall i :: 0 <= i < |slots| ==> OneLine(slots[i].cita)
    requires forall t :: '\n' !in stamp(t)
    ensures forall i :: 0 <= i < |CalendarLines(slots, stamp)| ==> '\n' !in CalendarLines(slots, stamp)[i]
  {
    var lines := CalendarLines(slots, stamp);
    FrameOneLine();
    forall i | 0 <= i < |lines|
      ensures '\n' !in lines[i]
    {
      if i < 3 {
        assert lines[i] == CalendarHead[i];
      } else if i == |lines| - 1 {
        assert lines[i] == CalendarFoot[0];
      } else {
        CalendarLineAt(slots, stamp, i);
        EventLinesOneLine(slots[(i - 3) / 8], stamp);
      }
    }
  }

  /** A calendar reads back, line by line, as the `VCALENDAR` frame of
      section 3.4 of RFC 5545 around one eight-line `VEVENT` (section 3.6.1)
      per appointment, in order, as long as no written text holds a line break. */
  lemma CalendarReadsBack(slots: seq<Slot>, stamp: UtcInstant -> string)
    requires forall i :: 0 <= i < |slots| ==> OneLine(slots[i].cita)
    requires forall t :: '\n' !in stamp(t)
    ensures var lines := Split(Calendar(slots, stamp), '\n');
            && |lines| == 4 + 8 * |slots|
            && lines[..3] == CalendarHead && lines[|lines| - 1] == "END:VCALENDAR"
            && forall k, j :: 0 <= k < |slots| && 0 <= j < 8 ==> lines[3 + 8 * k + j] == EventLines(slots[k], stamp)[j]
  {
    CalendarJoin(slots, stamp);
    CalendarLinesOneLine(slots, stamp);
    var lines := CalendarLines(slots, stamp);
    SplitJoin(lines, '\n');
    forall k, j | 0 <= k < |slots| && 0 <= j < 8
      ensures lines[3 + 8 * k + j] == EventLines(slots[k], stamp)[j]
    {
      AllEventLinesAt(slots, stamp, k, j);
    }
  }

  lemma StampsOneLine()
    ensures forall t :: '\n' !in ICalStamp(t)
  {
    forall t: UtcInstant
      ensures '\n' !in ICalStamp(t)
    {
      StampOneLine(t);
    }
  }

  /** The exported calendar: the frame, then per appointment its eight event
      lines with the start and end formatted by `formatICalDate`. */
  lemma ICalLines(slots: seq<Slot>)
    requires forall i :: 0 <= i < |slots| ==> OneLine(slots[i].cita)
    ensures var lines := Split(ExportToICal(slots), '\n');
            && |lines| == 4 + 8 * |slots|
            && lines[..3] == CalendarHead && lines[|lines| - 1] == "END:VCALENDAR"
            && forall k, j :: 0 <= k < |slots| && 0 <= j < 8 ==> lines[3 + 8 * k + j] == EventLines(slots[k], ICalStamp)[j]
  {
    StampsOneLine();
    CalendarReadsBack(slots, ICalStamp);
  }
}

=== FILE: common.dfy ===
/** Shared vocabulary: options, decimal rendering, string joining and splitting,
    ASCII case mapping and whitespace trimming, and lexicographic string order
    (the order Python and JavaScript use for `<` on strings). */
module Common {

  datatype Option<+T> = None | Some(value: T)

  // ---------------------------------------------------------------------------
  // Decimal rendering

  predicate IsDigit(c: char) {
    '0' <= c <= '9'
  }

  predicate AllDigits(s: string) {
    forall i :: 0 <= i < |s| ==> IsDigit(s[i])
  }

  function DigitChar(d: nat): (c: char)
    requires d < 10
    ensures IsDigit(c)
  {
    ['0', '1', '2', '3', '4', '5', '6', '7', '8', '9'][d]
  }

  function DigitValue(c: char): nat
    requires IsDigit(c)
  {
    (c as int) - ('0' as int)
  }

  /** Decimal digits of a natural number, most significant first. */
  function NatToString(n: nat): (s: string)
    ensures |s| >= 1 && AllDigits(s)
    decreases n
  {
    if n < 10 then [DigitChar(n)] else NatToString(n / 10) + [DigitChar(n % 10)]
  }

  /** Reads back a string of digits. */
  function ParseDigits(s: string): nat
    requires AllDigits(s)
    decreases |s|
  {
    if |s| == 0 then 0 else ParseDigits(s[..|s| - 1]) * 10 + DigitValue(s[|s| - 1])
  }

  lemma DigitRoundTrip(d: nat)
    requires d < 10
    ensures DigitValue(DigitChar(d)) == d
  {
  }

  lemma {:induction false} NatToStringRoundTrip(n: nat)
    ensures ParseDigits(NatToString(n)) == n
    decreases n
  {
    DigitRoundTrip(n % 10);
    if n >= 10 {
      NatToStringRoundTrip(n / 10);
      var s := NatToString(n);
      assert s[..|s| - 1] == NatToString(n / 10);
    }
  }

  /** Decimal rendering of an integer, as Python `str` and JavaScript template strings do. */
  function IntToString(i: int): (s: string)
    ensures |s| >= 1
  {
    if i < 0 then "-" + NatToString(-i) else NatToString(i)
  }

  /** `n` written with at least `width` digits, padded with leading zeros. */
  function PadNat(n: nat, width: nat): (s: string)
    ensures AllDigits(s) && |s| >= width
    decreases width
  {
    var d := NatToString(n);
    if |d| >= width then d else "0" + PadNat(n, width - 1)
  }

  // ---------------------------------------------------------------------------
  // Joining and splitting

  /** `sep.join(parts)` (Python) / `parts.join(sep)` (JavaScript). */
  function Join(sep: string, parts: seq<string>): string
    decreases |parts|
  {
    if |parts| == 0 then ""
    else if |parts| == 1 then parts[0]
    else parts[0] + sep + Join(sep, parts[1..])
  }

  lemma ConcatAssoc<T>(a: seq<T>, b: seq<T>, c: seq<T>)
    ensures a + (b + c) == a + b + c
  {
  }

  lemma JoinCons(sep: string, x: string, rest: seq<string>)
    requires |rest| >= 1
    ensures Join(sep, [x] + rest) == x + sep + Join(sep, rest)
  {
    assert ([x] + rest)[1..] == rest;
  }

  /** Joining two non-empty lists is joining their joins. */
  lemma {:induction false} JoinAppend(sep: string, a: seq<string>, b: seq<string>)
    requires |a| >= 1 && |b| >= 1
    ensures Join(sep, a + b) == Join(sep, a) + sep + Join(sep, b)
    decreases |a|
  {
    assert (a + b)[0] == a[0];
    if |a| == 1 {
      assert (a + b)[1..] == b;
    } else {
      assert (a + b)[1..] == a[1..] + b;
      JoinAppend(sep, a[1..], b);
    }
  }

  /** `s.split(c)` for a one-character separator: always at least one piece. */
  function Split(s: string, sep: char): (parts: seq<string>)
    ensures |parts| >= 1
    decreases |s|
  {
    if |s| == 0 then [""]
    else if s[0] == sep then [""] + Split(s[1..], sep)
    else
      var rest := Split(s[1..], sep);
      [[s[0]] + rest[0]] + rest[1..]
  }

  lemma {:induction false} SplitNoSep(p: string, sep: char)
    requires sep !in p
    ensures Split(p, sep) == [p]
    decreases |p|
  {
    if |p| > 0 {
      SplitNoSep(p[1..], sep);
      assert [p[0]] + p[1..] == p;
    }
  }

  lemma {:induction false} SplitFirstPiece(p: string, t: string, sep: char)
    requires sep !in p
    ensures Split(p + [sep] + t, sep) == [p] + Split(t, sep)
    decreases |p|
  {
    if |p| == 0 {
      assert p + [sep] + t == [sep] + t;
      assert ([sep] + t)[1..] == t;
    } else {
      var s := p + [sep] + t;
      assert s[0] == p[0];
      assert s[1..] == p[1..] + [sep] + t;
      SplitFirstPiece(p[1..], t, sep);
      assert [p[0]] + p[1..] == p;
    }
  }

  /** Splitting a joined text at the separator gives back the pieces, provided no
      piece contains the separator. */
  lemma {:induction false} SplitJoin(parts: seq<string>, sep: char)
    requires |parts| >= 1
    requires forall i :: 0 <= i < |parts| ==> sep !in parts[i]
    ensures Split(Join([sep], parts), sep) == parts
    decreases |parts|
  {
    if |parts| == 1 {
      SplitNoSep(parts[0], sep);
    } else {
      SplitJoin(parts[1..], sep);
      SplitFirstPiece(parts[0], Join([sep], parts[1..]), sep);
      assert [parts[0]] + parts[1..] == parts;
    }
  }

  lemma {:induction false} JoinNotIn(sep: string, parts: seq<string>, c: char)
    requires c !in sep
    requires forall i :: 0 <= i < |parts| ==> c !in parts[i]
    ensures c !in Join(sep, parts)
    decreases |parts|
  {
    if |parts| > 1 {
      JoinNotIn(sep, parts[1..], c);
    }
  }

  // ---------------------------------------------------------------------------
  // Case mapping and whitespace (ASCII)

  function LowerChar(c: char): char {
    if 'A' <= c <= 'Z' then (c as int + 32) as char else c
  }

  function UpperChar(c: char): char {
    if 'a' <= c <= 'z' then (c as int - 32) as char else c
  }

  /** ASCII model of Python `str.lower` / JavaScript `toLowerCase`. */
  function Lower(s: string): (r: string)
    ensures |r| == |s|
    ensures forall i :: 0 <= i < |s| ==> r[i] == LowerChar(s[i])
  {
    seq(|s|, i requires 0 <= i < |s| => LowerChar(s[i]))
  }

  /** ASCII model of JavaScript `toUpperCase`. */
  function Upper(s: string): (r: string)
    ensures |r| == |s|
    ensures forall i :: 0 <= i < |s| ==> r[i] == UpperChar(s[i])
  {
    seq(|s|, i requires 0 <= i < |s| => UpperChar(s[i]))
  }

  /** Whose idea of whitespace a trim uses. JavaScript's `trim()` removes the
      six ASCII blanks; Python's `str.strip()` also removes the four
      separators U+001C..U+001F. */
  datatype Blanks = JsBlanks | PyBlanks

  predicate IsSpace(c: char) {
    c == ' ' || c == '\t' || c == '\n' || c == '\r' || c == '\U{000B}' || c == '\U{000C}'
  }

  predicate IsBlank(b: Blanks, c: char) {
    IsSpace(c) || (b.PyBlanks? && '\U{001C}' <= c <= '\U{001F}')
  }

  function TrimStart(b: Blanks, s: string): (r: string)
    ensures |r| <= |s| && r == s[|s| - |r|..]
    ensures |r| == 0 || !IsBlank(b, r[0])
    decreases |s|
  {
    if |s| > 0 && IsBlank(b, s[0]) then TrimStart(b, s[1..]) else s
  }

  function TrimEnd(b: Blanks, s: string): (r: string)
    ensures |r| <= |s| && r == s[..|r|]
    ensures |r| == 0 || !IsBlank(b, r[|r| - 1])
    decreases |s|
  {
    if |s| > 0 && IsBlank(b, s[|s| - 1]) then TrimEnd(b, s[..|s| - 1]) else s
  }

  /** Leading and trailing blanks removed, in the given sense of blank. */
  function TrimWith(b: Blanks, s: string): (r: string)
    ensures |r| <= |s|
    ensures |r| == 0 || (!IsBlank(b, r[0]) && !IsBlank(b, r[|r| - 1]))
  {
    TrimEnd(b, TrimStart(b, s))
  }

  /** JavaScript `trim()`, over ASCII whitespace. */
  function Trim(s: string): (r: string)
    ensures |r| <= |s|
    ensures |r| == 0 || (!IsSpace(r[0]) && !IsSpace(r[|r| - 1]))
  {
    TrimWith(JsBlanks, s)
  }

  /** Python `str.strip()` with no argument, over ASCII whitespace. */
  function Strip(s: string): (r: string)
    ensures |r| <= |s|
    ensures |r| == 0 || (!IsBlank(PyBlanks, r[0]) && !IsBlank(PyBlanks, r[|r| - 1]))
  {
    TrimWith(PyBlanks, s)
  }

  lemma {:induction false} TrimEmptyIffAllSpace(b: Blanks, s: string)
    ensures TrimWith(b, s) == "" <==> forall i :: 0 <= i < |s| ==> IsBlank(b, s[i])
    decreases |s|
  {
    if |s| > 0 && IsBlank(b, s[0]) {
      TrimEmptyIffAllSpace(b, s[1..]);
      assert forall i :: 1 <= i < |s| ==> s[i] == s[1..][i - 1];
    } else if |s| > 0 {
      assert TrimStart(b, s) == s;
      assert TrimEnd(b, s) != "" by {
        if TrimEnd(b, s) == "" {
          TrimEndEmpty(b, s);
        }
      }
    }
  }

  lemma {:induction false} TrimEndEmpty(b: Blanks, s: string)
    requires TrimEnd(b, s) == ""
    ensures forall i :: 0 <= i < |s| ==> IsBlank(b, s[i])
    decreases |s|
  {
    if |s| > 0 {
      TrimEndEmpty(b, s[..|s| - 1]);
      assert forall i :: 0 <= i < |s| - 1 ==> s[i] == s[..|s| - 1][i];
    }
  }

  // ---------------------------------------------------------------------------
  // Lexicographic order on strings

  /** `a < b` on strings: the first differing character decides, and a proper
      prefix is smaller. */
  predicate StrLt(a: string, b: string)
    decreases |a|
  {
    |b| > 0 && (|a| == 0 || a[0] < b[0] || (a[0] == b[0] && StrLt(a[1..], b[1..])))
  }

  predicate StrLe(a: string, b: string) {
    a == b || StrLt(a, b)
  }

  lemma {:induction false} StrLtIrreflexive(a: string)
    ensures !StrLt(a, a)
    decreases |a|
  {
    if |a| > 0 {
      StrLtIrreflexive(a[1..]);
    }
  }

  lemma {:induction false} StrLtAsymmetric(a: string, b: string)
    ensures StrLt(a, b) ==> !StrLt(b, a)
    decreases |a|
  {
    if |a| > 0 && |b| > 0 && a[0] == b[0] {
      StrLtAsymmetric(a[1..], b[1..]);
    }
  }

  lemma {:induction false} StrLtTransitive(a: string, b: string, c: string)
    requires StrLt(a, b) && StrLt(b, c)
    ensures StrLt(a, c)
    decreases |a|
  {
    if |a| > 0 && a[0] == b[0] && b[0] == c[0] {
      StrLtTransitive(a[1..], b[1..], c[1..]);
    }
  }

  lemma {:induction false} StrLtTotal(a: string, b: string)
    ensures a == b || StrLt(a, b) || StrLt(b, a)
    decreases |a|
  {
    if |a| > 0 && |b| > 0 && a[0] == b[0] {
      StrLtTotal(a[1..], b[1..]);
      if a[1..] == b[1..] {
        assert a == [a[0]] + a[1..] && b == [b[0]] + b[1..];
      }
    }
  }

  // ---------------------------------------------------------------------------
  // Concatenated maps: a loop that appends each element's results in turn

  /** `f` applied to each element in turn, the results concatenated. */
  function FlatMap<T, U>(xs: seq<T>, f: T -> seq<U>): seq<U> {
    if |xs| == 0 then [] else FlatMap(xs[..|xs| - 1], f) + f(xs[|xs| - 1])
  }

  lemma FlatMapStep<T, U>(xs: seq<T>, i: nat, f: T -> seq<U>)
    requires i < |xs|
    ensures FlatMap(xs[..i + 1], f) == FlatMap(xs[..i], f) + f(xs[i])
  {
    assert xs[..i + 1][..i] == xs[..i];
  }

  lemma {:induction false} FlatMapAppend<T, U>(xs: seq<T>, ys: seq<T>, f: T -> seq<U>)
    ensures FlatMap(xs + ys, f) == FlatMap(xs, f) + FlatMap(ys, f)
    decreases |ys|
  {
    if |ys| == 0 {
      assert xs + ys == xs;
    } else {
      var init := ys[..|ys| - 1];
      assert (xs + ys)[..|xs + ys| - 1] == xs + init;
      FlatMapAppend(xs, init, f);
    }
  }

  /** The first element's results come first. */
  lemma FlatMapCons<T, U>(xs: seq<T>, f: T -> seq<U>)
    requires |xs| > 0
    ensures FlatMap(xs, f) == f(xs[0]) + FlatMap(xs[1..], f)
  {
    var h := [xs[0]];
    assert h[..|h| - 1] == [];
    assert FlatMap(h, f) == f(xs[0]);
    FlatMapAppend(h, xs[1..], f);
    assert h + xs[1..] == xs;
  }

  /** The results around the element at `i`. */
  lemma FlatMapAt<T, U>(xs: seq<T>, f: T -> seq<U>, i: nat)
    requires i < |xs|
    ensures FlatMap(xs, f) == FlatMap(xs[..i], f) + f(xs[i]) + FlatMap(xs[i + 1..], f)
  {
    assert xs == xs[..i] + [xs[i]] + xs[i + 1..];
    FlatMapAppend(xs[..i] + [xs[i]], xs[i + 1..], f);
    FlatMapAppend(xs[..i], [xs[i]], f);
    assert [xs[i]][..0] == [];
  }

  lemma {:induction false} FlatMapEmpty<T, U>(xs: seq<T>, f: T -> seq<U>)
    ensures |FlatMap(xs, f)| == 0 <==> forall i :: 0 <= i < |xs| ==> |f(xs[i])| == 0
  {
    if |xs| > 0 {
      var init := xs[..|xs| - 1];
      FlatMapEmpty(init, f);
      assert forall i :: 0 <= i < |init| ==> init[i] == xs[i];
    }
  }

  /** Every result comes from some element. */
  lemma {:induction false} FlatMapHas<T, U>(xs: seq<T>, f: T -> seq<U>, x: U) returns (k: nat)
    requires x in FlatMap(xs, f)
    ensures k < |xs| && x in f(xs[k])
    decreases |xs|
  {
    var init := xs[..|xs| - 1];
    if x in FlatMap(init, f) {
      k := FlatMapHas(init, f, x);
      assert init[k] == xs[k];
    } else {
      k := |xs| - 1;
    }
  }

  /** Every element's results are among the results. */
  lemma {:induction false} FlatMapFrom<T, U>(xs: seq<T>, f: T -> seq<U>, k: nat, x: U)
    requires k < |xs| && x in f(xs[k])
    ensures x in FlatMap(xs, f)
    decreases |xs|
  {
    var init := xs[..|xs| - 1];
    if k < |xs| - 1 {
      assert init[k] == xs[k];
      FlatMapFrom(init, f, k, x);
    }
  }

  /** The indices `lo, lo + 1, ..., hi - 1`. */
  function Upto(lo: nat, hi: nat): (r: seq<nat>)
    requires lo <= hi
    ensures |r| == hi - lo && forall k :: 0 <= k < |r| ==> r[k] == lo + k
  {
    seq(hi - lo, k requires 0 <= k < hi - lo => lo + k)
  }
}

=== FILE: date_utils.dfy ===
/** The month arithmetic of `src/utils/dateUtils.ts`, over the year and month
    a date falls in. */
module DateUtils {

  /** A calendar date: `getFullYear()`, `getMonth()` (0 to 11) and the day. */
  datatype Date = Date(year: int, month: int, day: int)

  /** The months elapsed since year 0 up to the month the date falls in. */
  function MonthIndex(d: Date): int {
    12 * d.year + d.month
  }

  /** `getMonthsBetweenDates`. */
  function MonthsBetween(start: Date, end: Date): (r: int)
    ensures r == MonthIndex(end) - MonthIndex(start)
  {
    (end.year - start.year) * 12 + (end.month - start.month)
  }

  /** The difference is zero from a date to itself, and swapping the dates
      negates it. */
  lemma MonthsBetweenZeroAntisymmetric(a: Date, b: Date)
    ensures MonthsBetween(a, a) == 0
    ensures MonthsBetween(b, a) == -MonthsBetween(a, b)
  {
  }

  /** Differences add up along a chain of dates. */
  lemma MonthsBetweenAdditive(a: Date, b: Date, c: Date)
    ensures MonthsBetween(a, b) + MonthsBetween(b, c) == MonthsBetween(a, c)
  {
  }

  /** The day of the month never matters. */
  lemma MonthsBetweenIgnoresDay(a: Date, b: Date, da: int, db: int)
    ensures MonthsBetween(Date(a.year, a.month, da), Date(b.year, b.month, db)) == MonthsBetween(a, b)
  {
  }
}

=== FILE: error_handling.dfy ===
/** The validators and the error wrapper of `src/utils/errorHandling.ts`. A
    thrown `ValidationError` is a `Fail` carrying its message. */
module ErrorHandling {
  import opened Common
  import opened JsValues

  /** The outcome of a validator: it returns, or it throws with a message. */
  datatype Check = Pass | Fail(message: string)

  /** The first failure of two validators run one after the other. */
  function Then(a: Check, b: Check): (r: Check)
    ensures r.Pass? <==> a.Pass? && b.Pass?
    ensures a.Fail? ==> r == a
  {
    if a.Fail? then a else b
  }

  /** `validateRequired`: only `null` and `undefined` are missing. */
  function ValidateRequired<T>(value: Opt<T>, fieldName: string): (r: Check)
    ensures r.Pass? <==> value.Given?
    ensures r.Fail? ==> r.message == "El campo " + fieldName + " es requerido"
  {
    if value.Null? || value.Undefined? then Fail("El campo " + fieldName + " es requerido") else Pass
  }

  /** Falsy values are present: `0`, `''` and `false` all pass. */
  lemma RequiredAcceptsFalsy(name: string)
    ensures ValidateRequired(Given(Fin(0.0)), name) == Pass
    ensures ValidateRequired(Given(""), name) == Pass
    ensures ValidateRequired(Given(false), name) == Pass
  {
  }

  /** A number `validateNumericRange(v, lo, hi)` lets through: NaN, or one
      within the bounds. */
  predicate Within(v: Num, lo: Limit, hi: Limit) {
    v.NaN? || (Le(lo, v) && Le(v, hi))
  }

  /** `validateNumericRange`: both bounds are inclusive, and NaN, which
      compares false with everything, passes. */
  function ValidateNumericRange(value: Num, min: Limit, max: Limit, fieldName: string): (r: Check)
    ensures r.Pass? <==> Within(value, min, max)
    ensures r.Fail? ==> r.message == fieldName + " debe estar entre " + LimitText(min) + " y " + LimitText(max)
  {
    if Lt(value, min) || Lt(max, value) then
      Fail(fieldName + " debe estar entre " + LimitText(min) + " y " + LimitText(max))
    else
      Pass
  }

  /** Both ends of a non-empty range pass. */
  lemma NumericRangeEndsPass(min: Limit, max: Limit, name: string)
    requires Le(min, max)
    ensures ValidateNumericRange(min, min, max, name) == Pass
    ensures ValidateNumericRange(max, min, max, name) == Pass
  {
  }

  /** `validateDateRange`. `parse` stands for `new Date(s).getTime()`, `None`
      when that is NaN; a missing or empty end date skips every check. */
  function ValidateDateRange(startDate: string, endDate: Opt<string>, parse: string -> Option<int>): (r: Check)
    ensures !TextGiven(endDate) ==> r == Pass
    ensures TextGiven(endDate) ==>
              (r == Fail("Fechas inválidas") <==> parse(startDate).None? || parse(endDate.value).None?)
    ensures r.Pass? <==> !TextGiven(endDate)
                         || (parse(startDate).Some? && parse(endDate.value).Some?
                             && parse(startDate).value <= parse(endDate.value).value)
    ensures TextGiven(endDate) && parse(startDate).Some? && parse(endDate.value).Some?
            && parse(startDate).value > parse(endDate.value).value ==>
              r == Fail("La fecha de inicio debe ser anterior a la fecha de fin")
  {
    if !TextGiven(endDate) then Pass
    else
      var start, end := parse(startDate), parse(endDate.value);
      if start.None? || end.None? then Fail("Fechas inválidas")
      else if start.value > end.value then Fail("La fecha de inicio debe ser anterior a la fecha de fin")
      else Pass
  }

  /** A range that starts and ends on the same instant is accepted. */
  lemma DateRangeAcceptsEqual(s: string, e: string, parse: string -> Option<int>)
    requires e != "" && parse(s).Some? && parse(s) == parse(e)
    ensures ValidateDateRange(s, Given(e), parse) == Pass
  {
  }

  /** What a hook's handler does: run its mutation with `arg`, or throw
      `message`. */
  datatype Outcome<T> = Submitted(arg: T) | Rejected(message: string)

  /** Where an error came from: a database error or anything else. */
  datatype Origin = Postgrest | Unexpected

  /** `handleDatabaseError`: the message names the context and keeps the
      original message at its end. */
  function HandleDatabaseError(origin: Origin, message: string, context: string): (r: string)
    ensures origin.Unexpected? ==> r == "Error inesperado (" + context + "): " + message
    ensures origin.Postgrest? ==> r == "Error en operación de base de datos (" + context + "): " + message
    ensures |r| >= |message| && r[|r| - |message|..] == message
  {
    var prefix := if origin.Postgrest? then "Error en operación de base de datos (" else "Error inesperado (";
    var r := prefix + context + "): " + message;
    assert r == (prefix + context + "): ") + message;
    r
  }

  /** How evaluating a call ends: with a value, or with a thrown error's text. */
  datatype Completion<T> = Returned(value: T) | Threw(error: string)

  /** The module-level names `errorHandling.ts` binds as written: its two
      classes. The `PostgrestError` import on its first line is commented out. */
  const ModuleScope: set<string> := {"DatabaseError", "ValidationError"}

  /** The names the module evidently means to bind: the import restored. */
  const IntendedScope: set<string> := ModuleScope + {"PostgrestError"}

  const PostgrestUnbound := "ReferenceError: PostgrestError is not defined"

  /** `handleDatabaseError` run with the module's bindings `scope`. The type
      annotations are erased, but `error instanceof PostgrestError` reads the
      name as a value, so without a binding the call throws before it builds
      any message. */
  function HandleDatabaseErrorIn(scope: set<string>, origin: Origin, message: string, context: string)
    : (r: Completion<string>)
    ensures r.Returned? <==> "PostgrestError" in scope
    ensures r.Threw? ==> r.error == PostgrestUnbound
    ensures r.Returned? ==> |r.value| >= |message| && r.value[|r.value| - |message|..] == message
  {
    if "PostgrestError" in scope then Returned(HandleDatabaseError(origin, message, context))
    else Threw(PostgrestUnbound)
  }

  /** As written, every call throws the ReferenceError, so no handler ever
      shows the wrapped message; with the import restored, every call returns
      the message `HandleDatabaseError` builds. */
  lemma HandleDatabaseErrorAsWritten(origin: Origin, message: string, context: string)
    ensures HandleDatabaseErrorIn(ModuleScope, origin, message, context) == Threw(PostgrestUnbound)
    ensures HandleDatabaseErrorIn(IntendedScope, origin, message, context)
            == Returned(HandleDatabaseError(origin, message, context))
  {
    assert "PostgrestError" !in ModuleScope;
    assert "PostgrestError" in IntendedScope;
  }
}

=== FILE: js_values.dfy ===
/** The JavaScript values the front end's validators, hooks and forms look
    at: numbers with their infinities and NaN, properties that may be
    `undefined` or `null`, and JavaScript truthiness. */
module JsValues {
  import opened Common

  /** A JavaScript number. */
  datatype Num = NaN | Fin(x: real) | PosInf | NegInf

  /** `a < b`: false as soon as either side is NaN. */
  predicate Lt(a: Num, b: Num) {
    !a.NaN? && !b.NaN?
    && ((a.NegInf? && !b.NegInf?) || (b.PosInf? && !a.PosInf?) || (a.Fin? && b.Fin? && a.x < b.x))
  }

  /** `a <= b`: also false as soon as either side is NaN. */
  predicate Le(a: Num, b: Num) {
    !a.NaN? && !b.NaN? && !Lt(b, a)
  }

  /** A number is falsy when it is 0 or NaN. */
  predicate NumTruthy(n: Num) {
    !n.NaN? && n != Fin(0.0)
  }

  lemma LeIsLtOrEqual(a: Num, b: Num)
    ensures Le(a, b) <==> Lt(a, b) || (a == b && !a.NaN?)
  {
  }

  /** A whole number or an infinity: the only bounds the validators are given. */
  predicate IsWhole(n: Num) {
    n.PosInf? || n.NegInf? || (n.Fin? && n.x == n.x.Floor as real)
  }

  type Limit = n: Num | IsWhole(n) witness Fin(0.0)

  /** A bound as a template string prints it. */
  function LimitText(n: Limit): string {
    match n
    case Fin(x) => IntToString(x.Floor)
    case PosInf => "Infinity"
    case NegInf => "-Infinity"
  }

  /** An object property: `undefined` when absent, `null`, or a value. */
  datatype Opt<T> = Undefined | Null | Given(value: T)

  predicate Nullish<T>(v: Opt<T>) {
    v.Undefined? || v.Null?
  }

  /** The number a numeric property compares as: `undefined` is NaN, `null` is 0. */
  function ToNum(v: Opt<Num>): (n: Num)
    ensures v.Given? ==> n == v.value
    ensures v.Null? ==> n == Fin(0.0)
    ensures v.Undefined? ==> n.NaN?
  {
    match v
    case Undefined => NaN
    case Null => Fin(0.0)
    case Given(n) => n
  }

  /** A JSON value received in a request body. */
  datatype Json = Bool(b: bool) | Number(n: Num) | Str(s: string) | Composite

  /** `!!v` for a property holding JSON: arrays and objects are truthy. */
  predicate Truthy(v: Opt<Json>) {
    match v
    case Undefined => false
    case Null => false
    case Given(j) =>
      match j
      case Bool(b) => b
      case Number(n) => NumTruthy(n)
      case Str(s) => s != ""
      case Composite => true
  }

  /** `!!s` for a string: only the empty string is falsy. */
  predicate TextGiven(s: Opt<string>) {
    s.Given? && s.value != ""
  }
}

=== FILE: legacy_tools.dfy ===
/** The older copy of the agent tools (`src/agent/agent/agent.py`): the same
    four collections, but one shape of CRUD for all of them. A create stores
    any non-empty payload, a read by `alumno_id` subscripts every record and
    does not sort, an update merges the whole payload, and each read that is
    not a lookup lists everything. */
module LegacyTools {
  import opened Common
  import opened PyValue
  import opened Records
  import opened PaymentOrder
  import opened AgentTools
  import opened AgentSummary
  import opened AgentToolsLaws

  datatype Entity = Alumnos | Pagos | Notas | Asistencias

  datatype LegacyMessages = LegacyMessages(
    created: string, found: string, notFound: string, byStudent: string, all: string,
    updated: string, updateMissing: string, deleted: string, deleteMissing: string)

  function LegacyTexts(e: Entity): LegacyMessages {
    match e
    case Alumnos => LegacyStudentTexts
    case Pagos => LegacyPaymentTexts
    case Notas => LegacyNoteTexts
    case Asistencias => LegacyAttendanceTexts
  }

  const LegacyStudentTexts := LegacyMessages(
    "Alumno creado con éxito.", "Alumno encontrado.", "Alumno no encontrado.", "",
    "Listado de alumnos.", "Alumno actualizado con éxito.", "Alumno a actualizar no encontrado.",
    "Alumno eliminado con éxito.", "Alumno a eliminar no encontrado.")

  const LegacyPaymentTexts := LegacyMessages(
    "Pago registrado con éxito.", "Pago encontrado.", "Pago no encontrado.",
    "Pagos encontrados para el alumno ", "Listado de pagos.", "Pago actualizado con éxito.",
    "Pago a actualizar no encontrado.", "Pago eliminado con éxito.", "Pago a eliminar no encontrado.")

  const LegacyNoteTexts := LegacyMessages(
    "Nota registrada con éxito.", "Nota encontrada.", "Nota no encontrada.",
    "Notas encontradas para el alumno ", "Listado de notas.", "Nota actualizada con éxito.",
    "Nota a actualizar no encontrado.", "Nota eliminada con éxito.", "Nota a eliminar no encontrado.")

  const LegacyAttendanceTexts := LegacyMessages(
    "Asistencia registrada con éxito.", "Asistencia encontrada.", "Asistencia no encontrada.",
    "Asistencias encontradas para el alumno ", "Listado de asistencias.",
    "Asistencia actualizada con éxito.", "Asistencia a actualizar no encontrada.",
    "Asistencia eliminada con éxito.", "Asistencia a eliminar no encontrada.")

  /** The records whose `k` equals `x`, subscripting every record: raises
      `KeyError` unless every record has `k`, and otherwise keeps the records
      linked to `x`. */
  function FilterStrict(coll: seq<Record>, k: string, x: Value): (r: Py<seq<Record>>)
    ensures r.Ok? <==> AllHave(coll, k)
    ensures r.Raised? ==> r.exc == KeyError(k)
    ensures r.Ok? ==> r.value == Linked(coll, k, x)
  {
    if AllHave(coll, k) then Ok(Linked(coll, k, x)) else Raised(KeyError(k))
  }

  /** Any non-empty payload is stored, with a fresh id. */
  function LegacyCreate(m: LegacyMessages, coll: seq<Record>, d: Record, uid: string): (r: Step)
    requires |d| > 0 && IdFree(coll, uid)
    ensures r.reply.status == Success && r.reply.message == m.created && r.reply.data.One?
    ensures KeepsPayload(r.reply.data.record, d, uid)
    ensures r.coll == coll + [r.reply.data.record]
  {
    var rec := d["id" := Str(uid)];
    Step(Envelope(Success, m.created, One(rec)), coll + [rec])
  }

  /** The lookup by id shared by all four tools. */
  function LegacyReadById(m: LegacyMessages, coll: seq<Record>, x: Value): (r: Py<Envelope>)
    ensures AllHave(coll, "id") ==> r.Ok?
    ensures r.Ok? ==> (r.value.status == Success <==> exists i :: 0 <= i < |coll| && "id" in coll[i] && PyEq(coll[i]["id"], x))
    ensures r.Ok? && r.value.status == Success ==>
      exists i :: 0 <= i < |coll| && r.value == Envelope(Success, m.found, One(coll[i]))
                  && "id" in coll[i] && PyEq(coll[i]["id"], x)
                  && forall j :: 0 <= j < i ==> "id" in coll[j] && !PyEq(coll[j]["id"], x)
    ensures r.Ok? && r.value.status == Error ==> r.value == Fail(m.notFound)
  {
    match ScanKey(coll, "id", x)
    case Hit(i) => Ok(Envelope(Success, m.found, One(coll[i])))
    case Miss => Ok(Fail(m.notFound))
    case Fault(e) => Raised(e)
  }

  function LegacyRead(e: Entity, coll: seq<Record>, data: Payload): (r: Py<Envelope>)
    ensures HasTruthy(data, "id") ==> r == LegacyReadById(LegacyTexts(e), coll, data.value["id"])
    ensures !HasTruthy(data, "id") && e != Alumnos && HasTruthy(data, "alumno_id") ==>
      && (r.Ok? <==> AllHave(coll, "alumno_id"))
      && (r.Ok? ==> r.value.status == Success
                    && r.value.data == Many(Linked(coll, "alumno_id", data.value["alumno_id"])))
    ensures !HasTruthy(data, "id") && !(e == Alumnos && HasTruthy(data, "nombre") && HasTruthy(data, "apellido"))
            && !(e != Alumnos && HasTruthy(data, "alumno_id")) ==>
      r == Ok(Envelope(Success, LegacyTexts(e).all, Many(coll)))
  {
    var m := LegacyTexts(e);
    if HasTruthy(data, "id") then LegacyReadById(m, coll, data.value["id"])
    else if e == Alumnos && HasTruthy(data, "nombre") && HasTruthy(data, "apellido") then
      StudentReadByName(coll, data.value)
    else if e != Alumnos && HasTruthy(data, "alumno_id") then
      var x := data.value["alumno_id"];
      match FilterStrict(coll, "alumno_id", x)
      case Ok(rs) => Ok(Envelope(Success, m.byStudent + PyStr(x) + ".", Many(rs)))
      case Raised(exc) => Raised(exc)
    else
      Ok(Envelope(Success, m.all, Many(coll)))
  }

  /** Merges the whole payload, id included, into the first record with that id. */
  function LegacyUpdate(m: LegacyMessages, coll: seq<Record>, d: Record): (r: Py<Step>)
    requires "id" in d && Truthy(d["id"])
    ensures AllHave(coll, "id") ==> r.Ok?
    ensures r.Ok? && r.value.reply.status == Error ==>
      r.value == Step(Fail(m.updateMissing), coll)
    ensures r.Ok? && r.value.reply.status == Success ==>
      && |r.value.coll| == |coll|
      && exists i :: (0 <= i < |coll|
           && "id" in coll[i] && PyEq(coll[i]["id"], d["id"])
           && (forall j :: 0 <= j < i ==> "id" in coll[j] && !PyEq(coll[j]["id"], d["id"]))
           && r.value.reply == Envelope(Success, m.updated, One(r.value.coll[i]))
           && ReplacedAt(r.value.coll, coll, i, r.value.coll[i])
           && MergedInto(r.value.coll[i], coll[i], d))
  {
    match ScanKey(coll, "id", d["id"])
    case Hit(i) =>
      var merged := coll[i] + d;
      Ok(Step(Envelope(Success, m.updated, One(merged)), coll[i := merged]))
    case Miss => Ok(Step(Fail(m.updateMissing), coll))
    case Fault(e) => Raised(e)
  }

  /** Removes every record with the id; raises unless every record has one. */
  function LegacyDelete(m: LegacyMessages, coll: seq<Record>, d: Record): (r: Py<Step>)
    requires "id" in d && Truthy(d["id"])
    ensures r.Ok? <==> AllHave(coll, "id")
    ensures r.Raised? ==> r.exc == KeyError("id")
    ensures r.Ok? ==>
      (r.value.reply.status == Success <==>
         exists i :: 0 <= i < |coll| && "id" in coll[i] && PyEq(coll[i]["id"], d["id"]))
    ensures r.Ok? && r.value.reply.status == Success ==>
      && r.value.reply == Envelope(Success, m.deleted, NoData)
      && RemovedAll(r.value.coll, coll, "id", d["id"])
      && |r.value.coll| < |coll|
    ensures r.Ok? && r.value.reply.status == Error ==> r.value == Step(Fail(m.deleteMissing), coll)
  {
    if !AllHave(coll, "id") then Raised(KeyError("id"))
    else
      var kept := RemoveGet(coll, "id", d["id"]);
      assert forall i :: 0 <= i < |coll| ==> (GetMatches(coll[i], "id", d["id"]) <==> PyEq(coll[i]["id"], d["id"]));
      if |kept| < |coll| then Ok(Step(Envelope(Success, m.deleted, NoData), kept))
      else Ok(Step(Fail(m.deleteMissing), coll))
  }

  /** `crud_alumnos`, `crud_pagos`, `crud_notas` and `crud_asistencias` of the
      older agent. */
  function LegacyCrud(e: Entity, coll: seq<Record>, action: string, data: Payload, uid: string): (r: Py<Step>)
    requires action == "create" ==> IdFree(coll, uid)
    ensures action !in {"create", "read", "update", "delete"} ==> r == Ok(Step(DefaultError, coll))
    ensures action == "create" ==> r.Ok? && (r.value.reply.status == Success <==> PayloadTruthy(data))
    ensures action == "read" && r.Ok? ==> r.value.coll == coll
    ensures r.Ok? && r.value.reply.status == Error ==> r.value.coll == coll && r.value.reply.data == NoData
  {
    var m := LegacyTexts(e);
    if action == "create" && PayloadTruthy(data) then Ok(LegacyCreate(m, coll, data.value, uid))
    else if action == "read" then
      match LegacyRead(e, coll, data)
      case Ok(env) => Ok(Step(env, coll))
      case Raised(exc) => Raised(exc)
    else if action == "update" && HasTruthy(data, "id") then LegacyUpdate(m, coll, data.value)
    else if action == "delete" && HasTruthy(data, "id") then LegacyDelete(m, coll, data.value)
    else Ok(Step(DefaultError, coll))
  }

  /** What the older read by student id lists: an empty id is falsy, so the
      whole collection; otherwise the records linked to the id. */
  function ListedFor(coll: seq<Record>, alumnoId: string): seq<Record> {
    if alumnoId == "" then coll else Linked(coll, "alumno_id", Str(alumnoId))
  }

  /** The read by student id that the older summary makes for each linked
      collection: an empty id is falsy, so the read lists the whole collection. */
  function StudentRecords(e: Entity, coll: seq<Record>, alumnoId: string): (r: Py<seq<Record>>)
    requires e != Alumnos
    ensures r.Ok? <==> alumnoId == "" || AllHave(coll, "alumno_id")
    ensures r.Ok? ==> r.value == ListedFor(coll, alumnoId)
  {
    match LegacyRead(e, coll, ByStudent(Str(alumnoId)))
    case Raised(exc) => Raised(exc)
    case Ok(env) => Ok(Listed(env))
  }

  /** `resumen_alumno` of the older agent: its reads can raise, and a payment
      line shows `fecha_pago` only. */
  function LegacyResumenAlumno(alumnos: seq<Record>, pagos: seq<Record>, notas: seq<Record>,
                               asistencias: seq<Record>, alumnoId: string): (r: Py<Summary>)
    ensures r.Ok? ==>
      (r.value.Summary? <==> exists i :: 0 <= i < |alumnos| && "id" in alumnos[i] && PyEq(alumnos[i]["id"], Str(alumnoId)))
    ensures (AllHave(alumnos, "id") && AllHave(pagos, "alumno_id") && AllHave(notas, "alumno_id")
             && AllHave(asistencias, "alumno_id")) ==> r.Ok?
    ensures r.Ok? && r.value.Summary? ==>
      exists i :: (0 <= i < |alumnos| && "id" in alumnos[i] && PyEq(alumnos[i]["id"], Str(alumnoId))
        && (forall j :: 0 <= j < i ==> "id" in alumnos[j] && !PyEq(alumnos[j]["id"], Str(alumnoId)))
        && r.value.text == SummaryText(alumnos[i], LegacyPaymentSection, ListedFor(pagos, alumnoId),
                                       ListedFor(notas, alumnoId), ListedFor(asistencias, alumnoId)))
  {
    match ScanKey(alumnos, "id", Str(alumnoId))
    case Fault(e) => Raised(e)
    case Miss => Ok(NoStudent)
    case Hit(i) =>
      var r := LegacySummaryOf(alumnos[i], pagos, notas, asistencias, alumnoId);
      assert forall j :: 0 <= j < i ==> "id" in alumnos[j] && !PyEq(alumnos[j]["id"], Str(alumnoId));
      r
  }

  /** The three reads of the older summary for a found student, then its text. */
  function LegacySummaryOf(a: Record, pagos: seq<Record>, notas: seq<Record>,
                           asistencias: seq<Record>, alumnoId: string): (r: Py<Summary>)
    ensures r.Ok? <==> alumnoId == "" || (AllHave(pagos, "alumno_id") && AllHave(notas, "alumno_id")
                                          && AllHave(asistencias, "alumno_id"))
    ensures r.Ok? ==>
      r.value == Summary(SummaryText(a, LegacyPaymentSection, ListedFor(pagos, alumnoId),
                                     ListedFor(notas, alumnoId), ListedFor(asistencias, alumnoId)))
  {
    match StudentRecords(Pagos, pagos, alumnoId)
    case Raised(e) => Raised(e)
    case Ok(ps) =>
      match StudentRecords(Notas, notas, alumnoId)
      case Raised(e) => Raised(e)
      case Ok(ns) =>
        match StudentRecords(Asistencias, asistencias, alumnoId)
        case Raised(e) => Raised(e)
        case Ok(as_) =>
          Ok(Summary(SummaryText(a, LegacyPaymentSection, ps, ns, as_)))
  }

  // ---------------------------------------------------------------------------
  // The older agent against the backend

  /** Creating a student with both names stores and returns the same record in
      both agents; without them only the older one stores it. */
  lemma LegacyStudentCreateAgrees(alumnos: seq<Record>, d: Record, uid: string)
    requires IdFree(alumnos, uid) && |d| > 0
    ensures "nombre" in d && "apellido" in d ==>
      Ok(StudentCreate(alumnos, d, uid)) == LegacyCrud(Alumnos, alumnos, "create", Some(d), uid)
    ensures !("nombre" in d && "apellido" in d) ==>
      && StudentCreate(alumnos, d, uid).coll == alumnos
      && |LegacyCrud(Alumnos, alumnos, "create", Some(d), uid).value.coll| == |alumnos| + 1
  {
  }

  /** Reading students agrees between the agents except on a non-empty
      payload with neither a truthy id nor both names, which the backend
      refuses and the older agent answers with the whole list. */
  lemma LegacyStudentReadAgrees(alumnos: seq<Record>, data: Payload)
    ensures HasTruthy(data, "id") || (HasTruthy(data, "nombre") && HasTruthy(data, "apellido")) || !PayloadTruthy(data) ==>
      LegacyRead(Alumnos, alumnos, data) == StudentRead(alumnos, data)
    ensures !(HasTruthy(data, "id") || (HasTruthy(data, "nombre") && HasTruthy(data, "apellido")) || !PayloadTruthy(data)) ==>
      && StudentRead(alumnos, data) == Ok(DefaultError)
      && LegacyRead(Alumnos, alumnos, data) == Ok(Envelope(Success, "Listado de alumnos.", Many(alumnos)))
  {
  }

  /** Updating a student is the same operation in both agents. */
  lemma LegacyStudentUpdateAgrees(alumnos: seq<Record>, d: Record)
    requires "id" in d && Truthy(d["id"])
    ensures LegacyUpdate(LegacyTexts(Alumnos), alumnos, d) == StudentUpdate(alumnos, d)
  {
  }

  /** When every payment names its student, the older agent lists the same
      payments of a student as the backend, only not sorted by date. */
  lemma LegacyPaymentsArePermutation(pagos: seq<Record>, x: Value)
    requires Truthy(x) && AllHave(pagos, "alumno_id")
    ensures var old_ := LegacyRead(Pagos, pagos, ByStudent(x));
            var new_ := PaymentRead(pagos, ByStudent(x));
            && old_.Ok? && old_.value.data.Many? && new_.data.Many?
            && multiset(old_.value.data.records) == multiset(new_.data.records)
  {
    ReadByStudent(pagos, x);
    var d := ByStudent(x);
    assert !HasTruthy(d, "id") && HasTruthy(d, "alumno_id") && d.value["alumno_id"] == x;
  }

  /** The older summary writes a payment's date only from `fecha_pago`: the
      lines agree when a payment has one, and otherwise the older line has an
      empty date where the backend falls back to `fecha`. */
  lemma LegacyPaymentLineAgrees(p: Record)
    ensures "fecha_pago" in p ==> LegacyPaymentLine(p) == PaymentLine(p)
    ensures "fecha_pago" !in p ==>
      LegacyPaymentLine(p) == "- Fecha: , Monto: $" + Field(p, "monto") + ", Estado: " + Field(p, "estado")
  {
  }

  /** After a successful delete in the older agent, no record keeps that id. */
  lemma LegacyDeleteThenRead(e: Entity, coll: seq<Record>, d: Record)
    requires "id" in d && Truthy(d["id"]) && AllHave(coll, "id")
    ensures var r := LegacyDelete(LegacyTexts(e), coll, d);
            r.Ok? && LegacyRead(e, r.value.coll, ById(d["id"])) == Ok(Fail(LegacyTexts(e).notFound))
  {
    var r := LegacyDelete(LegacyTexts(e), coll, d);
    var after := r.value.coll;
    forall j | 0 <= j < |after|
      ensures "id" in after[j] && !PyEq(after[j]["id"], d["id"])
    {
      if r.value.reply.status == Success {
        var k :| 0 <= k < |coll| && coll[k] == after[j];
        assert !GetMatches(after[j], "id", d["id"]);
      }
    }
  }
}

=== FILE: notas_hook.dfy ===
/** The note hook, `src/hooks/useNotas.ts`: the mapping of a note to its
    database row and the validation of the create and update handlers. */
module NotasHook {
  import opened Common
  import opened JsValues
  import opened ErrorHandling

  /** The fields of a note the hook reads; any of them may be absent. */
  datatype NotaInput = NotaInput(alumnoId: Opt<string>, fecha: Opt<string>, contenido: Opt<string>,
                                 tipo: Opt<string>, visibleEnReporte: Opt<bool>, calificacion: Opt<Num>)

  /** A value of a database row. */
  datatype Cell = Text(text: string) | Flag(flag: bool)

  /** A database row: the keys of the object literal, some holding `undefined`. */
  type Row = map<string, Opt<Cell>>

  function TextCell(v: Opt<string>): Opt<Cell> {
    match v
    case Undefined => Undefined
    case Null => Null
    case Given(s) => Given(Text(s))
  }

  function FlagCell(v: Opt<bool>): Opt<Cell> {
    match v
    case Undefined => Undefined
    case Null => Null
    case Given(b) => Given(Flag(b))
  }

  const RowKeys: set<string> := {"alumno_id", "fecha", "contenido", "tipo", "visible_en_reporte"}

  /** `mapNotaToDB`: five keys, two of them renamed, whatever the note holds. */
  function MapNotaToDB(n: NotaInput): (r: Row)
    ensures r.Keys == RowKeys
  {
    map["alumno_id" := TextCell(n.alumnoId), "fecha" := TextCell(n.fecha), "contenido" := TextCell(n.contenido),
        "tipo" := TextCell(n.tipo), "visible_en_reporte" := FlagCell(n.visibleEnReporte)]
  }

  function TextOf(v: Opt<Cell>): Opt<string> {
    match v
    case Undefined => Undefined
    case Null => Null
    case Given(c) => if c.Text? then Given(c.text) else Undefined
  }

  function FlagOf(v: Opt<Cell>): Opt<bool> {
    match v
    case Undefined => Undefined
    case Null => Null
    case Given(c) => if c.Flag? then Given(c.flag) else Undefined
  }

  /** A note read back from its row, under the front end's names. */
  function NotaOfRow(r: Row): NotaInput
    requires RowKeys <= r.Keys
  {
    NotaInput(TextOf(r["alumno_id"]), TextOf(r["fecha"]), TextOf(r["contenido"]), TextOf(r["tipo"]),
              FlagOf(r["visible_en_reporte"]), Undefined)
  }

  /** The row keeps every mapped field, so reading it back gives the note with
      only its grade dropped. */
  lemma MapNotaRoundTrip(n: NotaInput)
    ensures NotaOfRow(MapNotaToDB(n)) == n.(calificacion := Undefined)
  {
    var r := MapNotaToDB(n);
    assert r["alumno_id"] == TextCell(n.alumnoId) && r["visible_en_reporte"] == FlagCell(n.visibleEnReporte);
    assert r["fecha"] == TextCell(n.fecha) && r["contenido"] == TextCell(n.contenido) && r["tipo"] == TextCell(n.tipo);
  }

  /** A given grade, `null` counting as 0, lies in 1..10 (or is NaN). */
  predicate GradeOk(c: Opt<Num>) {
    c.Undefined? || Within(ToNum(c), Fin(1.0), Fin(10.0))
  }

  function GradeCheck(c: Opt<Num>): Check {
    if c.Undefined? then Pass else ValidateNumericRange(ToNum(c), Fin(1.0), Fin(10.0), "calificación")
  }

  /** `handleCreateNota`: student, date and type are required, and a grade, if
      given, is checked. The mutation it then runs takes no argument and sends
      nothing, so a submission carries no value. */
  function HandleCreateNota(n: NotaInput): (r: Outcome<()>)
    ensures r.Submitted? <==> n.alumnoId.Given? && n.fecha.Given? && n.tipo.Given? && GradeOk(n.calificacion)
    ensures !n.alumnoId.Given? ==>
      r == Rejected(HandleDatabaseError(Unexpected, ValidateRequired(n.alumnoId, "alumnoId").message, "crear nota"))
    ensures n.alumnoId.Given? && !n.fecha.Given? ==>
      r == Rejected(HandleDatabaseError(Unexpected, ValidateRequired(n.fecha, "fecha").message, "crear nota"))
    ensures n.alumnoId.Given? && n.fecha.Given? && !n.tipo.Given? ==>
      r == Rejected(HandleDatabaseError(Unexpected, ValidateRequired(n.tipo, "tipo").message, "crear nota"))
    ensures n.alumnoId.Given? && n.fecha.Given? && n.tipo.Given? && !GradeOk(n.calificacion) ==>
      r == Rejected(HandleDatabaseError(Unexpected, GradeCheck(n.calificacion).message, "crear nota"))
  {
    var c := Then(ValidateRequired(n.alumnoId, "alumnoId"),
             Then(ValidateRequired(n.fecha, "fecha"),
             Then(ValidateRequired(n.tipo, "tipo"), GradeCheck(n.calificacion))));
    if c.Fail? then Rejected(HandleDatabaseError(Unexpected, c.message, "crear nota")) else Submitted(())
  }

  /** `handleUpdateNota`: no field is required; only a given grade is
      checked. Neither the id nor the note reaches the mutation, which takes
      no argument. */
  function HandleUpdateNota(id: string, n: NotaInput): (r: Outcome<()>)
    ensures r.Submitted? <==> GradeOk(n.calificacion)
    ensures r.Rejected? ==>
      r.message == HandleDatabaseError(Unexpected, GradeCheck(n.calificacion).message, "actualizar nota")
  {
    var c := GradeCheck(n.calificacion);
    if c.Fail? then Rejected(HandleDatabaseError(Unexpected, c.message, "actualizar nota")) else Submitted(())
  }

  /** Create and update judge a grade alike; a grade of 0 or 11 is refused by both. */
  lemma GradeRangeShared(n: NotaInput, id: string)
    requires n.alumnoId.Given? && n.fecha.Given? && n.tipo.Given?
    ensures HandleCreateNota(n).Submitted? <==> HandleUpdateNota(id, n).Submitted?
    ensures n.calificacion == Given(Fin(0.0)) || n.calificacion == Given(Fin(11.0)) ==>
              HandleCreateNota(n).Rejected? && HandleUpdateNota(id, n).Rejected?
  {
  }
}

=== FILE: pagination.dfy ===
/** Client-side pagination, `src/hooks/usePagination.ts`: the slice shown for
    the current page, the page count, and the page moves. The React state is
    the page number threaded through `Step`. */
module Pagination {

  function Max(a: int, b: int): int { if a < b then b else a }
  function Min(a: int, b: int): int { if a < b then a else b }

  /** A slice bound as `Array.prototype.slice` resolves it: negative bounds
      count from the end, and every bound is clipped to the array. */
  function SliceBound(i: int, len: nat): (r: nat)
    ensures r <= len
    ensures i >= 0 ==> r == Min(i, len)
    ensures i < 0 ==> r == Max(len + i, 0)
  {
    if i < 0 then Max(len + i, 0) else Min(i, len)
  }

  /** `items.slice(start, end)`. */
  function Slice<T>(items: seq<T>, start: int, end: int): (r: seq<T>)
    ensures 0 <= start <= end ==> r == items[Min(start, |items|)..Min(end, |items|)]
    ensures |r| <= |items|
  {
    var lo, hi := SliceBound(start, |items|), SliceBound(end, |items|);
    if lo < hi then items[lo..hi] else []
  }

  /** `paginatedItems` for the page `currentPage`. */
  function PageItems<T>(items: seq<T>, currentPage: int, itemsPerPage: nat): (r: seq<T>)
    requires itemsPerPage > 0
    ensures currentPage >= 1 ==>
              r == items[Min((currentPage - 1) * itemsPerPage, |items|)..Min(currentPage * itemsPerPage, |items|)]
    ensures currentPage >= 0 ==> |r| <= itemsPerPage
    ensures currentPage == 0 ==> r == []
  {
    var startIndex := (currentPage - 1) * itemsPerPage;
    var endIndex := startIndex + itemsPerPage;
    assert currentPage >= 1 ==> 0 <= startIndex <= endIndex == currentPage * itemsPerPage by {
      if currentPage >= 1 {
        MulStep(currentPage, itemsPerPage);
      }
    }
    Slice(items, startIndex, endIndex)
  }

  /** One more page is `m` more items. */
  lemma MulStep(k: nat, m: nat)
    requires k >= 1
    ensures 0 <= (k - 1) * m && k * m == (k - 1) * m + m
  {
  }

  /** The page count: the item count divided by the page size, rounded up. */
  function TotalPages(length: nat, itemsPerPage: nat): (r: nat)
    requires itemsPerPage > 0
    ensures (r - 1) * itemsPerPage < length <= r * itemsPerPage || (length == 0 && r == 0)
  {
    CeilBounds(length, itemsPerPage);
    (length + itemsPerPage - 1) / itemsPerPage
  }

  lemma CeilBounds(length: nat, k: nat)
    requires k > 0
    ensures var r := (length + k - 1) / k;
            (r - 1) * k < length <= r * k || (length == 0 && r == 0)
  {
    var r := (length + k - 1) / k;
    var m := (length + k - 1) % k;
    assert length + k - 1 == r * k + m;
    assert (r - 1) * k == r * k - k;
  }

  /** The moves the hook offers. */
  datatype Move = Next | Prev | GoTo(page: int)

  /** The page after a move: `nextPage` stops at the last page, `prevPage` at
      page 1, and `goToPage` clamps into `1..totalPages`, landing on 1 even
      when there are no pages. */
  function Step(currentPage: int, totalPages: nat, move: Move): (r: int)
    ensures move.Next? ==> r == Min(currentPage + 1, totalPages) && r <= totalPages
    ensures move.Prev? ==> r == Max(currentPage - 1, 1) && r >= 1
    ensures move.GoTo? ==> r == Max(1, Min(move.page, totalPages)) && 1 <= r <= Max(totalPages, 1)
  {
    match move
    case Next => Min(currentPage + 1, totalPages)
    case Prev => Max(currentPage - 1, 1)
    case GoTo(page) => Max(1, Min(page, totalPages))
  }

  /** `nextPage` on an empty list lands on page 0; `goToPage` lands on 1. */
  lemma EmptyListMoves(currentPage: int, page: int)
    requires currentPage >= 0
    ensures Step(currentPage, 0, Next) == 0
    ensures Step(currentPage, 0, GoTo(page)) == 1
  {
  }

  /** The pages the hook can be on: never negative, and past the last page
      only when that is page 0 or 1 (the start, or an empty list). */
  predicate Reachable(currentPage: int, totalPages: nat) {
    0 <= currentPage && (currentPage <= totalPages || currentPage <= 1)
  }

  function Run(currentPage: int, totalPages: nat, moves: seq<Move>): int
    decreases |moves|
  {
    if |moves| == 0 then currentPage else Run(Step(currentPage, totalPages, moves[0]), totalPages, moves[1..])
  }

  /** Whatever the moves, starting from page 1 keeps the hook on a reachable
      page, so the slice shown never holds more than `itemsPerPage` items. */
  lemma {:induction false} MovesStayReachable(currentPage: int, totalPages: nat, moves: seq<Move>)
    requires Reachable(currentPage, totalPages)
    ensures Reachable(Run(currentPage, totalPages, moves), totalPages)
    decreases |moves|
  {
    if |moves| > 0 {
      MovesStayReachable(Step(currentPage, totalPages, moves[0]), totalPages, moves[1..]);
    }
  }

  lemma ReachablePageFits<T>(items: seq<T>, itemsPerPage: nat, moves: seq<Move>)
    requires itemsPerPage > 0
    ensures |PageItems(items, Run(1, TotalPages(|items|, itemsPerPage), moves), itemsPerPage)| <= itemsPerPage
  {
    MovesStayReachable(1, TotalPages(|items|, itemsPerPage), moves);
  }

  /** Pages 1 to `k`, one after another. */
  function PagesUpTo<T>(items: seq<T>, itemsPerPage: nat, k: nat): seq<T>
    requires itemsPerPage > 0
  {
    if k == 0 then [] else PagesUpTo(items, itemsPerPage, k - 1) + PageItems(items, k, itemsPerPage)
  }

  lemma {:induction false} PagesUpToPrefix<T>(items: seq<T>, itemsPerPage: nat, k: nat)
    requires itemsPerPage > 0
    ensures PagesUpTo(items, itemsPerPage, k) == items[..Min(k * itemsPerPage, |items|)]
  {
    if k > 0 {
      var m := itemsPerPage;
      PagesUpToPrefix(items, m, k - 1);
      var lo, hi := (k - 1) * m, k * m;
      MulStep(k, m);
      var a, b := Min(lo, |items|), Min(hi, |items|);
      assert PageItems(items, k, m) == items[a..b];
      assert PagesUpTo(items, m, k) == items[..a] + items[a..b];
      assert items[..a] + items[a..b] == items[..b];
    }
  }

  /** The pages, read one after another, are the whole list, each item once. */
  lemma PagesCoverItems<T>(items: seq<T>, itemsPerPage: nat)
    requires itemsPerPage > 0
    ensures PagesUpTo(items, itemsPerPage, TotalPages(|items|, itemsPerPage)) == items
  {
    PagesUpToPrefix(items, itemsPerPage, TotalPages(|items|, itemsPerPage));
  }
}

=== FILE: pagos_hook.dfy ===
/** The validation in the payment hook, `src/hooks/usePagos.ts`. A handler
    either hands its argument to the mutation or throws the validation error
    wrapped by `handleDatabaseError`; the mutation itself is a remote call and
    is not modelled. */
module PagosHook {
  import opened Common
  import opened JsValues
  import opened ErrorHandling
  import Pagination

  /** The fields of a payment the hook checks; any of them may be absent. */
  datatype PagoInput = PagoInput(alumnoId: Opt<string>, fecha: Opt<string>, monto: Opt<Num>,
                                 metodoPago: Opt<string>, estado: Opt<string>, mes: Opt<Num>, anio: Opt<Num>)

  /** What the create handlers accept: every field present, the amount not
      negative, the month in 1..12 and the year in 2000..2100. */
  predicate ValidPago(p: PagoInput) {
    Present(p) && InRanges(p)
  }

  predicate Present(p: PagoInput) {
    && p.alumnoId.Given? && p.fecha.Given? && p.monto.Given? && p.metodoPago.Given?
    && p.estado.Given? && p.mes.Given? && p.anio.Given?
  }

  predicate InRanges(p: PagoInput) {
    && Within(ToNum(p.monto), Zero, Unbounded)
    && Within(ToNum(p.mes), January, December)
    && Within(ToNum(p.anio), FirstYear, LastYear)
  }

  const Zero: Limit := Fin(0.0)
  const Unbounded: Limit := PosInf
  const January: Limit := Fin(1.0)
  const December: Limit := Fin(12.0)
  const FirstYear: Limit := Fin(2000.0)
  const LastYear: Limit := Fin(2100.0)

  /** The seven presence checks, in order. */
  function PresenceChecks(p: PagoInput, suffix: string): (r: Check)
    ensures r.Pass? <==> Present(p)
  {
    Then(ValidateRequired(p.alumnoId, "alumnoId" + suffix),
    Then(ValidateRequired(p.fecha, "fecha" + suffix),
    Then(ValidateRequired(p.monto, "monto" + suffix),
    Then(ValidateRequired(p.metodoPago, "metodoPago" + suffix),
    Then(ValidateRequired(p.estado, "estado" + suffix),
    Then(ValidateRequired(p.mes, "mes" + suffix),
         ValidateRequired(p.anio, "año" + suffix)))))))
  }

  /** The three range checks, in order. */
  function RangeChecks(p: PagoInput, suffix: string): (r: Check)
    ensures r.Pass? <==> InRanges(p)
  {
    Then(ValidateNumericRange(ToNum(p.monto), Zero, Unbounded, "monto" + suffix),
    Then(ValidateNumericRange(ToNum(p.mes), January, December, "mes" + suffix),
         ValidateNumericRange(ToNum(p.anio), FirstYear, LastYear, "año" + suffix)))
  }

  /** The ten validators of a payment, in order, each field name followed by
      `suffix`. */
  function PagoChecks(p: PagoInput, suffix: string): (r: Check)
    ensures r.Pass? <==> ValidPago(p)
    ensures !p.alumnoId.Given? ==> r == Fail("El campo " + ("alumnoId" + suffix) + " es requerido")
  {
    Then(PresenceChecks(p, suffix), RangeChecks(p, suffix))
  }

  /** `handleCreatePago`: the mutation runs with the payment exactly when it is
      valid; otherwise the first failing check is reported. */
  function HandleCreatePago(p: PagoInput): (r: Outcome<PagoInput>)
    ensures r.Submitted? <==> ValidPago(p)
    ensures r.Submitted? ==> r.arg == p
    ensures r.Rejected? ==> r.message == HandleDatabaseError(Unexpected, PagoChecks(p, "").message, "crear pago")
  {
    var c := PagoChecks(p, "");
    if c.Fail? then Rejected(HandleDatabaseError(Unexpected, c.message, "crear pago")) else Submitted(p)
  }

  /** A payment with a missing field never reaches the mutation. */
  lemma CreateRejectsMissing(p: PagoInput)
    requires Nullish(p.alumnoId) || Nullish(p.fecha) || Nullish(p.monto) || Nullish(p.metodoPago)
             || Nullish(p.estado) || Nullish(p.mes) || Nullish(p.anio)
    ensures HandleCreatePago(p).Rejected?
  {
  }

  /** The suffix naming the `index`-th element (from 0) of a batch, counted from 1. */
  function InBatch(index: nat): string {
    " en pago " + IntToString(index + 1)
  }

  /** Payment `i` is the first invalid one of the batch, and `message` is what
      its failing check reports. */
  predicate FirstBad(pagos: seq<PagoInput>, i: int, message: string) {
    && 0 <= i < |pagos| && !ValidPago(pagos[i])
    && (forall j :: 0 <= j < i ==> ValidPago(pagos[j]))
    && message == HandleDatabaseError(Unexpected, PagoChecks(pagos[i], InBatch(i)).message, "crear pagos en lote")
  }

  /** `handleCreatePagosBulk`: every element is checked in order, naming it by
      its position from 1; the first bad one rejects the whole batch before
      anything is inserted. */
  method HandleCreatePagosBulk(pagos: seq<PagoInput>) returns (r: Outcome<seq<PagoInput>>)
    ensures r.Submitted? <==> forall i :: 0 <= i < |pagos| ==> ValidPago(pagos[i])
    ensures r.Submitted? ==> r.arg == pagos
    ensures r.Rejected? ==> exists i :: FirstBad(pagos, i, r.message)
  {
    var index := 0;
    while index < |pagos|
      invariant 0 <= index <= |pagos|
      invariant forall j :: 0 <= j < index ==> ValidPago(pagos[j])
    {
      var c := PagoChecks(pagos[index], InBatch(index));
      if c.Fail? {
        r := Rejected(HandleDatabaseError(Unexpected, c.message, "crear pagos en lote"));
        assert FirstBad(pagos, index, r.message);
        return;
      }
      index := index + 1;
    }
    r := Submitted(pagos);
  }

  /** `handleUpdatePago`: only the fields present are range-checked, and
      none is required. A `null` field is present and compares as 0, so a
      `null` month or year is rejected while a `null` amount passes. */
  function HandleUpdatePago(id: string, data: PagoInput): (r: Outcome<(string, PagoInput)>)
    ensures r.Submitted? <==>
              && (data.monto.Undefined? || Within(ToNum(data.monto), Zero, Unbounded))
              && (data.mes.Undefined? || Within(ToNum(data.mes), January, December))
              && (data.anio.Undefined? || Within(ToNum(data.anio), FirstYear, LastYear))
    ensures r.Submitted? ==> r.arg == (id, data)
    ensures !data.monto.Undefined? && !Within(ToNum(data.monto), Zero, Unbounded) ==>
      r == Rejected(HandleDatabaseError(Unexpected,
             ValidateNumericRange(ToNum(data.monto), Zero, Unbounded, "monto").message, "actualizar pago"))
    ensures (data.monto.Undefined? || Within(ToNum(data.monto), Zero, Unbounded))
            && !data.mes.Undefined? && !Within(ToNum(data.mes), January, December) ==>
      r == Rejected(HandleDatabaseError(Unexpected,
             ValidateNumericRange(ToNum(data.mes), January, December, "mes").message, "actualizar pago"))
    ensures (data.monto.Undefined? || Within(ToNum(data.monto), Zero, Unbounded))
            && (data.mes.Undefined? || Within(ToNum(data.mes), January, December))
            && !data.anio.Undefined? && !Within(ToNum(data.anio), FirstYear, LastYear) ==>
      r == Rejected(HandleDatabaseError(Unexpected,
             ValidateNumericRange(ToNum(data.anio), FirstYear, LastYear, "año").message, "actualizar pago"))
  {
    var c1 := if data.monto.Undefined? then Pass else ValidateNumericRange(ToNum(data.monto), Zero, Unbounded, "monto");
    var c2 := if data.mes.Undefined? then Pass else ValidateNumericRange(ToNum(data.mes), January, December, "mes");
    var c3 := if data.anio.Undefined? then Pass else ValidateNumericRange(ToNum(data.anio), FirstYear, LastYear, "año");
    var c := Then(c1, Then(c2, c3));
    if c.Fail? then Rejected(HandleDatabaseError(Unexpected, c.message, "actualizar pago")) else Submitted((id, data))
  }

  /** An update that names no numeric field always goes through. */
  lemma UpdateRequiresNothing(id: string, alumnoId: Opt<string>, fecha: Opt<string>)
    ensures HandleUpdatePago(id, PagoInput(alumnoId, fecha, Undefined, Undefined, Undefined, Undefined, Undefined)).Submitted?
  {
  }

  /** The hook's `totalPages`: 1 before any data, else `ceil(total / (pageSize || 10))`. */
  function TotalPages(total: Option<nat>, pageSize: Option<nat>): (r: nat)
    ensures total.None? ==> r == 1
    ensures total.Some? ==>
              var n := if pageSize.Some? && pageSize.value != 0 then pageSize.value else 10;
              (r - 1) * n < total.value <= r * n || (total.value == 0 && r == 0)
  {
    if total.None? then 1
    else
      var n := if pageSize.Some? && pageSize.value != 0 then pageSize.value else 10;
      Pagination.TotalPages(total.value, n)
  }
}

=== FILE: payment_order.dfy ===
/** The ordering `crud_pagos` applies to a student's payments: a stable
    sort by payment date, newest first, where a missing date counts as the
    minimal date `0000-00-00`. */
module PaymentOrder {
  import opened Common
  import opened PyValue

  /** The sort key: the payment date, or the minimal date when it is missing. */
  function FechaKey(p: Record): Value {
    Get(p, "fecha", Str("0000-00-00"))
  }

  /** Newest first under `key`: no later element has a greater key. */
  predicate SortedBy<T>(s: seq<T>, key: T -> Value) {
    forall i, j :: 0 <= i < j < |s| ==> KeyLe(key(s[j]), key(s[i]))
  }

  predicate SortedDesc(s: seq<Record>) {
    SortedBy(s, FechaKey)
  }

  /** Whether Python can compare every pair of keys. With fewer than two
      payments `sorted` compares nothing; otherwise a `None` key, or a string
      next to a number, raises `TypeError`. */
  predicate SortableKeys(s: seq<Record>) {
    || |s| <= 1
    || (forall i :: 0 <= i < |s| ==> FechaKey(s[i]).Str?)
    || (forall i :: 0 <= i < |s| ==> IsNumeric(FechaKey(s[i])))
  }

  /** Places `x` before the first element whose key is not greater than its own. */
  function InsertBy<T(==)>(x: T, t: seq<T>, key: T -> Value): (r: seq<T>)
    ensures |r| == |t| + 1
    ensures multiset(r) == multiset(t) + multiset{x}
    decreases |t|
  {
    if |t| == 0 then [x]
    else if KeyLe(key(t[0]), key(x)) then [x] + t
    else
      assert t == [t[0]] + t[1..];
      [t[0]] + InsertBy(x, t[1..], key)
  }

  /** Stable descending insertion sort by `key`. */
  function SortBy<T(==)>(s: seq<T>, key: T -> Value): (r: seq<T>)
    ensures |r| == |s|
    ensures multiset(r) == multiset(s)
    decreases |s|
  {
    if |s| == 0 then []
    else
      assert s == [s[0]] + s[1..];
      InsertBy(s[0], SortBy(s[1..], key), key)
  }

  /** The payments sorted by date, newest first. */
  function SortDesc(s: seq<Record>): (r: seq<Record>)
    ensures |r| == |s|
    ensures multiset(r) == multiset(s)
  {
    SortBy(s, FechaKey)
  }

  /** An element whose key is at least every key of a sorted list may lead it. */
  lemma ConsSortedBy<T>(y: T, tail: seq<T>, key: T -> Value)
    requires SortedBy(tail, key)
    requires forall j :: 0 <= j < |tail| ==> KeyLe(key(tail[j]), key(y))
    ensures SortedBy([y] + tail, key)
  {
    var r := [y] + tail;
    forall i, j | 0 <= i < j < |r|
      ensures KeyLe(key(r[j]), key(r[i]))
    {
      assert r[j] == tail[j - 1];
      if i > 0 { assert r[i] == tail[i - 1]; }
    }
  }

  lemma {:induction false} InsertBySorted<T>(x: T, t: seq<T>, key: T -> Value)
    requires SortedBy(t, key)
    ensures SortedBy(InsertBy(x, t, key), key)
    decreases |t|
  {
    if |t| > 0 {
      if KeyLe(key(t[0]), key(x)) {
        forall j | 0 <= j < |t|
          ensures KeyLe(key(t[j]), key(x))
        {
          if j > 0 {
            KeyLeTransitive(key(t[j]), key(t[0]), key(x));
          }
        }
        ConsSortedBy(x, t, key);
      } else {
        KeyLeTotal(key(t[0]), key(x));
        assert SortedBy(t[1..], key) by {
          forall i, j | 0 <= i < j < |t[1..]| ensures KeyLe(key(t[1..][j]), key(t[1..][i])) {
            assert t[1..][i] == t[i + 1] && t[1..][j] == t[j + 1];
          }
        }
        InsertBySorted(x, t[1..], key);
        var tail := InsertBy(x, t[1..], key);
        forall j | 0 <= j < |tail|
          ensures KeyLe(key(tail[j]), key(t[0]))
        {
          assert tail[j] in multiset(tail);
          assert tail[j] == x || tail[j] in multiset(t[1..]);
          if tail[j] != x {
            var k :| 0 <= k < |t[1..]| && t[1..][k] == tail[j];
            assert t[k + 1] == tail[j];
          }
        }
        ConsSortedBy(t[0], tail, key);
      }
    }
  }

  lemma {:induction false} SortBySorted<T>(s: seq<T>, key: T -> Value)
    ensures SortedBy(SortBy(s, key), key)
    decreases |s|
  {
    if |s| > 0 {
      SortBySorted(s[1..], key);
      InsertBySorted(s[0], SortBy(s[1..], key), key);
    }
  }

  /** The sort leaves the payments newest first. */
  lemma SortDescSorted(s: seq<Record>)
    ensures SortedDesc(SortDesc(s))
  {
    SortBySorted(s, FechaKey);
  }

  /** The elements of `s` whose key `sorted` treats as equal to `v`, in order. */
  function ClassBy<T>(s: seq<T>, key: T -> Value, v: Value): (r: seq<T>)
    ensures |r| <= |s|
    decreases |s|
  {
    if |s| == 0 then []
    else (if SameKey(key(s[0]), v) then [s[0]] else []) + ClassBy(s[1..], key, v)
  }

  function KeyClass(s: seq<Record>, v: Value): (r: seq<Record>)
    ensures |r| <= |s|
  {
    ClassBy(s, FechaKey, v)
  }

  /** The head of a class is the first element of `s` with a key equal to `v`. */
  lemma {:induction false} ClassByFirst<T>(s: seq<T>, key: T -> Value, v: Value)
    requires |ClassBy(s, key, v)| > 0
    ensures exists i :: 0 <= i < |s| && ClassBy(s, key, v)[0] == s[i] && SameKey(key(s[i]), v)
                        && forall j :: 0 <= j < i ==> !SameKey(key(s[j]), v)
    decreases |s|
  {
    if SameKey(key(s[0]), v) {
      assert ClassBy(s, key, v)[0] == s[0];
    } else {
      assert ClassBy(s, key, v) == ClassBy(s[1..], key, v);
      ClassByFirst(s[1..], key, v);
      var i :| 0 <= i < |s[1..]| && ClassBy(s[1..], key, v)[0] == s[1..][i] && SameKey(key(s[1..][i]), v)
               && forall j :: 0 <= j < i ==> !SameKey(key(s[1..][j]), v);
      assert forall j :: 0 <= j < i + 1 ==> !SameKey(key(s[j]), v) by {
        forall j | 0 <= j < i + 1 ensures !SameKey(key(s[j]), v) {
          if j > 0 { assert s[j] == s[1..][j - 1]; }
        }
      }
      assert ClassBy(s, key, v)[0] == s[i + 1];
    }
  }

  lemma {:induction false} InsertByClass<T>(x: T, t: seq<T>, key: T -> Value, v: Value)
    ensures ClassBy(InsertBy(x, t, key), key, v)
         == (if SameKey(key(x), v) then [x] else []) + ClassBy(t, key, v)
    decreases |t|
  {
    if |t| == 0 {
    } else if KeyLe(key(t[0]), key(x)) {
      ClassByCons(x, t, key, v);
    } else {
      InsertByClass(x, t[1..], key, v);
      ClassByCons(t[0], InsertBy(x, t[1..], key), key, v);
      ClassByCons(t[0], t[1..], key, v);
      assert [t[0]] + t[1..] == t;
      SameKeyExclusive(key(t[0]), key(x), v);
    }
  }

  lemma ClassByCons<T>(x: T, t: seq<T>, key: T -> Value, v: Value)
    ensures ClassBy([x] + t, key, v) == (if SameKey(key(x), v) then [x] else []) + ClassBy(t, key, v)
  {
    assert ([x] + t)[1..] == t;
  }

  lemma SameKeyExclusive(lower: Value, upper: Value, v: Value)
    requires !KeyLe(lower, upper)
    ensures !(SameKey(upper, v) && SameKey(lower, v))
  {
    if SameKey(upper, v) && SameKey(lower, v) {
      KeyLeTransitive(lower, v, upper);
    }
  }

  lemma {:induction false} SortByStable<T>(s: seq<T>, key: T -> Value, v: Value)
    ensures ClassBy(SortBy(s, key), key, v) == ClassBy(s, key, v)
    decreases |s|
  {
    if |s| > 0 {
      SortByStable(s[1..], key, v);
      InsertByClass(s[0], SortBy(s[1..], key), key, v);
    }
  }

  /** Stability: payments with equal dates keep their storage order. */
  lemma SortDescStable(s: seq<Record>, v: Value)
    ensures KeyClass(SortDesc(s), v) == KeyClass(s, v)
  {
    SortByStable(s, FechaKey, v);
  }

  /** The first payment of the sorted list carries the latest date. */
  lemma SortDescHeadIsLatest(s: seq<Record>)
    requires |s| > 0
    ensures SortDesc(s)[0] in s
    ensures forall i :: 0 <= i < |s| ==> KeyLe(FechaKey(s[i]), FechaKey(SortDesc(s)[0]))
  {
    var r := SortDesc(s);
    SortDescSorted(s);
    assert r[0] in multiset(s);
    forall i | 0 <= i < |s|
      ensures KeyLe(FechaKey(s[i]), FechaKey(r[0]))
    {
      assert s[i] in multiset(r);
      var j :| 0 <= j < |r| && r[j] == s[i];
      if j > 0 {
        assert KeyLe(FechaKey(r[j]), FechaKey(r[0]));
      } else {
        KeyLeTotal(FechaKey(r[0]), FechaKey(r[0]));
      }
    }
  }
}

=== FILE: price_history_form.dfy ===
/** The price-history form, `src/components/precios/PriceHistoryForm.tsx`:
    the overlap check against the prices already on record and the order of
    the submit-time validations. Dates are day numbers; an empty date field
    is `NoDate`. */
module PriceHistoryForm {
  import opened Common
  import opened JsValues
  import opened ErrorHandling

  /** A date field: empty, or the day it names. */
  datatype Day = NoDate | On(day: int)

  /** A price on record: it starts on `desde` and ends on `hasta`, or never. */
  datatype Precio = Precio(id: string, desde: int, hasta: Day)

  /** The fields of the form the submit handler looks at. */
  datatype PriceForm = PriceForm(alumnoId: string, precio: Num, fechaDesde: Day, fechaHasta: Day)

  const OverlapMessage: string := "Las fechas se solapan con otro precio registrado."

  /** The overlap test of `validateFechas` for a range starting on `desde`. */
  predicate Clash(desde: int, hasta: Day, p: Precio) {
    && (p.hasta.NoDate? || hasta.NoDate? || hasta.day >= p.desde)
    && (hasta.NoDate? || p.hasta.NoDate? || desde <= p.hasta.day)
  }

  /** The price being edited is not compared with itself. */
  predicate Skipped(editingId: string, p: Precio) {
    editingId != "" && p.id == editingId
  }

  /** `validateFechas`: the message as soon as one price on record clashes,
      `null` when none does. */
  function ValidateFechas(desde: int, hasta: Day, editingId: string, existing: seq<Precio>): (r: Option<string>)
    ensures r.Some? <==> exists i :: 0 <= i < |existing| && !Skipped(editingId, existing[i]) && Clash(desde, hasta, existing[i])
    ensures r.Some? ==> r.value == OverlapMessage
  {
    if |existing| == 0 then None
    else if !Skipped(editingId, existing[0]) && Clash(desde, hasta, existing[0]) then Some(OverlapMessage)
    else
      var rest := ValidateFechas(desde, hasta, editingId, existing[1..]);
      assert forall i :: 1 <= i < |existing| ==> existing[i] == existing[1..][i - 1];
      rest
  }

  /** Whether day `d` lies in a range that ends on `hasta`, or never. */
  predicate Covers(desde: int, hasta: Day, d: int) {
    desde <= d && (hasta.NoDate? || d <= hasta.day)
  }

  /** Two closed ranges clash exactly when they share a day. */
  lemma ClosedClashIffShareDay(desde: int, hasta: int, p: Precio)
    requires desde <= hasta && p.hasta.On? && p.desde <= p.hasta.day
    ensures Clash(desde, On(hasta), p) <==> exists d :: Covers(desde, On(hasta), d) && Covers(p.desde, p.hasta, d)
  {
    if Clash(desde, On(hasta), p) {
      var d := if desde < p.desde then p.desde else desde;
      assert Covers(desde, On(hasta), d) && Covers(p.desde, p.hasta, d);
    }
  }

  /** If either range is open-ended the two always clash, even when the open
      range starts after the other has ended: the test over-approximates. */
  lemma OpenEndedAlwaysClashes(desde: int, hasta: Day, p: Precio)
    requires hasta.NoDate? || p.hasta.NoDate?
    ensures Clash(desde, hasta, p)
  {
  }

  /** Ranges that share a day always clash. */
  lemma SharedDayClashes(desde: int, hasta: Day, p: Precio, d: int)
    requires Covers(desde, hasta, d) && Covers(p.desde, p.hasta, d)
    ensures Clash(desde, hasta, p)
  {
  }

  /** An open range that starts after a closed one has ended shares no day
      with it, yet clashes. */
  lemma OpenRangeAfterClosedClashes()
    ensures Clash(10, NoDate, Precio("p", 1, On(5)))
    ensures !Covers(1, On(5), 10) && forall d :: Covers(10, NoDate, d) ==> !Covers(1, On(5), d)
  {
  }

  /** `handleSubmit`: a blank student, then a missing or non-positive price,
      then an empty start date, then a clash, each stops the submit with its
      message; only a form that passes all four reaches `onSubmit`. */
  function HandleSubmit(form: PriceForm, editingId: string, existing: seq<Precio>): (r: Outcome<PriceForm>)
    ensures r.Submitted? <==>
              && Trim(form.alumnoId) != ""
              && NumTruthy(form.precio) && Lt(Fin(0.0), form.precio)
              && form.fechaDesde.On?
              && ValidateFechas(form.fechaDesde.day, form.fechaHasta, editingId, existing).None?
    ensures r.Submitted? ==> r.arg == form
    ensures Trim(form.alumnoId) == "" ==>
              r == Rejected("Debe seleccionarse un alumno válido para el historial de precios.")
    ensures Trim(form.alumnoId) != "" && (!NumTruthy(form.precio) || !Lt(Fin(0.0), form.precio)) ==>
              r == Rejected("El precio debe ser mayor a 0")
    ensures Trim(form.alumnoId) != "" && NumTruthy(form.precio) && Lt(Fin(0.0), form.precio) && form.fechaDesde.NoDate? ==>
              r == Rejected("La fecha de inicio es obligatoria")
  {
    if form.alumnoId == "" || Trim(form.alumnoId) == "" then
      Rejected("Debe seleccionarse un alumno válido para el historial de precios.")
    else if !NumTruthy(form.precio) || Le(form.precio, Fin(0.0)) then
      Rejected("El precio debe ser mayor a 0")
    else if form.fechaDesde.NoDate? then
      Rejected("La fecha de inicio es obligatoria")
    else
      var fechasError := ValidateFechas(form.fechaDesde.day, form.fechaHasta, editingId, existing);
      if fechasError.Some? then Rejected(fechasError.value) else Submitted(form)
  }

  /** Editing a price never clashes with its own record. */
  lemma EditedRecordIgnored(form: PriceForm, p: Precio)
    requires p.id != "" && form.fechaDesde.On?
    ensures ValidateFechas(form.fechaDesde.day, form.fechaHasta, p.id, [p]).None?
  {
  }
}

=== FILE: pyvalue.dfy ===
/** The JSON-like values the agent tools store and receive, with the Python
    semantics the tools rely on: truthiness, `==` (where `True == 1`), `str()`
    and `dict.get` with a default. */
module PyValue {
  import opened Common

  datatype Value = Null | Bool(b: bool) | Num(n: int) | Str(s: string)

  /** One stored record (a JSON object). */
  type Record = map<string, Value>

  /** Python truthiness of a value. */
  predicate Truthy(v: Value) {
    match v
    case Null => false
    case Bool(b) => b
    case Num(n) => n != 0
    case Str(s) => |s| > 0
  }

  /** `bool` is a subtype of `int` in Python. */
  predicate IsNumeric(v: Value) {
    v.Bool? || v.Num?
  }

  function NumericOf(v: Value): int
    requires IsNumeric(v)
  {
    if v.Bool? then (if v.b then 1 else 0) else v.n
  }

  /** Python `a == b` on values. */
  predicate PyEq(a: Value, b: Value) {
    if IsNumeric(a) && IsNumeric(b) then NumericOf(a) == NumericOf(b) else a == b
  }

  lemma PyEqIsEquivalence(a: Value, b: Value, c: Value)
    ensures PyEq(a, a)
    ensures PyEq(a, b) == PyEq(b, a)
    ensures PyEq(a, b) && PyEq(b, c) ==> PyEq(a, c)
  {
  }

  /** `r.get(k, default)`. */
  function Get(r: Record, k: string, default: Value): (v: Value)
    ensures k in r ==> v == r[k]
    ensures k !in r ==> v == default
  {
    if k in r then r[k] else default
  }

  /** Python `str(v)`, as used by f-strings. */
  function PyStr(v: Value): string {
    match v
    case Null => "None"
    case Bool(b) => if b then "True" else "False"
    case Num(n) => IntToString(n)
    case Str(s) => s
  }

  // ---------------------------------------------------------------------------
  // The order `sorted` uses on keys. Python only compares strings with strings
  // and numbers with numbers; ranking the kinds (None < numbers < strings)
  // extends that to a total preorder, which agrees with Python wherever Python
  // does not raise.

  function Rank(v: Value): nat {
    match v
    case Null => 0
    case Bool(_) => 1
    case Num(_) => 1
    case Str(_) => 2
  }

  predicate KeyLe(a: Value, b: Value) {
    Rank(a) < Rank(b)
    || (Rank(a) == Rank(b)
        && (a.Null?
            || (IsNumeric(a) && IsNumeric(b) && NumericOf(a) <= NumericOf(b))
            || (a.Str? && b.Str? && StrLe(a.s, b.s))))
  }

  lemma KeyLeTotal(a: Value, b: Value)
    ensures KeyLe(a, b) || KeyLe(b, a)
  {
    if a.Str? && b.Str? {
      StrLtTotal(a.s, b.s);
    }
  }

  lemma KeyLeTransitive(a: Value, b: Value, c: Value)
    requires KeyLe(a, b) && KeyLe(b, c)
    ensures KeyLe(a, c)
  {
    if a.Str? && b.Str? && c.Str? && a.s != b.s && b.s != c.s {
      StrLtTransitive(a.s, b.s, c.s);
    }
  }

  /** Two keys `sorted` treats as equal. */
  predicate SameKey(a: Value, b: Value) {
    KeyLe(a, b) && KeyLe(b, a)
  }
}

=== FILE: query_utils.dfy ===
/** The query helpers of `src/utils/queryUtils.ts`. A Supabase query is the
    list of builder calls made on it; `Admits` reads the date filters back as
    the rows they let through. */
module QueryUtils {
  import opened Common
  import opened JsValues

  /** A builder call: `range`, `order`, `gte` or `lte`. */
  datatype Call = Range(from: int, to: int) | Order(column: string, ascending: bool)
                | Gte(column: string, bound: string) | Lte(column: string, bound: string)

  type Query = seq<Call>

  // ---------------------------------------------------------------------------
  // Pagination

  /** The `range(from, to)` of a page; `page` defaults to 1 and `pageSize` to 10
      when left `undefined`. */
  function PageRange(page: Option<int>, pageSize: Option<int>): (r: (int, int))
    ensures var p := if page.Some? then page.value else 1;
            var n := if pageSize.Some? then pageSize.value else 10;
            r.0 == (p - 1) * n && r.1 - r.0 + 1 == n
  {
    var p := if page.Some? then page.value else 1;
    var n := if pageSize.Some? then pageSize.value else 10;
    var from := (p - 1) * n;
    (from, from + n - 1)
  }

  /** `applyPagination`. */
  function ApplyPagination(q: Query, page: Option<int>, pageSize: Option<int>): (r: Query)
    ensures r == q + [Range(PageRange(page, pageSize).0, PageRange(page, pageSize).1)]
  {
    var (from, to) := PageRange(page, pageSize);
    q + [Range(from, to)]
  }

  /** Consecutive pages are adjacent: the next one starts right after this one ends. */
  lemma PagesAdjacent(page: int, pageSize: int)
    ensures PageRange(Some(page + 1), Some(pageSize)).0 == PageRange(Some(page), Some(pageSize)).1 + 1
  {
  }

  /** With a positive page size, every row from 0 on lies in exactly one page,
      page `i / pageSize + 1`. */
  lemma PageOfRow(page: int, pageSize: int, i: nat)
    requires pageSize > 0 && page >= 1
    ensures var (from, to) := PageRange(Some(page), Some(pageSize));
            from <= i <= to <==> page == i / pageSize + 1
  {
    var (from, to) := PageRange(Some(page), Some(pageSize));
    if from <= i <= to {
      DivUnique(i, pageSize, page - 1, i - from);
    }
  }

  // ---------------------------------------------------------------------------
  // Order and date range

  /** `applyOrder`: nothing without a column; otherwise one `order` call,
      descending unless `'asc'` is asked for. */
  function ApplyOrder(q: Query, orderBy: Option<string>, orderDirection: Option<string>): (r: Query)
    ensures (orderBy.None? || orderBy.value == "") ==> r == q
    ensures orderBy.Some? && orderBy.value != "" ==>
              r == q + [Order(orderBy.value, orderDirection == Some("asc"))]
  {
    if orderBy.None? || orderBy.value == "" then q
    else
      var direction := if orderDirection.Some? then orderDirection.value else "desc";
      q + [Order(orderBy.value, direction == "asc")]
  }

  /** The column a date range filters: the caller's, or `fecha` by default. */
  function DateColumn(dateField: Option<string>): string {
    if dateField.Some? then dateField.value else "fecha"
  }

  /** `applyDateRange`: a lower bound when `fechaDesde` is non-empty, then an
      upper bound when `fechaHasta` is, both on the date column. */
  function ApplyDateRange(q: Query, fechaDesde: Option<string>, fechaHasta: Option<string>,
                          dateField: Option<string>): (r: Query)
    ensures |q| <= |r| <= |q| + 2 && r[..|q|] == q
    ensures forall i :: |q| <= i < |r| ==>
              (r[i].Gte? || r[i].Lte?) && r[i].column == DateColumn(dateField)
  {
    var field := DateColumn(dateField);
    var q1 := if fechaDesde.Some? && fechaDesde.value != "" then q + [Gte(field, fechaDesde.value)] else q;
    if fechaHasta.Some? && fechaHasta.value != "" then q1 + [Lte(field, fechaHasta.value)] else q1
  }

  /** A row of dates by column. ISO dates compare as strings. */
  type Row = map<string, string>

  /** Whether every date filter of a query lets the row through. */
  predicate Admits(q: Query, row: Row) {
    forall i :: 0 <= i < |q| ==> CallAdmits(q[i], row)
  }

  predicate CallAdmits(c: Call, row: Row) {
    match c
    case Gte(col, b) => col in row && StrLe(b, row[col])
    case Lte(col, b) => col in row && StrLe(row[col], b)
    case _ => true
  }

  lemma AdmitsAppend(q: Query, c: Call, row: Row)
    ensures Admits(q + [c], row) <==> Admits(q, row) && CallAdmits(c, row)
  {
    assert forall i :: 0 <= i < |q| ==> (q + [c])[i] == q[i];
    assert (q + [c])[|q|] == c;
  }

  /** The rows a date range lets through are those whose date, in the
      caller's column or `fecha` by default, lies within each bound given,
      both bounds included; an empty bound filters nothing. */
  lemma DateRangeAdmits(q: Query, desde: Option<string>, hasta: Option<string>,
                        dateField: Option<string>, row: Row)
    ensures var r := ApplyDateRange(q, desde, hasta, dateField);
            var col := DateColumn(dateField);
            Admits(r, row) <==>
              && Admits(q, row)
              && (desde.Some? && desde.value != "" ==> col in row && StrLe(desde.value, row[col]))
              && (hasta.Some? && hasta.value != "" ==> col in row && StrLe(row[col], hasta.value))
  {
    var col := DateColumn(dateField);
    var q1 := if desde.Some? && desde.value != "" then q + [Gte(col, desde.value)] else q;
    if desde.Some? && desde.value != "" {
      AdmitsAppend(q, Gte(col, desde.value), row);
    }
    if hasta.Some? && hasta.value != "" {
      AdmitsAppend(q1, Lte(col, hasta.value), row);
    }
  }

  /** Ordering never changes which rows a query lets through. */
  lemma OrderKeepsRows(q: Query, orderBy: Option<string>, dir: Option<string>, row: Row)
    ensures Admits(ApplyOrder(q, orderBy, dir), row) <==> Admits(q, row)
  {
    if orderBy.Some? && orderBy.value != "" {
      AdmitsAppend(q, Order(orderBy.value, dir == Some("asc")), row);
    }
  }

  // ---------------------------------------------------------------------------
  // Where clause

  /** `buildWhereClause`: the entries whose value is neither `undefined` nor
      `null`, in their order. */
  function BuildWhereClause<V(!new)>(conditions: seq<(string, Opt<V>)>): (r: seq<(string, Opt<V>)>)
    ensures |r| <= |conditions|
    ensures forall e :: e in r <==> e in conditions && !Nullish(e.1)
  {
    if |conditions| == 0 then []
    else
      var rest := BuildWhereClause(conditions[1..]);
      assert forall e :: e in conditions <==> e == conditions[0] || e in conditions[1..];
      if Nullish(conditions[0].1) then rest else [conditions[0]] + rest
  }

  /** Building a where clause from a where clause changes nothing. */
  lemma {:induction false} BuildWhereClauseIdempotent<V(!new)>(conditions: seq<(string, Opt<V>)>)
    ensures BuildWhereClause(BuildWhereClause(conditions)) == BuildWhereClause(conditions)
  {
    if |conditions| > 0 {
      var rest := BuildWhereClause(conditions[1..]);
      BuildWhereClauseIdempotent(conditions[1..]);
      if !Nullish(conditions[0].1) {
        assert ([conditions[0]] + rest)[1..] == rest;
      }
    }
  }

  // ---------------------------------------------------------------------------
  // Batches

  lemma MulMono(x: int, y: int, k: int)
    requires x <= y && k >= 0
    ensures x * k <= y * k
  {
    var d := y - x;
    assert y * k == x * k + d * k;
  }

  /** The quotient and remainder of a division are the only ones that fit. */
  lemma DivUnique(a: int, k: int, q: int, r: int)
    requires k > 0 && a == q * k + r && 0 <= r < k
    ensures a / k == q && a % k == r
  {
    var q', r' := a / k, a % k;
    if q > q' {
      assert (q' + 1) * k == q' * k + k;
      MulMono(q' + 1, q, k);
      assert false;
    } else if q < q' {
      assert (q + 1) * k == q * k + k;
      MulMono(q + 1, q', k);
      assert false;
    }
  }

  /** `ceil(n / k)` as integer division. */
  lemma CeilDiv(n: nat, k: nat)
    requires k > 0
    ensures n % k == 0 ==> (n + k - 1) / k == n / k
    ensures n % k != 0 ==> (n + k - 1) / k == n / k + 1
  {
    var q, r := n / k, n % k;
    if r == 0 {
      DivUnique(n + k - 1, k, q, k - 1);
    } else {
      assert n + k - 1 == (q + 1) * k + (r - 1);
      DivUnique(n + k - 1, k, q + 1, r - 1);
    }
  }

  /** Taking `k` off a count takes one off its quotient and leaves its remainder. */
  lemma DivSub(n: nat, k: nat)
    requires 0 < k <= n
    ensures (n + k - 1) / k == (n - k + k - 1) / k + 1
    ensures n % k == (n - k) % k
  {
    var q, r := (n - k) / k, (n - k) % k;
    assert n == (q + 1) * k + r;
    DivUnique(n, k, q + 1, r);
    var q2, r2 := (n - 1) / k, (n - 1) % k;
    DivUnique(n - k + k - 1, k, q2, r2);
    assert n - 1 == (q2 - 1) * k + r2 + k;
    assert n + k - 1 == (q2 + 1) * k + r2;
    DivUnique(n + k - 1, k, q2 + 1, r2);
  }

  /** The batches of `size` items, the last one possibly shorter. */
  function Chunks<T>(items: seq<T>, size: nat): (r: seq<seq<T>>)
    requires size > 0
    decreases |items|
  {
    if |items| == 0 then []
    else if |items| <= size then [items]
    else [items[..size]] + Chunks(items[size..], size)
  }

  function Flatten<T>(xss: seq<seq<T>>): seq<T> {
    if |xss| == 0 then [] else xss[0] + Flatten(xss[1..])
  }

  /** Chunking loses nothing: the batches put back together are the items. */
  lemma {:induction false} ChunksFlatten<T>(items: seq<T>, size: nat)
    requires size > 0
    ensures Flatten(Chunks(items, size)) == items
    decreases |items|
  {
    if |items| > size {
      ChunksFlatten(items[size..], size);
      assert items == items[..size] + items[size..];
    } else if |items| > 0 {
      assert items + [] == items;
    }
  }

  /** Every batch holds between 1 and `size` items, all but the last exactly
      `size`, and there are `ceil(n / size)` of them. */
  lemma {:induction false} ChunksShape<T>(items: seq<T>, size: nat)
    requires size > 0
    ensures var c := Chunks(items, size);
            && |c| == (|items| + size - 1) / size
            && (forall b :: 0 <= b < |c| ==> 0 < |c[b]| <= size)
            && (forall b :: 0 <= b < |c| - 1 ==> |c[b]| == size)
    decreases |items|
  {
    if |items| > size {
      ChunksShape(items[size..], size);
      DivSub(|items|, size);
    } else if |items| > 0 {
      DivUnique(|items| + size - 1, size, 1, |items| - 1);
    }
  }

  /** Appending an item either starts a new batch (the last one is full, or
      there is none) or grows the last batch. */
  lemma {:induction false} ChunksSnoc<T>(items: seq<T>, x: T, size: nat)
    requires size > 0
    ensures |items| % size == 0 ==> Chunks(items + [x], size) == Chunks(items, size) + [[x]]
    ensures |items| % size != 0 ==>
              var c := Chunks(items, size);
              |c| > 0 && Chunks(items + [x], size) == c[..|c| - 1] + [c[|c| - 1] + [x]]
    decreases |items|
  {
    var s := items + [x];
    if |items| == 0 {
      assert s == [x];
    } else if |items| < size {
      DivUnique(|items|, size, 0, |items|);
    } else if |items| == size {
      DivUnique(|items|, size, 1, 0);
      assert s[..size] == items && s[size..] == [x];
    } else {
      ChunksSnoc(items[size..], x, size);
      assert s[..size] == items[..size] && s[size..] == items[size..] + [x];
      DivSub(|items|, size);
    }
  }

  /** `optimizeBatchQuery`: item `index` goes to batch `floor(index / batchSize)`,
      which is created when it does not exist yet. */
  method OptimizeBatchQuery<T>(items: seq<T>, batchSize: nat) returns (batches: seq<seq<T>>)
    requires batchSize > 0
    ensures batches == Chunks(items, batchSize)
    ensures Flatten(batches) == items
    ensures |batches| == (|items| + batchSize - 1) / batchSize
    ensures forall b :: 0 <= b < |batches| ==> 0 < |batches[b]| <= batchSize
    ensures forall b :: 0 <= b < |batches| - 1 ==> |batches[b]| == batchSize
  {
    batches := [];
    var index := 0;
    while index < |items|
      invariant 0 <= index <= |items|
      invariant batches == Chunks(items[..index], batchSize)
    {
      ChunksSnoc(items[..index], items[index], batchSize);
      ChunksShape(items[..index], batchSize);
      CeilDiv(index, batchSize);
      assert items[..index + 1] == items[..index] + [items[index]];
      var batchIndex := index / batchSize;
      ghost var c := Chunks(items[..index], batchSize);
      assert batchIndex == if index % batchSize == 0 then |c| else |c| - 1;
      if batchIndex >= |batches| {
        batches := batches + [[]];
      }
      batches := batches[batchIndex := batches[batchIndex] + [items[index]]];
      if index % batchSize == 0 {
        assert [] + [items[index]] == [items[index]];
        assert batches == c + [[items[index]]];
      } else {
        assert batches == c[..|c| - 1] + [c[|c| - 1] + [items[index]]];
      }
      index := index + 1;
    }
    assert items[..index] == items;
    ChunksFlatten(items, batchSize);
    ChunksShape(items, batchSize);
  }
}

=== FILE: records.dfy ===
/** What the agent tools share: the `{status, message, data}` envelope, the
    outcome of a call (a value, or a Python exception), and the linear scans the
    tools use to find records. */
module Records {
  import opened Common
  import opened PyValue

  datatype Status = Success | Error

  /** The `data` field: `None`, one record, or a list of records. */
  datatype Data = NoData | One(record: Record) | Many(records: seq<Record>)

  datatype Envelope = Envelope(status: Status, message: string, data: Data)

  /** The exceptions a tool can let escape. */
  datatype Exc = KeyError(key: string) | AttributeError

  /** A Python call either returns a value or raises. */
  datatype Py<+T> = Ok(value: T) | Raised(exc: Exc)

  /** The reply of a CRUD tool together with the collection as it is stored
      afterwards (the collection is rewritten only on the success paths that
      call `write_json_file`). */
  datatype Step = Step(reply: Envelope, coll: seq<Record>)

  /** The tool's `data` argument: `None`, or a dict. */
  type Payload = Option<Record>

  function Fail(message: string): (e: Envelope)
    ensures e.status == Error && e.data == NoData
  {
    Envelope(Error, message, NoData)
  }

  /** A dict is truthy iff it is not empty; `None` is falsy. */
  predicate PayloadTruthy(data: Payload) {
    data.Some? && |data.value| > 0
  }

  /** The payload is a dictionary whose `k` is present and truthy. */
  predicate HasTruthy(data: Payload, k: string) {
    data.Some? && Truthy(Get(data.value, k, Null))
  }

  /** An empty dict has no keys, so `not d` already rules out every lookup. */
  lemma EmptyLacks(d: Record, k: string)
    ensures |d| == 0 ==> k !in d
  {
    if k in d {
      assert k in d.Keys;
    }
  }

  /** `uid` is not the id of any stored record. */
  predicate IdFree(coll: seq<Record>, uid: string) {
    forall i :: 0 <= i < |coll| ==> Get(coll[i], "id", Null) != Str(uid)
  }

  /** Every stored record has the key `k`. */
  predicate AllHave(coll: seq<Record>, k: string) {
    forall i :: 0 <= i < |coll| ==> k in coll[i]
  }

  /** Record `r` has the value `x` under `k`, looked up leniently (a missing key reads as `None`). */
  predicate GetMatches(r: Record, k: string, x: Value) {
    PyEq(Get(r, k, Null), x)
  }

  /** The index of the first record with `x` under `k`, looked up leniently. */
  function FindGet(coll: seq<Record>, k: string, x: Value, from: nat := 0): (r: Option<nat>)
    requires from <= |coll|
    ensures r.Some? ==> from <= r.value < |coll| && GetMatches(coll[r.value], k, x)
                        && forall j :: from <= j < r.value ==> !GetMatches(coll[j], k, x)
    ensures r.None? ==> forall j :: from <= j < |coll| ==> !GetMatches(coll[j], k, x)
    decreases |coll| - from
  {
    if from == |coll| then None
    else if GetMatches(coll[from], k, x) then Some(from)
    else FindGet(coll, k, x, from + 1)
  }

  /** The first index that matches is the one the lookup returns. */
  lemma FindGetFirst(coll: seq<Record>, k: string, x: Value, i: nat)
    requires i < |coll| && GetMatches(coll[i], k, x)
    requires forall j :: 0 <= j < i ==> !GetMatches(coll[j], k, x)
    ensures FindGet(coll, k, x) == Some(i)
  {
  }

  /** The records that do not have `x` under `k`, looked up leniently. */
  function RemoveGet(coll: seq<Record>, k: string, x: Value): (r: seq<Record>)
    ensures |r| <= |coll|
    ensures forall i :: 0 <= i < |r| ==> !GetMatches(r[i], k, x)
    ensures forall i :: 0 <= i < |coll| && !GetMatches(coll[i], k, x) ==> coll[i] in r
    ensures forall i :: 0 <= i < |r| ==> r[i] in coll
    ensures |r| == |coll| <==> forall i :: 0 <= i < |coll| ==> !GetMatches(coll[i], k, x)
    decreases |coll|
  {
    if |coll| == 0 then []
    else
      var rest := RemoveGet(coll[1..], k, x);
      assert forall i :: 1 <= i < |coll| ==> coll[i] == coll[1..][i - 1];
      if GetMatches(coll[0], k, x) then rest else [coll[0]] + rest
  }

  /** The records that have key `k` with a value equal to `x`: the records linked to `x`. */
  function Linked(coll: seq<Record>, k: string, x: Value): (r: seq<Record>)
    ensures |r| <= |coll|
    ensures forall i :: 0 <= i < |r| ==> k in r[i] && PyEq(r[i][k], x) && r[i] in coll
    ensures forall i :: 0 <= i < |coll| && k in coll[i] && PyEq(coll[i][k], x) ==> coll[i] in r
    decreases |coll|
  {
    if |coll| == 0 then []
    else
      var rest := Linked(coll[1..], k, x);
      assert forall i :: 1 <= i < |coll| ==> coll[i] == coll[1..][i - 1];
      if k in coll[0] && PyEq(coll[0][k], x) then [coll[0]] + rest else rest
  }

  /** One step of the removal: the first record is dropped or kept in front. */
  lemma RemoveGetCons(c: seq<Record>, k: string, x: Value)
    requires |c| > 0
    ensures RemoveGet(c, k, x) == Unless(k, x)(c[0]) + RemoveGet(c[1..], k, x)
  {
  }

  /** One step of the selection: the first record is kept in front or dropped. */
  lemma LinkedCons(c: seq<Record>, k: string, x: Value)
    requires |c| > 0
    ensures Linked(c, k, x) == When(k, x)(c[0]) + Linked(c[1..], k, x)
  {
  }

  /** A record on its own: dropped when it has `x` under `k` (leniently), kept otherwise. */
  function Unless(k: string, x: Value): Record -> seq<Record> {
    r => if GetMatches(r, k, x) then [] else [r]
  }

  /** A record on its own: kept when it has key `k` with a value equal to `x`. */
  function When(k: string, x: Value): Record -> seq<Record> {
    r => if k in r && PyEq(r[k], x) then [r] else []
  }

  /** Removal handles each record on its own, in stored order. */
  lemma {:induction false} RemoveGetIsFlatMap(coll: seq<Record>, k: string, x: Value)
    ensures RemoveGet(coll, k, x) == FlatMap(coll, Unless(k, x))
    decreases |coll|
  {
    if |coll| > 0 {
      RemoveGetIsFlatMap(coll[1..], k, x);
      RemoveGetCons(coll, k, x);
      FlatMapCons(coll, Unless(k, x));
    }
  }

  /** Selection handles each record on its own, in stored order. */
  lemma {:induction false} LinkedIsFlatMap(coll: seq<Record>, k: string, x: Value)
    ensures Linked(coll, k, x) == FlatMap(coll, When(k, x))
    decreases |coll|
  {
    if |coll| > 0 {
      LinkedIsFlatMap(coll[1..], k, x);
      LinkedCons(coll, k, x);
      FlatMapCons(coll, When(k, x));
    }
  }

  /** Removal works piecewise: the kept records stay in stored order, each once. */
  lemma RemoveGetAppend(a: seq<Record>, b: seq<Record>, k: string, x: Value)
    ensures RemoveGet(a + b, k, x) == RemoveGet(a, k, x) + RemoveGet(b, k, x)
  {
    RemoveGetIsFlatMap(a + b, k, x);
    RemoveGetIsFlatMap(a, k, x);
    RemoveGetIsFlatMap(b, k, x);
    FlatMapAppend(a, b, Unless(k, x));
  }

  /** Linking works piecewise: the linked records stay in stored order, each once. */
  lemma LinkedAppend(a: seq<Record>, b: seq<Record>, k: string, x: Value)
    ensures Linked(a + b, k, x) == Linked(a, k, x) + Linked(b, k, x)
  {
    LinkedIsFlatMap(a + b, k, x);
    LinkedIsFlatMap(a, k, x);
    LinkedIsFlatMap(b, k, x);
    FlatMapAppend(a, b, When(k, x));
  }



  // ---------------------------------------------------------------------------
  // Scans that subscript records directly (`r['id']`) and so can raise.

  datatype Scan = Hit(index: nat) | Miss | Fault(exc: Exc)

  /** The index of the first record with `x` under `k`, subscripting each
      record: raises `KeyError` on the first record without `k` that is
      reached before a match. */
  function ScanKey(coll: seq<Record>, k: string, x: Value, from: nat := 0): (r: Scan)
    requires from <= |coll|
    ensures r.Hit? ==> from <= r.index < |coll| && k in coll[r.index] && PyEq(coll[r.index][k], x)
                       && forall j :: from <= j < r.index ==> k in coll[j] && !PyEq(coll[j][k], x)
    ensures r.Miss? <==> forall j :: from <= j < |coll| ==> k in coll[j] && !PyEq(coll[j][k], x)
    ensures r.Fault? ==> r.exc == KeyError(k) && exists j :: from <= j < |coll| && k !in coll[j]
    decreases |coll| - from
  {
    if from == |coll| then Miss
    else if k !in coll[from] then Fault(KeyError(k))
    else if PyEq(coll[from][k], x) then Hit(from)
    else ScanKey(coll, k, x, from + 1)
  }

  /** Case-insensitive equality of field `k` with `query`, which raises unless both are strings. */
  function LowerEq(a: Record, k: string, query: Value): Py<bool> {
    if k !in a then Raised(KeyError(k))
    else if !a[k].Str? || !query.Str? then Raised(AttributeError)
    else Ok(Lower(a[k].s) == Lower(query.s))
  }

  /** The name test of the student lookup: `and` evaluates the surname only when
      the first names agree. */
  function NameTest(a: Record, nombre: Value, apellido: Value): Py<bool> {
    match LowerEq(a, "nombre", nombre)
    case Raised(e) => Raised(e)
    case Ok(same) => if !same then Ok(false) else LowerEq(a, "apellido", apellido)
  }

  /** A record whose name, case aside, is the one asked for. */
  predicate NamedAs(a: Record, nombre: string, apellido: string) {
    && "nombre" in a && a["nombre"].Str? && Lower(a["nombre"].s) == Lower(nombre)
    && "apellido" in a && a["apellido"].Str? && Lower(a["apellido"].s) == Lower(apellido)
  }

  /** Every student a name lookup can reach has string names. */
  predicate NamesAreStrings(coll: seq<Record>) {
    forall i :: 0 <= i < |coll| ==>
      "nombre" in coll[i] && coll[i]["nombre"].Str? && "apellido" in coll[i] && coll[i]["apellido"].Str?
  }

  /** `next((a for a in coll if a['nombre'].lower() == nombre.lower() and
      a['apellido'].lower() == apellido.lower()), None)`. */
  function ScanName(coll: seq<Record>, nombre: Value, apellido: Value, from: nat := 0): (r: Scan)
    requires from <= |coll|
    ensures r.Hit? ==> from <= r.index < |coll|
    decreases |coll| - from
  {
    if from == |coll| then Miss
    else match NameTest(coll[from], nombre, apellido)
      case Raised(e) => Fault(e)
      case Ok(true) => Hit(from)
      case Ok(false) => ScanName(coll, nombre, apellido, from + 1)
  }

  /** With string names on both sides the lookup cannot raise, and it finds the
      first student whose name matches case-insensitively. */
  lemma {:induction false} ScanNameFindsFirst(coll: seq<Record>, nombre: string, apellido: string, from: nat)
    requires from <= |coll|
    requires NamesAreStrings(coll)
    ensures var r := ScanName(coll, Str(nombre), Str(apellido), from);
            && !r.Fault?
            && (r.Hit? ==> NamedAs(coll[r.index], nombre, apellido)
                           && forall j :: from <= j < r.index ==> !NamedAs(coll[j], nombre, apellido))
            && (r.Miss? ==> forall j :: from <= j < |coll| ==> !NamedAs(coll[j], nombre, apellido))
    decreases |coll| - from
  {
    if from < |coll| {
      ScanNameFindsFirst(coll, nombre, apellido, from + 1);
    }
  }

  /** The first student whose name matches is the one the lookup returns. */
  lemma ScanNameFirst(coll: seq<Record>, nombre: string, apellido: string, i: nat)
    requires NamesAreStrings(coll)
    requires i < |coll| && NamedAs(coll[i], nombre, apellido)
    requires forall j :: 0 <= j < i ==> !NamedAs(coll[j], nombre, apellido)
    ensures ScanName(coll, Str(nombre), Str(apellido)) == Hit(i)
  {
    ScanNameFindsFirst(coll, nombre, apellido, 0);
  }
}

=== FILE: shift_form.dfy ===
/** The shift form, `src/app/configuracion/turnos/ShiftForm.tsx`: its initial
    values and the checks made before `onSave`. */
module ShiftForm {
  import opened Common
  import opened ErrorHandling
  import Citas

  /** A shift as stored; `isActive` may be `null`. */
  datatype Shift = Shift(name: string, startTime: string, endTime: string, isActive: Option<bool>)

  /** The form's state. */
  datatype Form = Form(name: string, startTime: string, endTime: string, isActive: bool)

  /** The initial state: the shift's fields, or empty ones for a new shift,
      which starts active; a stored `null` activity also reads as active. */
  function InitialForm(shift: Option<Shift>): (f: Form)
    ensures shift.None? ==> f == Form("", "", "", true)
    ensures shift.Some? ==> f.name == shift.value.name && f.startTime == shift.value.startTime
                            && f.endTime == shift.value.endTime
    ensures f.isActive <==> shift.None? || shift.value.isActive != Some(false)
  {
    match shift
    case None => Form("", "", "", true)
    case Some(s) => Form(s.name, s.startTime, s.endTime, if s.isActive.Some? then s.isActive.value else true)
  }

  const RequiredMessage: string := "Todos los campos son obligatorios"
  const OrderMessage: string := "El horario de inicio debe ser menor al de fin"

  /** `handleSubmit`: a blank name or an empty time is refused first, then a
      start that is not strictly before the end (string order); otherwise
      `onSave` gets the form, once. */
  function HandleSubmit(form: Form): (r: Outcome<Form>)
    ensures r.Submitted? <==> Trim(form.name) != "" && form.startTime != "" && form.endTime != ""
                              && StrLt(form.startTime, form.endTime)
    ensures r.Submitted? ==> r.arg == form
    ensures Trim(form.name) == "" || form.startTime == "" || form.endTime == "" ==> r == Rejected(RequiredMessage)
    ensures (Trim(form.name) != "" && form.startTime != "" && form.endTime != ""
             && !StrLt(form.startTime, form.endTime)) ==> r == Rejected(OrderMessage)
  {
    if Trim(form.name) == "" || form.startTime == "" || form.endTime == "" then Rejected(RequiredMessage)
    else if !StrLt(form.startTime, form.endTime) then Rejected(OrderMessage)
    else Submitted(form)
  }

  /** A shift that ends when it starts is refused. */
  lemma EqualTimesRejected(name: string, t: string, active: bool)
    requires Trim(name) != "" && t != ""
    ensures HandleSubmit(Form(name, t, t, active)) == Rejected(OrderMessage)
  {
    StrLtIrreflexive(t);
  }

  /** For `HH:MM` times the string order is the order of the day, so a shift
      is saved exactly when it starts before it ends. */
  lemma ClockShiftSaved(name: string, start: Citas.Minute, end: Citas.Minute, active: bool)
    requires Trim(name) != ""
    ensures HandleSubmit(Form(name, Citas.Clock(start), Citas.Clock(end), active)).Submitted? <==> start < end
  {
    Citas.ClockOrder(start, end);
  }
}
